=== FILE: README.md ===
# Annotation canvas and label store: a Dafny model

This project models the sequential core of an image annotation tool: a web app for drawing
rectangles, polygons and points on images, attaching categories to them, and reviewing labels
that an open-set detector proposes. The model is functional throughout. Each event handler of a
React component or hook is a pure function from the old state to the new state. Any callbacks the
handler fires are returned as a list of `Emit` values:

- `LabelCreated`: a shape is finished.
- `LabelAdded`: a shape is added with a category.
- `RegionSelected`: a reference region is reported.
- `LabelDeleted`: a label is deleted.
- `MissingCallback`: a call through a callback the component never received.

Geometry is over Dafny `real`.

| file | module | models |
|---|---|---|
| common.dfy | Common | `Option`, points and boxes, min/max/abs, order-preserving `Filter`, `findIndex`, ECMAScript `trim`, ASCII `toLowerCase`, `includes` on strings |
| labels.dfy | Labels | the tagged `Label` record, `Partial<Label>` as `Patch`, and the object spread `{...l, ...p}` as `Merge` |
| geometry.dfy | Geometry | `getLabelBounds`, `isPointInLabel` (including the even-odd ray cast as a loop), `getLabelTypeIconName` |
| colors.dfy | Colors | the 32-bit string hash, palette index, `getCategoryColor`, `getLabelColor` |
| viewport.dfy | Viewport | screen/image transform, zoom about an anchor, the ×1.2 and ×1.1 zoom steps with their [0.1, 10] guard, fit-to-stage, pan |
| canvas_state.dfy | CanvasState | the drawing state of `useCanvasState`, the point buffer ↔ vertex list, selection toggle, delete, zoom, cancel |
| interactions.dfy | Interactions | the mouse, double-click and wheel handlers of `useCanvasInteractions` |
| canvas_context.dfy | CanvasContext | `CanvasContext`: tool memory, reset, zoom, cancel |
| annotation_canvas.dfy | AnnotationCanvas | the self-contained `AnnotationCanvas` handlers |
| canvas.dfy | Canvas | `canvas/Canvas.tsx`: its handlers, panning, and the pending-label flow through the category dialog |
| optimized_canvas.dfy | OptimizedCanvas | `OptimizedCanvas`: its selection guard, and the hook as this component wires it |
| variants.dfy | Variants | where the three canvases agree and disagree |
| dummy_data.dfy | DummyData | the in-memory store of `useDummyData` |
| ai_panel.dfy | AiPanel | `AISuggestionPanel` |
| dataset_page.dfy | DatasetPage | `DatasetDetailPage` |
| label_dialog.dfy | LabelDialog | `LabelSelectionDialog` |
| prompt_dialog.dfy | PromptDialog | the local label list of `ImagePromptDialog` |
| new_dataset.dfy | NewDataset | the three-step `NewDatasetDialog` wizard |

**Modelling conventions**

- **Inputs.** Pointer positions, `Date.now()` ids and image and stage sizes are parameters.
- **Upload progress.** The upload interval is a loop of ten ticks.
- **Callback wiring.** A component may or may not have been handed a callback. This is a `Wiring` parameter.
- **Point buffer.** The source keeps points as a flat `number[]`. The model keeps a `seq<real>` of even length.
- **State invariant.** `CanvasState.Valid` requires a positive scale.

## Model

| member | source | states |
|---|---|---|
| Geometry.CornerBox | src/utils/labelUtils.ts:23-29 | the rect bounds have non-negative width and height, contain both corners, and their near and far edges are the min and max of the corners' coordinates, so corner order is irrelevant |
| Geometry.VertexBox | src/utils/labelUtils.ts:33-46 | the polygon bounds contain every vertex, width and height are non-negative, and each of the four edges is attained by some vertex |
| Geometry.Bounds | src/utils/labelUtils.ts:22-50 | a label with the wrong coordinate count gets the all-zero box; a well-formed one gets a box of non-negative size containing all its coordinates; a point gets the 10×10 box centred on it |
| Geometry.CrossingX | src/utils/labelUtils.ts:75 | whenever the guard `(yi > y) !== (yj > y)` holds, `yj − yi` is non-zero, so the division is defined, and the intersection lies between `xi` and `xj` |
| Geometry.RayCast | src/utils/labelUtils.ts:68-79 | the loop over edges (i, j = i−1 cyclic) that flips `inside` per crossing returns true exactly when the ray crosses an odd number of edges |
| Geometry.IsPointInLabel | src/utils/labelUtils.ts:53-83 | only a label with the right coordinate count for its type is ever hit; a rect is hit exactly inside its bounds, a point label exactly within radius 10 of its point, a polygon exactly when the ray cast from the point crosses its edges an odd number of times; a polygon hit lies inside its bounds; a point hit lies within 10 of the point along each axis |
| Geometry.TypeIconName | src/utils/labelUtils.ts:85-96 | "rect", "polygon" and "point" map to their icons, and "Tag" is returned exactly for any other string |
| Geometry.IconPerType | src/utils/labelUtils.ts:85-96 | every label type has its own icon and none falls back to "Tag" |
| Geometry.RectHitCornerOrder | src/utils/labelUtils.ts:54-61 | swapping a rect's two corners changes neither hit-testing nor its bounds |
| Geometry.RectHitIffInBounds | src/utils/labelUtils.ts:22-61 | for a well-formed rect, a point hits exactly when it lies (inclusively) in the rect's bounds |
| Geometry.PointHitAlongAxis | src/utils/labelUtils.ts:62-67 | along either axis a point label is hit exactly within distance 10, boundary included |
| Geometry.PointHitReachesPastBounds | src/utils/labelUtils.ts:22-67 | the hit disc of radius 10 reaches beyond the 10×10 bounds box: a point 8 to the right is hit yet outside the bounds |
| Geometry.MalformedNeverHit | src/utils/labelUtils.ts:53-82 | a label whose coordinate count does not fit its type (rect ≠ 2, point ≠ 1, polygon ≤ 2) is never hit |
| Geometry.SideChangesParity | src/utils/labelUtils.ts:71-77 | round the closed edge list the horizontal line through the point is crossed an even number of times |
| Geometry.CrossingsLeftOfPolygon | src/utils/labelUtils.ts:71-77 | for a point left of every vertex each side change is a ray crossing |
| Geometry.NoCrossings | src/utils/labelUtils.ts:71-77 | if no single edge meets the ray the crossing count is 0 |
| Geometry.PolygonInsideVertexBox | src/utils/labelUtils.ts:33-79 | a point the ray cast places inside a polygon lies within the min/max box of its vertices |
| Colors.ToInt32 | src/contexts/ColorContext.tsx:33 | `hash \|= 0` yields a signed 32-bit value congruent to the input modulo 2³² |
| Colors.CodeUnits | src/contexts/ColorContext.tsx:31-32 | `charCodeAt` ranges over UTF-16 code units, each below 0x10000, at least one per character |
| Colors.HashStep | src/contexts/ColorContext.tsx:32-33 | one fold step stays a signed 32-bit value |
| Colors.HashOf | src/contexts/ColorContext.tsx:30-34 | the hash of any string is a signed 32-bit value |
| Colors.ToInt32Congruent | src/contexts/ColorContext.tsx:33 | values congruent modulo 2³² convert to the same 32-bit value |
| Colors.HashStepIsTimes31 | src/contexts/ColorContext.tsx:32-33 | `((h << 5) − h) + c` then `\|0` is 31·h + c reduced to signed 32 bits |
| Colors.HashOfSnoc | src/contexts/ColorContext.tsx:30-34 | appending a code unit folds it in as 31·h + c reduced to 32 bits |
| Colors.PaletteIndexIgnoresSign | src/contexts/ColorContext.tsx:37 | `Math.abs` makes h and −h pick the same colour |
| Colors.CategoryHash | src/contexts/ColorContext.tsx:28-34 | the loop over the code units computes the fold from hash 0 |
| Colors.PaletteIndex | src/contexts/ColorContext.tsx:37 | `Math.abs(hash) % 8` is a valid palette index for every 32-bit hash |
| Colors.CategoryColor | src/contexts/ColorContext.tsx:28-39 | every category gets a palette colour, never the AI colour |
| Colors.LabelColor | src/contexts/ColorContext.tsx:42-47 | the result is the AI colour exactly for AI suggestions, otherwise a palette colour |
| Colors.LabelColorProvenance | src/contexts/ColorContext.tsx:42-47 | AI suggestions share one colour whatever their category; other labels get `getCategoryColor` of their category, equal for equal categories |
| Colors.AiColorOutsidePalette | src/contexts/ColorContext.tsx:5-17 | "#2563EB" is none of the eight palette entries |
| Colors.MostNegativeHashIndex | src/contexts/ColorContext.tsx:37 | the hash −2³¹ still gives a valid index, 0 |
| Colors.EmptyCategoryColor | src/contexts/ColorContext.tsx:5-38 | the empty category hashes to 0 and gets "#F97316" |
| Colors.HashExample | src/contexts/ColorContext.tsx:28-38 | "ab" hashes to 3105 and gets the second palette entry |
| Viewport.ToImage | src/hooks/useCanvasInteractions.ts:55-56 | the image point `(p − position)/scale` is the one that the view maps back to `p` |
| Viewport.ToScreen | src/components/OptimizedCanvas.tsx:232-237 | the layer transform places image point `q` at the screen point that converts back to `q` |
| Viewport.TransformRoundTrip | src/hooks/useCanvasInteractions.ts:55-56 | `(p − position)/scale` and `q·scale + position` are mutually inverse for non-zero scale |
| Viewport.ZoomAbout | src/contexts/CanvasContext.tsx:91-102 | re-positioning for a new scale keeps the image point under the anchor fixed |
| Viewport.ZoomAboutRoundTrip | src/contexts/CanvasContext.tsx:91-102 | zooming about an anchor and back to the old scale restores the view |
| Viewport.ZoomIn | src/contexts/CanvasContext.tsx:85-103 | above 10 the zoom is rejected; otherwise the scale is ×1.2 and the stage centre's image point is fixed |
| Viewport.ZoomOut | src/contexts/CanvasContext.tsx:105-123 | below 0.1 the zoom is rejected; otherwise the scale is ÷1.2 and the stage centre's image point is fixed |
| Viewport.Wheel | src/hooks/useCanvasInteractions.ts:217-241 | the wheel scales ×1.1 (up) or ÷1.1 (down), leaves the view unchanged outside [0.1, 10], and keeps the image point under the pointer |
| Viewport.ZoomKeepsRange | src/contexts/CanvasContext.tsx:85-123 | a scale in [0.1, 10] stays there under zoom in, zoom out and the wheel |
| Viewport.ZoomBounded | src/contexts/CanvasContext.tsx:85-123 | zooming in never exceeds max(scale, 10) and zooming out never goes below min(scale, 0.1) |
| Viewport.ZoomInOutRoundTrip | src/contexts/CanvasContext.tsx:85-123 | an accepted zoom in followed by zoom out (and vice versa) restores the view |
| Viewport.FitView | src/contexts/CanvasContext.tsx:127-135 | the fitted scale is 0.9 times the finite ratio, and the scaled image is centred on the stage |
| Viewport.FitAsWritten | src/hooks/useCanvasState.ts:61-73 | as written: no change for a zero stage side; on a non-zero stage the result is non-finite exactly when the image has no positive side to fit (0×0, or a zero side whose infinite ratio is negative), otherwise the centred fit |
| Viewport.Fit | src/contexts/CanvasContext.tsx:125-137 | as intended: nothing changes for a zero stage side or an image that cannot be fitted finitely; for a positive image the scale is 0.9·min(W/w, H/h) and the scaled image is centred |
| Viewport.FitAgreesWhereFinite | src/contexts/CanvasContext.tsx:125-137 | wherever the code as written yields a finite view the intended fit is that view; elsewhere the intended fit keeps the view |
| Viewport.ResetBeforeLoad | src/hooks/useCanvasState.ts:61-73 | a reset with a 0×0 image on a non-empty stage gives a non-finite view as written, and leaves the view as intended |
| Viewport.FitFillsNinetyPercent | src/contexts/CanvasContext.tsx:125-137 | after a finite fit on a positive stage, the scale is positive and the image covers at most 90% of each stage side and exactly 90% of one, a zero image side included |
| Viewport.Pan | src/hooks/useCanvasInteractions.ts:102-108 | panning adds the movement to the position and keeps the scale |
| Viewport.PanFollowsPointer | src/hooks/useCanvasInteractions.ts:102-108 | after panning by the pointer's movement, the image point under the pointer is the one it was under before |
| Labels.Merge | src/hooks/useDummyData.tsx:188-195 | `{...label, ...updatedLabel}`: each field present in the patch is taken from it, every other field is kept |
| Labels.FromPatch | src/hooks/useDummyData.tsx:183-187 | a complete patch stored as a label under `labelId` has that id and is a fixed point of merging the patch |
| Labels.MergeIdentities | src/hooks/useDummyData.tsx:188-195 | merging the empty patch is the identity; merging a full label yields that label |
| Labels.MergeIdempotent | src/hooks/useDummyData.tsx:188-195 | merging the same patch twice is merging it once |
| CanvasState.InitialValid | src/hooks/useCanvasState.ts:5-14 | the initial state is valid, at scale 1 in range, not drawing or dragging, with an empty buffer |
| CanvasState.Pairs | src/hooks/useCanvasInteractions.ts:198-214 | a flat buffer of 2n numbers becomes n vertices, vertex i being (points[2i], points[2i+1]) |
| CanvasState.Flatten | src/hooks/useCanvasInteractions.ts:84-91 | a vertex list flattens to x, y pairs in order |
| CanvasState.PairsFlattenRoundTrip | src/hooks/useCanvasInteractions.ts:84-214 | pairing and flattening are mutually inverse on even-length buffers |
| CanvasState.PairsSnoc | src/hooks/useCanvasInteractions.ts:84-91 | appending two numbers to the buffer appends one vertex |
| CanvasState.CollectPairs | src/hooks/useCanvasInteractions.ts:198-214 | the pairing loop yields n/2 vertices, vertex i being (points[2i], points[2i+1]) |
| CanvasState.ToggleSelection | src/components/AnnotationCanvas.tsx:189-191 | clicking the selected label deselects it; any other id becomes the sole selection |
| CanvasState.ToggleTwice | src/components/AnnotationCanvas.tsx:189-191 | clicking the same label twice ends with it selected if it started selected, and with nothing selected otherwise |
| CanvasState.DeleteSelected | src/components/AnnotationCanvas.tsx:194-199 | with a (non-empty) selection, exactly one delete for that id is emitted and the selection cleared; otherwise nothing happens |
| CanvasState.DeleteSelectedOnce | src/components/AnnotationCanvas.tsx:194-199 | a second delete emits nothing |
| CanvasState.ResetDrawing | src/hooks/useCanvasState.ts:16-19 | drawing off and buffer empty, nothing else changes |
| CanvasState.ZoomIn | src/hooks/useCanvasState.ts:21-39 | only the view changes; the scale grows by 1.2 unless that passes 10, when it stays; the scale stays positive and in range, and the stage centre's image point is fixed |
| CanvasState.ZoomOut | src/hooks/useCanvasState.ts:41-59 | only the view changes; the scale shrinks by 1.2 unless that falls below 0.1, when it stays; the scale stays positive and in range, and the stage centre's image point is fixed |
| CanvasState.ResetZoom | src/hooks/useCanvasState.ts:61-73 | the reset as evidently intended (the code as written is Viewport.ResetBeforeLoad, see Findings): a no-op for a zero-size stage and for a 0×0 image; a positive image is fitted and centred at 0.9·min ratio; a finite fit on a positive stage fills at most 90% of each side and exactly 90% of one; only the view changes and validity is kept |
| CanvasState.ImageLoaded | src/components/AnnotationCanvas.tsx:60-87 | loading marks the image loaded and fits the view; nothing else changes |
| CanvasState.CancelDrawing | src/hooks/useCanvasState.ts:75-84 | drawing off and buffer empty; in select mode the box is cleared and the tool kept, otherwise the tool becomes select and the box is kept |
| CanvasState.ResetAndCancelIdempotent | src/hooks/useCanvasState.ts:16-84 | resetting or cancelling twice is doing it once |
| Interactions.Created | src/hooks/useCanvasInteractions.ts:80-83 | a finished shape calls `onLabelCreated` when wired, otherwise a call through the missing callback |
| Interactions.NormalizedCorners | src/hooks/useCanvasInteractions.ts:173-194 | the rect is stored as [[min x, min y], [max x, max y]] of the two corners, sides equal to the absolute differences |
| Interactions.NormalizedRegion | src/hooks/useCanvasInteractions.ts:148-169 | the region is moved to its min corner with absolute size, still spanning both drag ends |
| Interactions.MouseDown | src/hooks/useCanvasInteractions.ts:50-93 | nothing before load; a middle press only starts dragging; a select-mode press starts drawing a 0×0 box at the pointer; an idle rect press stores `[x, y, x, y]` and starts drawing; an idle polygon press stores `[x, y]`, and each later click appends exactly `[x, y]`; an idle point press reports the point; every other press changes nothing; the view, tool, selection and stage never change |
| Interactions.MouseMove | src/hooks/useCanvasInteractions.ts:96-137 | nothing before load; while dragging only the position moves by the movement; while drawing a rect only the second corner changes; the select box follows the pointer |
| Interactions.MouseUp | src/hooks/useCanvasInteractions.ts:140-195 | dragging only stops dragging; a rect is reported only past 5 each way, a region only past 10; drawing ends unless a missing callback throws first |
| Interactions.DblClick | src/hooks/useCanvasInteractions.ts:198-214 | a no-op unless polygon, drawing and ≥ 6 numbers; then the vertex pairs are reported and drawing ends |
| Interactions.Wheel | src/hooks/useCanvasInteractions.ts:217-241 | only the view changes, the image point under the pointer is fixed and the scale stays in range; an accepted step without `setScale` throws with the view unchanged, and with it sets the ×1.1 or ÷1.1 scale |
| Interactions.DragRectangle | src/hooks/useCanvasInteractions.ts:50-195 | press, move, release with the rect tool reports the normalised rect exactly when both sides exceed 5 and ends idle with the tool unchanged |
| Interactions.DraggedRectCoversEnds | src/hooks/useCanvasInteractions.ts:173-194 | the reported rect is well formed and its bounds contain the press and release points |
| Interactions.ClickTriangle | src/hooks/useCanvasInteractions.ts:84-214 | three clicks and a double-click report the triangle of the three image points and end idle |
| Interactions.ShortPolygonKeepsDrawing | src/hooks/useCanvasInteractions.ts:198-214 | a double-click on fewer than three vertices changes nothing |
| Interactions.ClickPoint | src/hooks/useCanvasInteractions.ts:80-83 | a point click reports one single-vertex point and never starts drawing |
| Interactions.DragRegion | src/hooks/useCanvasInteractions.ts:50-169 | a select-mode drag keeps and reports the normalised region (containing both ends) exactly when both sides exceed 10, else clears it; drawing ends |
| Interactions.MiddleButtonPan | src/hooks/useCanvasInteractions.ts:58-144 | a middle-button drag pans by the movement and changes nothing else |
| CanvasContext.InitialState | src/contexts/CanvasContext.tsx:52-68 | initially: select tool, last tool rect, scale 1 at the origin, not drawing, empty buffer, no box |
| CanvasContext.SetTool | src/contexts/CanvasContext.tsx:71-76 | the tool is always set; the last-used tool changes only for rect, polygon or point |
| CanvasContext.LastDrawingTool | src/contexts/CanvasContext.tsx:71-76 | the remembered tool is the previous one or a drawing tool from the sequence |
| CanvasContext.SetToolsRemembersLastDrawingTool | src/contexts/CanvasContext.tsx:71-76 | after any sequence of `setTool` calls the tool is the last one set and `lastUsedTool` the last drawing tool set (or the old one) |
| CanvasContext.LastDrawingToolShift | src/contexts/CanvasContext.tsx:71-76 | the last drawing tool of a sequence can be computed front to back |
| CanvasContext.ResetDrawing | src/contexts/CanvasContext.tsx:79-82 | drawing off and buffer empty, nothing else changes |
| CanvasContext.ZoomIn | src/contexts/CanvasContext.tsx:85-103 | only the view changes: the scale becomes ×1.2, or stays put when that would exceed 10; the stage centre's image point is fixed and the scale stays in range |
| CanvasContext.ZoomOut | src/contexts/CanvasContext.tsx:105-123 | only the view changes: the scale becomes ÷1.2, or stays put when that would drop below 0.1; the stage centre's image point is fixed and the scale stays in range |
| CanvasContext.ResetZoom | src/contexts/CanvasContext.tsx:125-137 | the reset as evidently intended (the code as written divides unguarded like the hook's, Viewport.ResetBeforeLoad, see Findings): a no-op for a zero-size stage and for a 0×0 image; a positive image is fitted at 0.9·min ratio and centred on the stage; a finite fit on a positive stage fills at most 90% of each side; only the view changes and validity is kept |
| CanvasContext.CancelDrawing | src/contexts/CanvasContext.tsx:139-146 | drawing off and buffer empty, box cleared only in select mode, tool and last tool unchanged |
| AnnotationCanvas.MouseDown | src/components/AnnotationCanvas.tsx:90-118 | ignored with the select tool or before load; an idle rect press stores `[x, y, x, y]` and starts drawing; an idle polygon press stores `[x, y]`, and each later click appends exactly `[x, y]`; an idle point click adds an "未标注" point and switches to select; a press while drawing a rect or point changes nothing |
| AnnotationCanvas.MouseMove | src/components/AnnotationCanvas.tsx:121-137 | only a rect being drawn changes, and only its second corner |
| AnnotationCanvas.MouseUp | src/components/AnnotationCanvas.tsx:140-165 | a rect being drawn is added, normalised, only past 5 each way; drawing ends, the buffer empties and the tool becomes select regardless |
| AnnotationCanvas.DblClick | src/components/AnnotationCanvas.tsx:168-186 | with polygon, drawing and ≥ 6 numbers the polygon is added as "未标注" and the tool becomes select; otherwise nothing |
| AnnotationCanvas.LabelSelect | src/components/AnnotationCanvas.tsx:189-191 | clicking the selected label deselects it, any other becomes selected; nothing else changes |
| AnnotationCanvas.CancelDrawing | src/components/AnnotationCanvas.tsx:202-206 | drawing off, buffer empty, tool select, nothing else changes |
| AnnotationCanvas.DragRectangle | src/components/AnnotationCanvas.tsx:90-165 | a rect drag adds the normalised rect exactly when both sides exceed 5 and ends idle on the select tool |
| AnnotationCanvas.PointThenIdle | src/components/AnnotationCanvas.tsx:101-108 | a point click adds the point and switches to select, so a second click adds nothing |
| Canvas.LabelCreated | src/components/canvas/Canvas.tsx:67-73 | a created shape becomes pending and the dialog opens |
| Canvas.LabelSelected | src/components/canvas/Canvas.tsx:76-93 | with a pending shape, exactly one label with its type and coordinates and the chosen category is added and pending is cleared; without one nothing happens |
| Canvas.DialogClosed | src/components/canvas/Canvas.tsx:475-478 | closing the dialog drops the pending shape |
| Canvas.PendingLabelFlow | src/components/canvas/Canvas.tsx:67-93 | a created shape is added exactly once; after the dialog is closed choosing adds nothing |
| Canvas.DialogOutcome | src/components/canvas/Canvas.tsx:76-93 | the dialog's `onSelectLabel` adds at most one label, for the pending shape; `onClose` clears pending |
| Canvas.NewCategoryFlow | src/components/canvas/Canvas.tsx:67-93 | a shape then a new category confirmed with Enter is added once under the trimmed category, and the dialog ends closed |
| Canvas.SelectModeChanged | src/components/canvas/Canvas.tsx:101-105 | leaving select mode clears the selection box |
| Canvas.ImageLoaded | src/components/canvas/Canvas.tsx:125-152 | loading marks the image loaded and sets the view to the reset's: on a non-empty stage the scale is 0.9·min ratio and the image is centred, filling at most 90% of each side; nothing else changes |
| Canvas.MouseDown | src/components/canvas/Canvas.tsx:155-208 | with space or the move tool only dragging starts; a select-mode press starts drawing a 0×0 box at the pointer; a rect stores one corner; the first polygon press stores `[x, y]` and each later one appends exactly `[x, y]`; a point becomes pending with an empty buffer; the select tool changes nothing |
| Canvas.MouseMove | src/components/canvas/Canvas.tsx:210-237 | only the buffer's second corner or the select box change, the view and drawing flag do not |
| Canvas.MouseUp | src/components/canvas/Canvas.tsx:239-283 | panning only stops dragging; in select mode a region is reported, normalised, exactly when a box exists, a region callback is given and both sides exceed 5; a 4-number rect becomes pending in drag order past 5 each way |
| Canvas.NormalizedBox | src/components/canvas/Canvas.tsx:249-254 | shifting x or y by a negative size gives the same normalised box as the hook's |
| Canvas.DblClick | src/components/canvas/Canvas.tsx:285-300 | polygon while drawing: the pairs become pending with ≥ 6 numbers, and drawing always resets |
| Canvas.Wheel | src/components/canvas/Canvas.tsx:302-330 | only the view changes: the scale becomes ×1.1 for `deltaY < 0` and ÷1.1 otherwise, and a step leaving [0.1, 10] changes nothing; the image point under the pointer is fixed and the scale stays in range |
| Canvas.DragMove | src/components/canvas/Canvas.tsx:379-388 | while dragging with space or the move tool the view pans by the movement, otherwise nothing |
| Canvas.DragRectangle | src/components/canvas/Canvas.tsx:155-283 | a rect drag past 5 each way makes the raw corners, press point first, pending; the canvas ends idle either way |
| Canvas.ClickWithoutMoveKeepsDrawing | src/components/canvas/Canvas.tsx:264-280 | a click without a move leaves two numbers buffered and drawing on |
| Canvas.SpaceDragPans | src/components/canvas/Canvas.tsx:163-166 | with space held a press, drag and release pans by the movement and changes nothing else |
| OptimizedCanvas.AsWritten | src/components/OptimizedCanvas.tsx:68-85 | the hook is called with `onSelectRegion` but without `onLabelCreated` and without `setScale` |
| OptimizedCanvas.Wired | src/components/OptimizedCanvas.tsx:68-85 | the intended wiring passes `onLabelCreated` and `setScale` as well |
| OptimizedCanvas.ImageLoaded | src/components/OptimizedCanvas.tsx:115-129 | loading marks the image loaded and sets the view to the reset's: on a non-empty stage the scale is 0.9·min ratio, the image is centred, and it fills at most 90% of each side and exactly 90% of one; nothing else changes |
| OptimizedCanvas.Wheel | src/components/OptimizedCanvas.tsx:177-186 | wired as intended, the wheel never throws; an accepted step sets the ×1.1 or ÷1.1 scale about the pointer and a refused one changes nothing |
| OptimizedCanvas.WheelNeverZooms | src/hooks/useCanvasInteractions.ts:217-240 | as written, the wheel never changes the state; every step that would be accepted throws at the missing `setScale`, though the intended handler changes the scale there |
| OptimizedCanvas.PointClickReportsNothing | src/hooks/useCanvasInteractions.ts:80-83 | as written, a point-tool click throws at the missing callback and changes nothing; as intended it reports the point |
| OptimizedCanvas.LabelSelect | src/components/OptimizedCanvas.tsx:142-145 | ignored in select mode, otherwise a toggle |
| OptimizedCanvas.SelectModeChanged | src/components/OptimizedCanvas.tsx:88-92 | leaving select mode clears the selection box |
| OptimizedCanvas.SelectThenDelete | src/components/OptimizedCanvas.tsx:142-153 | selecting a label then deleting emits one delete for it and clears the selection; in select mode the click is ignored |
| OptimizedCanvas.MouseDown | src/components/OptimizedCanvas.tsx:161-163 | every button is forwarded: a middle press only starts dragging; with the callbacks wired, a press never reaches a missing callback, and only an idle point-tool press reports |
| OptimizedCanvas.MouseUp | src/components/OptimizedCanvas.tsx:169-171 | with the callbacks wired, a release never reaches a missing callback and a rect drag ends drawing |
| OptimizedCanvas.DblClick | src/components/OptimizedCanvas.tsx:173-175 | with the callbacks wired, a finished polygon is reported and drawing ends |
| OptimizedCanvas.RectDragLeavesDrawing | src/components/OptimizedCanvas.tsx:68-85 | as written, a rect drag past 5 each way reaches the missing callback, and the canvas stays drawing with the rect still buffered |
| OptimizedCanvas.RectDragExample | src/components/OptimizedCanvas.tsx:68-85 | the drag from (0, 0) to (20, 20) at scale 1 throws and leaves drawing on |
| OptimizedCanvas.PolygonStaysOpen | src/components/OptimizedCanvas.tsx:68-85 | as written, double-clicking a finished polygon throws and changes nothing |
| OptimizedCanvas.DragRectangle | src/components/OptimizedCanvas.tsx:62-85 | as intended, the rect drag reports the normalised rect past 5 each way and ends idle |
| Variants.RectCornersCoincide | src/components/canvas/Canvas.tsx:264-280 | Canvas.tsx's raw corners equal the hook's normalised ones exactly when the drag went right and down |
| Variants.RectCornersSameRegion | src/utils/labelUtils.ts:22-61 | raw and normalised corners give the same bounds and the same hits |
| Variants.EightByEightRegion | src/components/canvas/Canvas.tsx:245-261 | an 8×8 region is cleared by the hook but reported by Canvas.tsx |
| Variants.LargeRegionAgrees | src/components/canvas/Canvas.tsx:245-261 | past both thresholds the hook and Canvas.tsx report the same normalised region |
| Variants.ShortPolygon | src/components/canvas/Canvas.tsx:285-300 | on fewer than three vertices the hook keeps drawing while Canvas.tsx abandons the polygon |
| Variants.CancelTool | src/hooks/useCanvasState.ts:75-84 | cancel keeps the tool in the context but returns to select in useCanvasState and AnnotationCanvas; otherwise the three agree |
| Variants.PointClickTool | src/components/AnnotationCanvas.tsx:101-108 | a point click keeps the point tool in the hook but switches to select in AnnotationCanvas, which adds it as "未标注" |
| DummyData.ImagesOf | src/hooks/useDummyData.tsx:170-172 | an unknown dataset has no images |
| DummyData.LabelIndex | src/hooks/useDummyData.tsx:183 | the first label with the id, or −1 exactly when there is none |
| DummyData.ImageIndex | src/hooks/useDummyData.tsx:178 | an image with the id, or −1 exactly when there is none |
| DummyData.Upsert | src/hooks/useDummyData.tsx:183-195 | an absent id appends the label with that id (one more label); a present one merges into the first match in place, the rest unchanged |
| DummyData.RemoveLabel | src/hooks/useDummyData.tsx:210-213 | every label with the id goes, the others stay in order |
| DummyData.RemoveLabelAppend | src/hooks/useDummyData.tsx:210-213 | removal from a concatenation is the removal from each part, so the kept labels keep their order and multiplicity |
| DummyData.RemoveAbsentLabel | src/hooks/useDummyData.tsx:210-213 | removing an absent id changes nothing |
| DummyData.UpsertThenRemove | src/hooks/useDummyData.tsx:183-213 | upserting a label and then removing its id is removing it alone |
| DummyData.WithImage | src/hooks/useDummyData.tsx:197-198 | replacing one image leaves every other image, dataset and category list as it was |
| DummyData.UpdateImageLabel | src/hooks/useDummyData.tsx:175-200 | an unknown image changes nothing; otherwise only that image's labels are upserted |
| DummyData.DeleteImageLabel | src/hooks/useDummyData.tsx:203-216 | an unknown image changes nothing; otherwise only that image loses the labels with the id |
| DummyData.WithImageTwice | src/hooks/useDummyData.tsx:197-198 | the second replacement of the same image wins |
| DummyData.UpdateThenDelete | src/hooks/useDummyData.tsx:175-216 | updating a label and then deleting it equals deleting it |
| DummyData.FindIndexAgrees | src/hooks/useDummyData.tsx:178 | `findIndex` finds the same image after an update that keeps the earlier images and the match |
| DummyData.DeleteImageLabelIdempotent | src/hooks/useDummyData.tsx:203-216 | deleting twice is deleting once |
| DummyData.AddDataset | src/hooks/useDummyData.tsx:146-150 | the dataset is appended with its images and the default categories; other datasets' images are unchanged |
| DummyData.RemoveDataset | src/hooks/useDummyData.tsx:153-167 | the id leaves the dataset list, the image map and the category map; everything else is kept |
| DummyData.AddThenRemove | src/hooks/useDummyData.tsx:146-167 | adding a dataset then removing it equals removing it |
| DummyData.UpdateDatasetLabels | src/hooks/useDummyData.tsx:275-280 | only that dataset's category list is replaced |
| AiPanel.Suggestions | src/components/AISuggestionPanel.tsx:28-30 | exactly the AI labels of category "unknown", in order |
| AiPanel.SuggestionsAppend | src/components/AISuggestionPanel.tsx:28-30 | the suggestions of a concatenation are those of each part, in order |
| AiPanel.Toggle | src/components/AISuggestionPanel.tsx:54-60 | a ticked id is removed, an unticked one appended, and a duplicate-free selection stays duplicate-free |
| AiPanel.ToggleTwice | src/components/AISuggestionPanel.tsx:54-60 | ticking and unticking an id restores the selection |
| AiPanel.Ids | src/components/AISuggestionPanel.tsx:50 | the ids of the suggestions, in order |
| AiPanel.SelectAll | src/components/AISuggestionPanel.tsx:46-52 | with as many ticks as suggestions all are cleared, otherwise exactly the suggestion ids are ticked in order |
| AiPanel.SelectAllTwice | src/components/AISuggestionPanel.tsx:46-52 | select-all from nothing ticks all, and pressing it again clears |
| AiPanel.CategoryChange | src/components/AISuggestionPanel.tsx:62-67 | only that id's category changes |
| AiPanel.CategoryChangeIsChosen | src/components/AISuggestionPanel.tsx:62-67 | a non-empty category picked for a suggestion is the one its accepted label gets; every other suggestion keeps the category it would get before |
| AiPanel.ChosenCategory | src/components/AISuggestionPanel.tsx:75 | the chosen category if non-empty, else the first category if non-empty, else "物体"; never empty |
| AiPanel.FindSuggestion | src/components/AISuggestionPanel.tsx:71 | a suggestion with the id, or none exactly when there is no such suggestion |
| AiPanel.Accepted | src/components/AISuggestionPanel.tsx:69-80 | at most one label per ticked id |
| AiPanel.AcceptedStep | src/components/AISuggestionPanel.tsx:70-78 | each further ticked id adds its suggestion, recategorised, at the end, or nothing when it is not found |
| AiPanel.AcceptedAreRecategorised | src/components/AISuggestionPanel.tsx:69-80 | each accepted label is a suggestion with a non-empty category, and if every tick is found none is lost |
| AiPanel.AcceptSelected | src/components/AISuggestionPanel.tsx:69-80 | each ticked suggestion found is handed back with its category filled in, the others are skipped, and the selection is cleared |
| DatasetPage.NextFilter | src/pages/DatasetDetailPage.tsx:189 | the filter button always changes the filter |
| DatasetPage.FilterCycle | src/pages/DatasetDetailPage.tsx:189 | three presses return to the start, visiting all three filters |
| DatasetPage.FilteredImages | src/pages/DatasetDetailPage.tsx:47-51 | "all" keeps every image; the others keep exactly the images with that flag |
| DatasetPage.FilteredImagesAppend | src/pages/DatasetDetailPage.tsx:47-51 | filtering a concatenation is filtering each part, so the shown images keep their order and multiplicity |
| DatasetPage.ReviewedOnlyUnderAll | src/pages/DatasetDetailPage.tsx:47-51 | a reviewed image shows only under "all" |
| DatasetPage.SelectedImage | src/pages/DatasetDetailPage.tsx:53 | the filtered image at the index, or none exactly when the index is out of range |
| DatasetPage.SelectedImageIsStored | src/pages/DatasetDetailPage.tsx:46-53 | a selected image is found in the store by its id |
| DatasetPage.Categories | src/pages/DatasetDetailPage.tsx:54 | a dataset without categories has the empty list |
| DatasetPage.AddCategory | src/pages/DatasetDetailPage.tsx:110-114 | a new category is appended, a known one changes nothing, duplicate-freedom is kept, and other datasets are unchanged |
| DatasetPage.AddCategoryIdempotent | src/pages/DatasetDetailPage.tsx:110-114 | adding a category twice is adding it once |
| DatasetPage.LabelChange | src/pages/DatasetDetailPage.tsx:94-97 | nothing without a selected image, else the store's update for it |
| DatasetPage.LabelDelete | src/pages/DatasetDetailPage.tsx:99-102 | nothing without a selected image, else the store's delete for it |
| DatasetPage.LabelsOf | src/pages/DatasetDetailPage.tsx:53 | an image not in the dataset has no labels |
| DatasetPage.AddAs | src/pages/DatasetDetailPage.tsx:104-108 | with a stored selected image and an unused id, the image's labels gain exactly that label at the end; other datasets are unchanged |
| DatasetPage.AddLabel | src/pages/DatasetDetailPage.tsx:104-108 | nothing without a selected image; otherwise the new label is appended under the fresh id |
| DatasetPage.AcceptAiSuggestion | src/pages/DatasetDetailPage.tsx:149-157 | nothing without a selected image; otherwise one label is appended, a copy of the suggestion under the fresh id and not AI, the earlier labels unchanged |
| DatasetPage.AcceptKeepsSuggestions | src/pages/DatasetDetailPage.tsx:149-157 | accepting leaves the image's suggestions as they were |
| DatasetPage.DetectionLabel | src/pages/DatasetDetailPage.tsx:122-136 | category by prompt mode, rect [[50,50],[200,200]], AI suggestion, confidence 0.85 |
| DatasetPage.DetectionIsNoSuggestion | src/pages/DatasetDetailPage.tsx:122-136 | the detection label is never among the suggestions waiting for a category |
| DatasetPage.RunDetection | src/pages/DatasetDetailPage.tsx:116-147 | nothing without a selected image; otherwise the detection label is appended |
| LabelDialog.Initial | src/components/LabelSelectionDialog.tsx:23 | the dialog starts with an empty query showing every category |
| LabelDialog.Matching | src/components/LabelSelectionDialog.tsx:33-40 | the empty query shows all; otherwise exactly the categories whose lower case contains the lower-case query |
| LabelDialog.MatchingAppend | src/components/LabelSelectionDialog.tsx:35-38 | the filter keeps the categories' order |
| LabelDialog.FullNameMatches | src/components/LabelSelectionDialog.tsx:35-38 | typing a category's full name keeps it on show |
| LabelDialog.Reset | src/components/LabelSelectionDialog.tsx:26-31 | opening or a changed list shows every category again |
| LabelDialog.InputChange | src/components/LabelSelectionDialog.tsx:33-40 | the query is set and the list becomes exactly the existing labels matching it, no longer than before, all of them for an empty query |
| LabelDialog.Clear | src/components/LabelSelectionDialog.tsx:77-84 | the clear button empties the query and leaves the list |
| LabelDialog.ClearKeepsNarrowedList | src/components/LabelSelectionDialog.tsx:26-84 | after clearing the narrowed list stays until the dialog is reset |
| LabelDialog.SelectExisting | src/components/LabelSelectionDialog.tsx:42-45 | exactly that category is picked and the dialog closes |
| LabelDialog.AddNew | src/components/LabelSelectionDialog.tsx:47-52 | a query that trims to something is picked trimmed and the dialog closes; otherwise nothing |
| LabelDialog.BlankQueryAddsNothing | src/components/LabelSelectionDialog.tsx:47-52 | a whitespace-only query creates nothing |
| LabelDialog.KeyDown | src/components/LabelSelectionDialog.tsx:54-59 | Enter is add-new, every other key nothing |
| LabelDialog.CreatePicksNewCategory | src/components/LabelSelectionDialog.tsx:105 | when the create button is shown, creating picks a category not yet there; otherwise Enter picks an existing one |
| PromptDialog.OpenChanged | src/components/ImagePromptDialog.tsx:33-37 | opening empties the list, closing keeps it |
| PromptDialog.AddLabel | src/components/ImagePromptDialog.tsx:39-45 | one label is appended under the generated id, the existing ones unchanged |
| PromptDialog.UpdateLabel | src/components/ImagePromptDialog.tsx:47-53 | every label with the id gets the patch merged in, the length and all other labels are unchanged |
| PromptDialog.DeleteLabel | src/components/ImagePromptDialog.tsx:55-57 | every label with the id goes, the rest keep their order |
| PromptDialog.DeleteLabelAppend | src/components/ImagePromptDialog.tsx:55-57 | deletion from a concatenation is the deletion from each part, so the rest keep their order and multiplicity |
| PromptDialog.DeleteIsStoreRemoval | src/components/ImagePromptDialog.tsx:55-57 | the dialog's delete is the store's label removal |
| PromptDialog.UpdateAgreesWithUpsert | src/components/ImagePromptDialog.tsx:47-53 | with unique ids, updating a present label is the store's upsert |
| PromptDialog.AddThenDelete | src/components/ImagePromptDialog.tsx:39-57 | adding under an unused id then deleting it restores the list |
| PromptDialog.UpdateIdempotent | src/components/ImagePromptDialog.tsx:47-53 | updating twice with an id-keeping patch is updating once |
| NewDataset.Initial | src/components/NewDatasetDialog.tsx:18-23 | the wizard starts on step 1 with nothing typed, no files, not uploading |
| NewDataset.AddFiles | src/components/NewDatasetDialog.tsx:26-45 | new files go after the existing ones, nothing else changes |
| NewDataset.SpliceStart | src/components/NewDatasetDialog.tsx:49 | `splice` counts a negative index from the end and clamps to the list |
| NewDataset.RemoveFile | src/components/NewDatasetDialog.tsx:47-51 | an index in range removes exactly that file, keeping the order; one past the end removes nothing |
| NewDataset.RemoveFileLosesOne | src/components/NewDatasetDialog.tsx:47-51 | removal loses exactly the file at the index |
| NewDataset.AddThenRemove | src/components/NewDatasetDialog.tsx:40-51 | adding a file and removing it by its index (or −1) restores the list |
| NewDataset.StartUpload | src/components/NewDatasetDialog.tsx:70-79 | no files raises the notice and changes nothing, otherwise uploading starts |
| NewDataset.Next | src/components/NewDatasetDialog.tsx:53-68 | step 1 moves on only with a name that trims to something; step 2 moves on; step 3 starts the upload; the step only grows by one, up to 3 |
| NewDataset.Primary | src/components/NewDatasetDialog.tsx:231-235 | the main button does nothing while uploading, else handleNext before step 3 and the upload on step 3 |
| NewDataset.PrimaryIsNextOnLastStep | src/components/NewDatasetDialog.tsx:231-235 | while not uploading the main button is handleNext on every step |
| NewDataset.Back | src/components/NewDatasetDialog.tsx:220-227 | back decrements the step when past step 1 and not uploading, else nothing; the step stays in 1..3 |
| NewDataset.NextThenBack | src/components/NewDatasetDialog.tsx:53-68 | moving on from step 1 or 2 and going back restores the wizard |
| NewDataset.ThreePressesStartUpload | src/components/NewDatasetDialog.tsx:53-77 | with a name and files, three presses of the main button start the upload on step 3 |
| NewDataset.SimulateUpload | src/components/NewDatasetDialog.tsx:70-93 | refused without files; otherwise ten ticks of +10, one submission of name and description at 100, uploading off again |

## Left out

- Rendering is not modelled. This covers all Konva and JSX output, toolbars, galleries, cursors and drawing previews.
- Toasts are dropped, except that `NewDataset.Notice` stands for the wizard's two notices.
- Browser plumbing is not modelled. This covers image `onload` and `onerror` as events, window resize, `stage.on`/`off` wiring and keyboard listeners. `Canvas` takes `spacePressed` as part of the context.
- `Canvas.SpaceDragPans` and every other `Canvas` member model src/components/canvas/Canvas.tsx with `setIsSpacePressed` in scope. As written, the component never takes that setter from `useCanvas()` (lines 38-52). Its space-key effect still lists the setter as a dependency (line 376), and that list is evaluated on every render. So the component as written throws a ReferenceError on its first render, before any handler can run, and never reaches the states these members describe. This is not a Findings row: the model has no notion of rendering in which to state the as-written half.
- Timers and randomness are not modelled: `runOsd`, the detection delay, export, and the random images of `generateImagesForDataset`. `AddDataset` takes the generated images as a parameter. Only the upload interval is modelled, as its ten ticks run to completion.
- IEEE floating point is not modelled. All arithmetic is exact over `real`, including the 1.2 and 1.1 steps. `Math.round` in the coordinate display is left out.
- `Geometry.Bounds`: the source treats coordinates as `number[][]`. The model gives each vertex exactly two numbers.
- `Canvas.MouseDown`, `Interactions.MouseDown`, `AnnotationCanvas.MouseDown`: these require a non-zero scale, because the source divides by the scale unguarded. The model keeps scale > 0 as a state invariant.
- `Interactions.MouseMove`, `Canvas.MouseMove`: these require two buffered numbers when a rect corner is replaced. This is an assumption, not a fact about every reachable state. For example: a select-mode press from the initial state sets drawing while the buffer is still empty, the release happens off the stage, select mode is left, and a rect-tool move then reads `points[0]` of an empty buffer, which JavaScript reads as `undefined`.
- `AnnotationCanvas.MouseMove`: this requires `Ready`, the invariant the component's own handlers keep.
- `Interactions.DblClick`, `Canvas.DblClick`, `AnnotationCanvas.DblClick`, `CanvasState.Pairs`: these require an even buffer. Every handler keeps it even.
- `DummyData.Upsert`, `DummyData.UpdateImageLabel`, `DatasetPage.LabelChange`: the source casts a `Partial<Label>` to `Label` when it appends. These members therefore require the patch to be complete whenever the id is absent.
- `DatasetPage.LabelsOf`: its contract says only what an image missing from the dataset gives. For a stored image it returns that image's labels.
- `AiPanel.Accepted`: its own contract gives only the length bound. `AcceptedAreRecategorised` states what the accepted labels are.
- `LabelDialog.Matching`: lower-casing covers ASCII letters only.
- `Colors.CodeUnits`: strings are sequences of Unicode scalar values. Characters beyond the Basic Multilingual Plane are split into surrogate pairs.
- The coordinate-update pass-through of Canvas.tsx (`handleLabelCoordinatesUpdate`) only forwards to its parent, so it is not modelled.
- The name and description inputs of the wizard are plain setters, so they are not modelled.
- The export dialog, login and authentication, dataset sorting, the prompt sidebars, LabelPanel and OsdReviewPage are not part of this model.

## Findings

| source | as written | input that shows it | evidently intended | confidence | as-written member | corrected member |
|---|---|---|---|---|---|---|
| src/components/OptimizedCanvas.tsx:68-85 | `useCanvasInteractions` is called without `onLabelCreated`. A finished rect or polygon, and every point-tool click, calls an undefined function. For shapes the throw comes before `setDrawing(false)`. No label is reported, and after a shape the canvas stays drawing. | rect tool, scale 1, drag from (0, 0) to (20, 20) | pass `onLabelCreated`, so that the shape is reported and drawing ends | not executed | OptimizedCanvas.RectDragLeavesDrawing | OptimizedCanvas.DragRectangle |
| src/components/OptimizedCanvas.tsx:68-85 | `useCanvasInteractions` is called without `setScale`. An accepted wheel step calls it, which throws before `setPosition`, so the wheel never zooms. | scale 1, one wheel step up (deltaY < 0): 1.1 is in range | pass `setScale`, so that the wheel zooms about the pointer | not executed | OptimizedCanvas.WheelNeverZooms | OptimizedCanvas.Wheel |
| src/hooks/useCanvasState.ts:61-73 | handleResetZoom divides the stage by the image size unguarded. The reset button is enabled before the image has loaded and after a load error, when the size is 0×0. There the scale becomes Infinity and the position NaN. | stage 800×600, reset pressed before the image loads (image 0×0) | leave the view as it is until the image has a size | not executed | Viewport.ResetBeforeLoad | Viewport.Fit |
| src/contexts/CanvasContext.tsx:125-137 | the context's handleResetZoom repeats the same unguarded division by the image size; Canvas calls it on the reset button, where the image element starts as a fresh `new Image()` of size 0×0. | stage 800×600, reset pressed before the image loads (image 0×0) | leave the view as it is until the image has a size | not executed | Viewport.ResetBeforeLoad | CanvasContext.ResetZoom |

=== FILE: ai_panel.dfy ===
/**
 The suggestion panel of src/components/AISuggestionPanel.tsx: the AI
 suggestions of an image (AI labels still in the category "unknown"), the
 ids the user has ticked, a chosen category per suggestion, and the accept
 action that hands each ticked suggestion back with a real category.
 */
module AiPanel {
  import opened Common
  import opened Labels

  /** The category detection gives a label it cannot name. */
  const UnknownCategory: string := "unknown"

  /** The last-resort category: "object". */
  const FallbackCategory: string := "物体"

  /** An AI suggestion the user has not yet categorised. */
  predicate IsSuggestion(l: Label) {
    IsAi(l) && l.category == UnknownCategory
  }

  function SuggestionTest(): Label -> bool {
    (l: Label) => IsSuggestion(l)
  }

  /** `aiSuggestions`: the suggestions among the image's labels, in their order. */
  function Suggestions(labels: seq<Label>): (r: seq<Label>)
    ensures |r| <= |labels|
    ensures forall i :: 0 <= i < |r| ==> IsSuggestion(r[i]) && r[i] in labels
    ensures forall i :: 0 <= i < |labels| && IsSuggestion(labels[i]) ==> labels[i] in r
  {
    Filter(labels, SuggestionTest())
  }

  /** Suggestions of a concatenation are the suggestions of each part, in order. */
  lemma SuggestionsAppend(a: seq<Label>, b: seq<Label>)
    ensures Suggestions(a + b) == Suggestions(a) + Suggestions(b)
  {
    FilterAppend(a, b, SuggestionTest());
  }

  /** The panel's state: the ticked ids and the category chosen per id. */
  datatype Panel = Panel(selected: seq<string>, categoryMap: map<string, string>)

  /** handleSelectSuggestion: untick a ticked id, tick an unticked one at the end. */
  function Toggle(selected: seq<string>, id: string): (r: seq<string>)
    ensures id in selected ==> id !in r && forall x :: x in r <==> x in selected && x != id
    ensures id !in selected ==> r == selected + [id]
    ensures NoDup(selected) ==> NoDup(r)
  {
    if id in selected then
      FilterNoDupIf(selected, id);
      Filter(selected, Other(id))
    else
      NoDupSnoc(selected, id);
      selected + [id]
  }

  /** The filter keeps exactly the other elements, and no repeats arise. */
  lemma FilterNoDupIf(s: seq<string>, id: string)
    ensures forall x :: x in Filter(s, Other(id)) <==> x in s && x != id
    ensures NoDup(s) ==> NoDup(Filter(s, Other(id)))
  {
    if NoDup(s) {
      FilterNoDup(s, Other(id));
    }
  }

  lemma NoDupSnoc(s: seq<string>, x: string)
    requires x !in s
    ensures NoDup(s) ==> NoDup(s + [x])
  {
  }

  /** Ticking an unticked id and then unticking it restores a repeat-free selection. */
  lemma ToggleTwice(selected: seq<string>, id: string)
    requires id !in selected
    ensures Toggle(Toggle(selected, id), id) == selected
  {
    FilterAppend(selected, [id], Other(id));
    FilterAll(selected, Other(id));
    assert Filter([id], Other(id)) == [];
  }

  /** The ids of a label list, in order. */
  function Ids(ls: seq<Label>): (r: seq<string>)
    ensures |r| == |ls| && forall i :: 0 <= i < |ls| ==> r[i] == ls[i].id
  {
    seq(|ls|, i requires 0 <= i < |ls| => ls[i].id)
  }

  /**
   handleSelectAll: with as many ticks as suggestions, untick everything;
   otherwise tick every suggestion, in order.
   */
  function SelectAll(selected: seq<string>, suggestions: seq<Label>): (r: seq<string>)
    ensures |selected| == |suggestions| ==> r == []
    ensures |selected| != |suggestions| ==>
      |r| == |suggestions| && forall i :: 0 <= i < |r| ==> r[i] == suggestions[i].id
  {
    if |selected| == |suggestions| then [] else Ids(suggestions)
  }

  /** From nothing ticked, pressing select-all twice ticks all and then clears again. */
  lemma SelectAllTwice(suggestions: seq<Label>)
    requires |suggestions| > 0
    ensures SelectAll([], suggestions) == Ids(suggestions)
    ensures SelectAll(SelectAll([], suggestions), suggestions) == []
  {
  }

  /** handleCategoryChange: only that suggestion's category changes. */
  function CategoryChange(m: map<string, string>, id: string, category: string): (r: map<string, string>)
    ensures id in r && r[id] == category
    ensures r.Keys == m.Keys + {id}
    ensures forall k :: k in m && k != id ==> r[k] == m[k]
  {
    m[id := category]
  }

  /**
   A non-empty category picked for a suggestion is the one its accepted label
   gets, and the other suggestions keep the category they would get before.
   */
  lemma CategoryChangeIsChosen(m: map<string, string>, id: string, category: string, categories: seq<string>)
    requires category != ""
    ensures ChosenCategory(CategoryChange(m, id, category), id, categories) == category
    ensures forall other :: other != id ==>
      ChosenCategory(CategoryChange(m, id, category), other, categories) == ChosenCategory(m, other, categories)
  {
  }

  /**
   `categoryMap[id] || categories[0] || "物体"`: the chosen category if it is
   non-empty, else the first dataset category if that is non-empty, else
   "object". The result is never empty.
   */
  function ChosenCategory(m: map<string, string>, id: string, categories: seq<string>): (r: string)
    ensures r != ""
    ensures id in m && m[id] != "" ==> r == m[id]
    ensures !(id in m && m[id] != "") && |categories| > 0 && categories[0] != "" ==> r == categories[0]
    ensures !(id in m && m[id] != "") && !(|categories| > 0 && categories[0] != "") ==> r == FallbackCategory
  {
    if id in m && m[id] != "" then m[id]
    else if |categories| > 0 && categories[0] != "" then categories[0]
    else FallbackCategory
  }

  /** `aiSuggestions.find(s => s.id === id)`. */
  function FindSuggestion(suggestions: seq<Label>, id: string): (r: Option<Label>)
    ensures r.Some? ==> r.value in suggestions && r.value.id == id
    ensures r.None? <==> forall i :: 0 <= i < |suggestions| ==> suggestions[i].id != id
  {
    var k := FindIndex(suggestions, LabelIs(id));
    if k == -1 then None else Some(suggestions[k])
  }

  /** What accepting the ticked ids hands back, one id at a time. */
  function Accepted(ids: seq<string>, suggestions: seq<Label>, m: map<string, string>,
                    categories: seq<string>): (r: seq<Label>)
    ensures |r| <= |ids|
    decreases |ids|
  {
    if |ids| == 0 then []
    else
      var last := ids[|ids| - 1];
      Accepted(ids[..|ids| - 1], suggestions, m, categories) +
      match FindSuggestion(suggestions, last)
      case Some(s) => [s.(category := ChosenCategory(m, last, categories))]
      case None => []
  }

  /** Every accepted label is a suggestion given a non-empty category, and nothing is lost. */
  lemma {:induction false} AcceptedAreRecategorised(ids: seq<string>, suggestions: seq<Label>,
                                                     m: map<string, string>, categories: seq<string>)
    requires forall i :: 0 <= i < |suggestions| ==> IsSuggestion(suggestions[i])
    ensures var r := Accepted(ids, suggestions, m, categories);
      && (forall k :: 0 <= k < |r| ==>
            r[k].(category := UnknownCategory) in suggestions && r[k].category != "" && IsAi(r[k]))
      && ((forall i :: 0 <= i < |ids| ==> FindSuggestion(suggestions, ids[i]).Some?) ==> |r| == |ids|)
    decreases |ids|
  {
    if |ids| > 0 {
      var init := ids[..|ids| - 1];
      AcceptedAreRecategorised(init, suggestions, m, categories);
      var last := ids[|ids| - 1];
      match FindSuggestion(suggestions, last)
      case Some(s) =>
        assert IsSuggestion(s);
        assert s.(category := ChosenCategory(m, last, categories)).(category := UnknownCategory) == s;
      case None =>
    }
  }

  /** Accepting one more ticked id appends at most its recategorised suggestion. */
  lemma AcceptedStep(ids: seq<string>, i: nat, suggestions: seq<Label>, m: map<string, string>,
                     categories: seq<string>)
    requires i < |ids|
    ensures Accepted(ids[..i + 1], suggestions, m, categories)
         == Accepted(ids[..i], suggestions, m, categories) +
            match FindSuggestion(suggestions, ids[i])
            case Some(s) => [s.(category := ChosenCategory(m, ids[i], categories))]
            case None => []
  {
    assert ids[..i + 1][..i] == ids[..i];
  }

  /**
   handleAcceptSelected: hand back each ticked suggestion that exists with
   its category filled in, skip the others, and clear the ticks.
   */
  method AcceptSelected(p: Panel, labels: seq<Label>, categories: seq<string>)
    returns (emitted: seq<Label>, next: Panel)
    ensures next == p.(selected := [])
    ensures emitted == Accepted(p.selected, Suggestions(labels), p.categoryMap, categories)
    ensures |emitted| <= |p.selected|
    ensures forall k :: 0 <= k < |emitted| ==>
      emitted[k].(category := UnknownCategory) in labels && emitted[k].category != "" && IsAi(emitted[k])
  {
    var suggestions := Suggestions(labels);
    emitted := [];
    var i := 0;
    while i < |p.selected|
      invariant 0 <= i <= |p.selected|
      invariant emitted == Accepted(p.selected[..i], suggestions, p.categoryMap, categories)
    {
      var id := p.selected[i];
      AcceptedStep(p.selected, i, suggestions, p.categoryMap, categories);
      var found := FindSuggestion(suggestions, id);
      if found.Some? {
        emitted := emitted + [found.value.(category := ChosenCategory(p.categoryMap, id, categories))];
      }
      i := i + 1;
    }
    assert p.selected[..|p.selected|] == p.selected;
    AcceptedAreRecategorised(p.selected, suggestions, p.categoryMap, categories);
    next := p.(selected := []);
  }
}

=== FILE: annotation_canvas.dfy ===
/**
 The self-contained canvas of src/components/AnnotationCanvas.tsx. It draws
 the same shapes as the interaction hook but adds each finished shape
 directly through `onAddLabel` with the placeholder category "未标注"
 ("unlabelled"), returns to the select tool after every shape, and has no
 select mode, no panning and no wheel zoom.
 */
module AnnotationCanvas {
  import opened Common
  import opened Labels
  import opened Viewport
  import opened CanvasState
  import Interactions

  /** The category every label drawn here starts with. */
  const Unlabelled: string := "未标注"

  /** The states this canvas keeps: `Valid`, and a drawing always holds at least one point. */
  predicate Ready(s: State) {
    Valid(s) && (s.drawing ==> |s.points| >= 2)
  }

  /** `onAddLabel({ category: "未标注", type, coordinates })`. */
  function Added(sh: Shape): Emit {
    LabelAdded(Unlabelled, sh)
  }

  /** handleMouseDown: ignored with the select tool or before the image loads. */
  function MouseDown(s: State, pointer: Point): (r: Step<State>)
    requires s.view.scale != 0.0
    ensures s.tool == SelectTool || !s.loaded ==> r == Step(s, [])
    ensures r.state.view == s.view && r.state.selectedLabel == s.selectedLabel && r.state.loaded == s.loaded
    ensures |r.emits| <= 1
    ensures r.emits != [] ==>
      && s.tool == PointTool && !s.drawing
      && r.emits == [Added(Shape(PointLabel, [ToImage(s.view, pointer)]))]
      && r.state == s.(tool := SelectTool)
    ensures r.emits == [] ==> r.state.tool == s.tool
    ensures var p := ToImage(s.view, pointer);
      s.loaded && s.tool == RectTool && !s.drawing ==>
        r == Step(s.(drawing := true, points := [p.x, p.y, p.x, p.y]), [])
    ensures var p := ToImage(s.view, pointer);
      s.loaded && s.tool == PolygonTool && !s.drawing ==>
        r == Step(s.(drawing := true, points := [p.x, p.y]), [])
    ensures var p := ToImage(s.view, pointer);
      s.loaded && s.tool == PolygonTool && s.drawing ==>
        r == Step(s.(points := s.points + [p.x, p.y]), [])
    ensures s.loaded && s.tool == PointTool && !s.drawing ==>
      r == Step(s.(tool := SelectTool), [Added(Shape(PointLabel, [ToImage(s.view, pointer)]))])
    ensures s.drawing && s.tool != PolygonTool ==> r == Step(s, [])
    ensures Ready(s) ==> Ready(r.state)
  {
    if s.tool == SelectTool || !s.loaded then Step(s, [])
    else
      var p := ToImage(s.view, pointer);
      match s.tool
      case RectTool =>
        if !s.drawing then Step(s.(drawing := true, points := [p.x, p.y, p.x, p.y]), [])
        else Step(s, [])
      case PointTool =>
        if !s.drawing then Step(s.(tool := SelectTool), [Added(Shape(PointLabel, [p]))])
        else Step(s, [])
      case PolygonTool =>
        if !s.drawing then Step(s.(drawing := true, points := [p.x, p.y]), [])
        else Step(s.(points := s.points + [p.x, p.y]), [])
      case _ => Step(s, [])
  }

  /** handleMouseMove: only a rect drag moves its second corner. */
  function MouseMove(s: State, pointer: Point): (r: State)
    requires s.view.scale != 0.0
    requires Ready(s)
    ensures !s.drawing || s.tool != RectTool || !s.loaded ==> r == s
    ensures s.drawing && s.tool == RectTool && s.loaded ==>
      r == s.(points := s.points[..2] + [ToImage(s.view, pointer).x, ToImage(s.view, pointer).y])
    ensures Ready(r)
  {
    if !s.drawing || s.tool == SelectTool || !s.loaded then s
    else
      var p := ToImage(s.view, pointer);
      if s.tool == RectTool then s.(points := [s.points[0], s.points[1], p.x, p.y]) else s
  }

  /**
   handleMouseUp: a rect drag adds a normalised rect when both sides exceed
   5, and in any case ends the drawing and returns to the select tool.
   */
  function MouseUp(s: State): (r: Step<State>)
    ensures !s.drawing || s.tool != RectTool || !s.loaded ==> r == Step(s, [])
    ensures s.drawing && s.tool == RectTool && s.loaded ==>
      r.state == s.(drawing := false, points := [], tool := SelectTool)
    ensures |r.emits| <= 1
    ensures forall i :: 0 <= i < |r.emits| ==>
      r.emits[i].LabelAdded? && r.emits[i].category == Unlabelled
      && Interactions.ReleaseReport(LabelCreated(r.emits[i].shape))
    ensures Ready(s) ==> Ready(r.state)
  {
    if !s.drawing || s.tool == SelectTool || !s.loaded then Step(s, [])
    else if s.tool != RectTool then Step(s, [])
    else
      var done := s.(drawing := false, points := [], tool := SelectTool);
      if |s.points| >= 4 && Abs(s.points[2] - s.points[0]) > Interactions.MinRectSide
         && Abs(s.points[3] - s.points[1]) > Interactions.MinRectSide then
        var corners := Interactions.NormalizedCorners(s.points[0], s.points[1], s.points[2], s.points[3]);
        Step(done, [Added(Shape(Rect, corners))])
      else Step(done, [])
  }

  /** handleDblClick: a polygon of at least three vertices is added and the tool returns to select. */
  function DblClick(s: State): (r: Step<State>)
    requires |s.points| % 2 == 0
    ensures !(s.tool == PolygonTool && s.drawing && |s.points| >= 6) ==> r == Step(s, [])
    ensures s.tool == PolygonTool && s.drawing && |s.points| >= 6 ==>
      && r.state == s.(drawing := false, points := [], tool := SelectTool)
      && |r.emits| == 1 && r.emits[0].LabelAdded? && r.emits[0].category == Unlabelled
      && r.emits[0].shape.kind == Polygon && ShapeOk(r.emits[0].shape)
      && Flatten(r.emits[0].shape.coordinates) == s.points
    ensures Ready(s) ==> Ready(r.state)
  {
    if s.tool != PolygonTool || !s.drawing || |s.points| < 6 then Step(s, [])
    else
      PairsFlattenRoundTrip(s.points, []);
      Step(s.(drawing := false, points := [], tool := SelectTool), [Added(Shape(Polygon, Pairs(s.points)))])
  }

  /** handleLabelSelect: clicking a label toggles it as the single selection. */
  function LabelSelect(s: State, id: string): (r: State)
    ensures r == s.(selectedLabel := r.selectedLabel)
    ensures r.selectedLabel == None <==> s.selectedLabel == Some(id)
    ensures r.selectedLabel != None ==> r.selectedLabel == Some(id)
  {
    s.(selectedLabel := ToggleSelection(s.selectedLabel, id))
  }

  /** handleCancelDrawing: stop drawing, empty the buffer and return to the select tool. */
  function CancelDrawing(s: State): (r: State)
    ensures !r.drawing && r.points == [] && r.tool == SelectTool
    ensures r.(drawing := s.drawing, points := s.points, tool := s.tool) == s
    ensures Ready(s) ==> Ready(r)
  {
    s.(drawing := false, points := [], tool := SelectTool)
  }

  /**
   Press at `a`, move to `b`, release with the rect tool: the normalised rect
   is added as "未标注" exactly when both sides exceed 5, and the canvas ends
   idle on the select tool.
   */
  lemma DragRectangle(s: State, a: Point, b: Point)
    requires Ready(s) && s.loaded && !s.drawing && s.tool == RectTool
    ensures var s1 := MouseDown(s, a).state;
      var r := MouseUp(MouseMove(s1, b));
      var pa, pb := ToImage(s.view, a), ToImage(s.view, b);
      && r.state == s.(points := [], tool := SelectTool)
      && r.emits == (if Abs(pb.x - pa.x) > Interactions.MinRectSide && Abs(pb.y - pa.y) > Interactions.MinRectSide
                     then [Added(Shape(Rect, Interactions.NormalizedCorners(pa.x, pa.y, pb.x, pb.y)))]
                     else [])
  {
  }

  /** A point click adds the point at once and switches to the select tool, so a second click adds nothing. */
  lemma PointThenIdle(s: State, a: Point, b: Point)
    requires Ready(s) && s.loaded && !s.drawing && s.tool == PointTool
    ensures var r := MouseDown(s, a);
      && r.emits == [Added(Shape(PointLabel, [ToImage(s.view, a)]))]
      && MouseDown(r.state, b) == Step(r.state, [])
  {
  }
}

=== FILE: canvas.dfy ===
/**
 The context-based canvas of src/components/canvas/Canvas.tsx. A finished
 shape is not reported at once: it becomes the pending shape and the
 category dialog opens; choosing a category adds the label, closing the
 dialog drops it. Rects are kept in drag order, not normalised; the space
 key or the move tool turns a press into a pan; in select mode the drag
 outlines a reference region reported once both sides exceed 5.

 As written, the component reads `setIsSpacePressed` in the dependency list
 of its space-key effect without ever taking it from the context, which
 throws on the first render. The handlers here are those of the component
 with that setter in scope.
 */
module Canvas {
  import opened Common
  import opened Labels
  import opened Viewport
  import opened CanvasState
  import opened CanvasContext
  import Interactions
  import LabelDialog

  /** The component: the shared context, the dialog flag and the shape awaiting a category. */
  datatype Component = Component(ctx: Context, dialogOpen: bool, pending: Option<Shape>)

  /** The canvas part of the context, replaced. */
  function WithCanvas(c: Component, s: State): Component {
    c.(ctx := c.ctx.(canvas := s))
  }

  /** A region must be wider and taller than this to be reported here. */
  const MinRegionSide: real := 5.0

  /** Space held or the move tool: a press pans instead of drawing. */
  predicate Panning(c: Component) {
    c.ctx.spacePressed || c.ctx.canvas.tool == MoveTool
  }

  // ---------------------------------------------------------------------------
  // The pending-label flow

  /** handleLabelCreated: the shape waits for a category and the dialog opens. */
  function LabelCreated(c: Component, sh: Shape): (r: Component)
    ensures r.pending == Some(sh) && r.dialogOpen
    ensures r.ctx == c.ctx
  {
    c.(pending := Some(sh), dialogOpen := true)
  }

  /** handleLabelSelected(category): add the pending shape under that category, once. */
  function LabelSelected(c: Component, category: string): (r: Step<Component>)
    ensures c.pending.None? ==> r == Step(c, [])
    ensures c.pending.Some? ==>
      r.emits == [LabelAdded(category, c.pending.value)] && r.state == c.(pending := None)
  {
    match c.pending
    case None => Step(c, [])
    case Some(sh) => Step(c.(pending := None), [LabelAdded(category, sh)])
  }

  /** The dialog's onClose: close it and forget the pending shape. */
  function DialogClosed(c: Component): (r: Component)
    ensures !r.dialogOpen && r.pending.None? && r.ctx == c.ctx
  {
    c.(dialogOpen := false, pending := None)
  }

  /**
   A created shape is added exactly once, under the chosen category; after
   the dialog is closed, choosing adds nothing.
   */
  lemma PendingLabelFlow(c: Component, sh: Shape, category: string, other: string)
    ensures var r := LabelSelected(LabelCreated(c, sh), category);
      && r.emits == [LabelAdded(category, sh)]
      && LabelSelected(r.state, other).emits == []
    ensures LabelSelected(DialogClosed(LabelCreated(c, sh)), category).emits == []
  {
  }

  /**
   What the category dialog's calls do here: `onSelectLabel` is
   handleLabelSelected, `onClose` closes the dialog and drops the pending shape.
   */
  function DialogOutcome(c: Component, o: LabelDialog.Outcome): (r: Step<Component>)
    ensures o.selected.None? && !o.closed ==> r == Step(c, [])
    ensures o.closed ==> !r.state.dialogOpen && r.state.pending.None?
    ensures |r.emits| <= 1
    ensures r.emits != [] ==> o.selected.Some? && c.pending.Some?
                              && r.emits == [LabelAdded(o.selected.value, c.pending.value)]
    ensures r.state.ctx == c.ctx
  {
    var picked := if o.selected.Some? then LabelSelected(c, o.selected.value) else Step(c, []);
    if o.closed then Step(DialogClosed(picked.state), picked.emits) else picked
  }

  /**
   A finished shape, then a new category typed with surrounding blanks and
   confirmed with Enter: the shape is added once under the trimmed category
   and the dialog is closed with nothing pending.
   */
  lemma NewCategoryFlow(c: Component, sh: Shape, d: LabelDialog.Dialog)
    requires Trim(d.query) != ""
    ensures var r := DialogOutcome(LabelCreated(c, sh), LabelDialog.KeyDown(d, "Enter"));
      && r.emits == [LabelAdded(Trim(d.query), sh)]
      && !r.state.dialogOpen && r.state.pending.None? && r.state.ctx == c.ctx
  {
  }

  /** The effect on `isSelectMode`: leaving select mode drops the selection box. */
  function SelectModeChanged(c: Component, selectMode: bool): (r: Component)
    ensures selectMode ==> r == c
    ensures !selectMode ==> r == WithCanvas(c, c.ctx.canvas.(selectionBox := None))
  {
    if !selectMode then WithCanvas(c, c.ctx.canvas.(selectionBox := None)) else c
  }

  /** The image's `onload`: loaded, and fitted unless the stage has a zero side. */
  function ImageLoaded(c: Component, image: Size): (r: Component)
    requires image.width > 0.0 && image.height > 0.0
    ensures r.ctx.canvas.loaded && r.pending == c.pending && r.dialogOpen == c.dialogOpen
    ensures r.ctx == c.ctx.(canvas := c.ctx.canvas.(loaded := true, view := r.ctx.canvas.view))
    ensures c.ctx.canvas.stage.width > 0.0 && c.ctx.canvas.stage.height > 0.0 ==>
      && image.width * r.ctx.canvas.view.scale <= FitMargin * c.ctx.canvas.stage.width
      && image.height * r.ctx.canvas.view.scale <= FitMargin * c.ctx.canvas.stage.height
    ensures r.ctx.canvas.view == CanvasState.ResetZoom(c.ctx.canvas, image).view
    ensures var st := c.ctx.canvas.stage;
      st.width != 0.0 && st.height != 0.0 ==>
        && r.ctx.canvas.view.scale == FitMargin * Min(st.width / image.width, st.height / image.height)
        && r.ctx.canvas.view.position.x + image.width * r.ctx.canvas.view.scale / 2.0 == st.width / 2.0
        && r.ctx.canvas.view.position.y + image.height * r.ctx.canvas.view.scale / 2.0 == st.height / 2.0
    ensures CanvasContext.Valid(c.ctx) ==> CanvasContext.Valid(r.ctx)
  {
    WithCanvas(c, CanvasState.ImageLoaded(c.ctx.canvas, image))
  }

  // ---------------------------------------------------------------------------
  // Handlers

  /** handleMouseDown. */
  function MouseDown(c: Component, selectMode: bool, pointer: Point): (r: Component)
    requires c.ctx.canvas.view.scale != 0.0
    ensures !c.ctx.canvas.loaded ==> r == c
    ensures c.ctx.canvas.loaded && Panning(c) ==> r == WithCanvas(c, c.ctx.canvas.(dragging := true))
    ensures r.ctx == c.ctx.(canvas := r.ctx.canvas)
    ensures r.ctx.canvas.tool == c.ctx.canvas.tool && r.ctx.canvas.view == c.ctx.canvas.view
    ensures c.ctx.canvas.loaded && !Panning(c) && !selectMode && c.ctx.canvas.tool == PointTool ==>
      && r.pending == Some(Shape(PointLabel, [ToImage(c.ctx.canvas.view, pointer)])) && r.dialogOpen
      && !r.ctx.canvas.drawing && r.ctx.canvas.points == []
    ensures c.ctx.canvas.loaded && !Panning(c) && !selectMode && c.ctx.canvas.tool == RectTool ==>
      var p := ToImage(c.ctx.canvas.view, pointer);
      r.ctx.canvas == c.ctx.canvas.(drawing := true, points := [p.x, p.y])
    ensures c.ctx.canvas.loaded && !Panning(c) && selectMode ==>
      var p := ToImage(c.ctx.canvas.view, pointer);
      r == WithCanvas(c, c.ctx.canvas.(selectionBox := Some(Box(p.x, p.y, 0.0, 0.0)), drawing := true))
    ensures c.ctx.canvas.loaded && !Panning(c) && !selectMode && c.ctx.canvas.tool == PolygonTool ==>
      var p := ToImage(c.ctx.canvas.view, pointer);
      r == WithCanvas(c, c.ctx.canvas.(drawing := true,
                                        points := if c.ctx.canvas.drawing then c.ctx.canvas.points + [p.x, p.y]
                                                  else [p.x, p.y]))
    ensures c.ctx.canvas.loaded && !Panning(c) && !selectMode && c.ctx.canvas.tool == SelectTool ==> r == c
    ensures r.pending != c.pending ==> c.ctx.canvas.tool == PointTool
    ensures CanvasContext.Valid(c.ctx) ==> CanvasContext.Valid(r.ctx)
  {
    var s := c.ctx.canvas;
    if !s.loaded then c
    else if Panning(c) then WithCanvas(c, s.(dragging := true))
    else
      var p := ToImage(s.view, pointer);
      if selectMode then WithCanvas(c, s.(selectionBox := Some(Box(p.x, p.y, 0.0, 0.0)), drawing := true))
      else
        match s.tool
        case RectTool => WithCanvas(c, s.(points := [p.x, p.y], drawing := true))
        case PolygonTool =>
          if !s.drawing then WithCanvas(c, s.(points := [p.x, p.y], drawing := true))
          else WithCanvas(c, s.(points := s.points + [p.x, p.y]))
        case PointTool =>
          WithCanvas(LabelCreated(c, Shape(PointLabel, [p])), s.(drawing := false, points := []))
        case _ => c
  }

  /** The mouse-move case that reads `points[0]` and `points[1]`. */
  predicate MoveKeepsCorner(c: Component, selectMode: bool) {
    c.ctx.canvas.drawing && c.ctx.canvas.loaded && !selectMode && c.ctx.canvas.tool == RectTool
  }

  /** handleMouseMove: resize the selection box, or move the rect's second corner. */
  function MouseMove(c: Component, selectMode: bool, pointer: Point): (r: Component)
    requires c.ctx.canvas.view.scale != 0.0
    requires MoveKeepsCorner(c, selectMode) ==> |c.ctx.canvas.points| >= 2
    ensures !c.ctx.canvas.drawing || !c.ctx.canvas.loaded ==> r == c
    ensures r.ctx == c.ctx.(canvas := r.ctx.canvas) && r.pending == c.pending && r.dialogOpen == c.dialogOpen
    ensures r.ctx.canvas.drawing == c.ctx.canvas.drawing && r.ctx.canvas.view == c.ctx.canvas.view
    ensures MoveKeepsCorner(c, selectMode) ==>
      var p := ToImage(c.ctx.canvas.view, pointer);
      r.ctx.canvas.points == c.ctx.canvas.points[..2] + [p.x, p.y]
    ensures CanvasContext.Valid(c.ctx) ==> CanvasContext.Valid(r.ctx)
  {
    var s := c.ctx.canvas;
    if !s.drawing || !s.loaded then c
    else
      var p := ToImage(s.view, pointer);
      if selectMode then
        match s.selectionBox
        case Some(b) => WithCanvas(c, s.(selectionBox := Some(b.(width := p.x - b.x, height := p.y - b.y))))
        case None => c
      else if s.tool == RectTool then WithCanvas(c, s.(points := [s.points[0], s.points[1], p.x, p.y]))
      else c
  }

  /**
   handleMouseUp. With space or the move tool it only ends the pan; in select
   mode it ends the drawing and reports a region bigger than 5 each way; a
   rect with both corners set becomes pending in drag order when both sides
   exceed 5, and ends; a rect with one corner keeps drawing.
   */
  function MouseUp(c: Component, selectMode: bool, selectRegion: bool): (r: Step<Component>)
    ensures Panning(c) ==> r == Step(WithCanvas(c, c.ctx.canvas.(dragging := false)), [])
    ensures r.state.ctx == c.ctx.(canvas := r.state.ctx.canvas)
    ensures r.state.ctx.canvas.tool == c.ctx.canvas.tool && r.state.ctx.canvas.view == c.ctx.canvas.view
    ensures r.state.ctx.canvas.selectionBox == c.ctx.canvas.selectionBox
    ensures |r.emits| <= 1
    ensures forall i :: 0 <= i < |r.emits| ==>
      && selectRegion && c.ctx.canvas.selectionBox.Some?
      && r.emits[i] == RegionSelected(Interactions.NormalizedRegion(c.ctx.canvas.selectionBox.value))
      && r.emits[i].region.width > MinRegionSide && r.emits[i].region.height > MinRegionSide
    ensures !Panning(c) && selectMode && c.ctx.canvas.drawing ==>
      !r.state.ctx.canvas.drawing && r.state.pending == c.pending
    ensures !Panning(c) && selectMode && c.ctx.canvas.drawing && selectRegion && c.ctx.canvas.selectionBox.Some?
            && Abs(c.ctx.canvas.selectionBox.value.width) > MinRegionSide
            && Abs(c.ctx.canvas.selectionBox.value.height) > MinRegionSide ==>
      r.emits == [RegionSelected(NormalizedBox(c.ctx.canvas.selectionBox.value))]
    ensures !Panning(c) && !(selectMode && c.ctx.canvas.drawing) && c.ctx.canvas.tool == RectTool
            && c.ctx.canvas.drawing ==>
      var b := c.ctx.canvas.points;
      && !r.state.ctx.canvas.dragging
      && (|b| == 4 ==>
            (&& !r.state.ctx.canvas.drawing && r.state.ctx.canvas.points == []
             && r.state.pending == (if Abs(b[2] - b[0]) > Interactions.MinRectSide
                                       && Abs(b[3] - b[1]) > Interactions.MinRectSide
                                    then Some(Shape(Rect, [Point(b[0], b[1]), Point(b[2], b[3])]))
                                    else c.pending)))
      && (|b| != 4 ==> r.state.ctx.canvas == c.ctx.canvas.(dragging := false) && r.state.pending == c.pending)
    ensures CanvasContext.Valid(c.ctx) ==> CanvasContext.Valid(r.state.ctx)
  {
    var s := c.ctx.canvas;
    if Panning(c) then Step(WithCanvas(c, s.(dragging := false)), [])
    else if selectMode && s.drawing then
      var emits :=
        if s.selectionBox.Some? && Abs(s.selectionBox.value.width) > MinRegionSide
           && Abs(s.selectionBox.value.height) > MinRegionSide && selectRegion
        then [RegionSelected(NormalizedBox(s.selectionBox.value))]
        else [];
      Step(WithCanvas(c, s.(drawing := false)), emits)
    else if s.tool == RectTool && s.drawing && |s.points| == 4 then
      var c1 :=
        if Abs(s.points[2] - s.points[0]) > Interactions.MinRectSide
           && Abs(s.points[3] - s.points[1]) > Interactions.MinRectSide
        then LabelCreated(c, Shape(Rect, [Point(s.points[0], s.points[1]), Point(s.points[2], s.points[3])]))
        else c;
      Step(WithCanvas(c1, s.(drawing := false, points := [], dragging := false)), [])
    else Step(WithCanvas(c, s.(dragging := false)), [])
  }

  /**
   The region normalisation written here: shift `x` (or `y`) by a negative
   width (or height). It is the hook's min-corner normalisation.
   */
  function NormalizedBox(b: Box): (r: Box)
    ensures r == Interactions.NormalizedRegion(b)
  {
    Box(if b.width < 0.0 then b.x + b.width else b.x,
        if b.height < 0.0 then b.y + b.height else b.y,
        Abs(b.width), Abs(b.height))
  }

  /**
   handleDblClick: with the polygon tool while drawing, a polygon of at least
   three vertices becomes pending; drawing ends even with fewer.
   */
  function DblClick(c: Component): (r: Component)
    requires |c.ctx.canvas.points| % 2 == 0
    ensures !(c.ctx.canvas.tool == PolygonTool && c.ctx.canvas.drawing) ==> r == c
    ensures c.ctx.canvas.tool == PolygonTool && c.ctx.canvas.drawing ==>
      && r.ctx.canvas == CanvasState.ResetDrawing(c.ctx.canvas)
      && (|c.ctx.canvas.points| >= 6 ==>
            && r.pending.Some? && r.dialogOpen
            && r.pending.value.kind == Polygon && ShapeOk(r.pending.value)
            && Flatten(r.pending.value.coordinates) == c.ctx.canvas.points)
      && (|c.ctx.canvas.points| < 6 ==> r.pending == c.pending && r.dialogOpen == c.dialogOpen)
  {
    var s := c.ctx.canvas;
    if s.tool == PolygonTool && s.drawing then
      var c1 :=
        if |s.points| >= 6 then
          PairsFlattenRoundTrip(s.points, []);
          LabelCreated(c, Shape(Polygon, Pairs(s.points)))
        else c;
      WithCanvas(c1, CanvasState.ResetDrawing(s))
    else c
  }

  /** handleWheel: zoom ×1.1 or ÷1.1 about the pointer within [0.1, 10]; only the view changes. */
  function Wheel(c: Component, pointer: Point, deltaY: real): (r: Component)
    requires c.ctx.canvas.view.scale > 0.0
    ensures r == WithCanvas(c, c.ctx.canvas.(view := r.ctx.canvas.view))
    ensures r.ctx.canvas.view.scale > 0.0
    ensures ToImage(r.ctx.canvas.view, pointer) == ToImage(c.ctx.canvas.view, pointer)
    ensures InRange(c.ctx.canvas.view.scale) ==> InRange(r.ctx.canvas.view.scale)
    ensures InRange(WheelScale(c.ctx.canvas.view.scale, deltaY)) ==>
      r.ctx.canvas.view.scale == WheelScale(c.ctx.canvas.view.scale, deltaY)
    ensures !InRange(WheelScale(c.ctx.canvas.view.scale, deltaY)) ==> r == c
  {
    WithCanvas(c, c.ctx.canvas.(view := Viewport.Wheel(c.ctx.canvas.view, pointer, deltaY)))
  }

  /** handleDragMove: pan by the movement only while dragging with space or the move tool. */
  function DragMove(c: Component, movement: Point): (r: Component)
    ensures c.ctx.canvas.dragging && Panning(c) ==>
      r == WithCanvas(c, c.ctx.canvas.(view := Pan(c.ctx.canvas.view, movement)))
    ensures !(c.ctx.canvas.dragging && Panning(c)) ==> r == c
  {
    if c.ctx.canvas.dragging && Panning(c) then
      WithCanvas(c, c.ctx.canvas.(view := Pan(c.ctx.canvas.view, movement)))
    else c
  }

  // ---------------------------------------------------------------------------
  // Whole gestures

  /** Loaded, idle, not panning, not in select mode, buffer empty. */
  predicate Idle(c: Component) {
    CanvasContext.Valid(c.ctx) && c.ctx.canvas.loaded && !c.ctx.canvas.drawing
    && !c.ctx.canvas.dragging && c.ctx.canvas.points == [] && !Panning(c)
  }

  /**
   Press at `a`, move to `b`, release with the rect tool: when both sides
   exceed 5 the rect with the press point first and the release point second
   is pending and the dialog is open; the canvas is idle again either way.
   */
  lemma DragRectangle(c: Component, a: Point, b: Point)
    requires Idle(c) && c.ctx.canvas.tool == RectTool
    ensures var r := MouseUp(MouseMove(MouseDown(c, false, a), false, b), false, false);
      var pa, pb := ToImage(c.ctx.canvas.view, a), ToImage(c.ctx.canvas.view, b);
      && r.emits == []
      && r.state.ctx == c.ctx
      && r.state.pending == (if Abs(pb.x - pa.x) > Interactions.MinRectSide
                                && Abs(pb.y - pa.y) > Interactions.MinRectSide
                             then Some(Shape(Rect, [pa, pb])) else c.pending)
  {
  }

  /** A click with the rect tool and no movement leaves the rect half-drawn: drawing stays on. */
  lemma ClickWithoutMoveKeepsDrawing(c: Component, a: Point)
    requires Idle(c) && c.ctx.canvas.tool == RectTool
    ensures var r := MouseUp(MouseDown(c, false, a), false, false);
      r.state.ctx.canvas.drawing && |r.state.ctx.canvas.points| == 2 && r.emits == []
  {
  }

  /** With space held, press, drag by `m` and release: the view pans by `m` and nothing else changes. */
  lemma SpaceDragPans(c: Component, selectMode: bool, a: Point, m: Point)
    requires CanvasContext.Valid(c.ctx) && c.ctx.canvas.loaded && !c.ctx.canvas.dragging
    requires c.ctx.spacePressed
    ensures var r := MouseUp(DragMove(MouseDown(c, selectMode, a), m), selectMode, true);
      r == Step(WithCanvas(c, c.ctx.canvas.(view := Pan(c.ctx.canvas.view, m))), [])
  {
  }
}

=== FILE: canvas_context.dfy ===
/**
 The shared canvas state of src/contexts/CanvasContext.tsx: the state record
 of the hook plus the last drawing tool used, the space-key flag and the
 highlighted label. Its zoom and reset operations are the hook's; its tool
 setter remembers the last drawing tool, and its cancel never changes the tool.
 */
module CanvasContext {
  import opened Common
  import opened Viewport
  import opened CanvasState

  datatype Context = Context(
    canvas: State,
    lastUsedTool: Tool,
    spacePressed: bool,
    highlightedLabel: Option<string>)

  /** The tools `lastUsedTool` may hold: the three that draw. */
  predicate DrawingTool(t: Tool) {
    t == RectTool || t == PolygonTool || t == PointTool
  }

  predicate Valid(c: Context) {
    CanvasState.Valid(c.canvas) && DrawingTool(c.lastUsedTool)
  }

  /** The provider's initial values: select tool, last drawing tool rect, the hook's initial canvas. */
  const Initial: Context := Context(CanvasState.Initial, RectTool, false, None)

  lemma InitialState()
    ensures Valid(Initial)
    ensures Initial.canvas.tool == SelectTool && Initial.lastUsedTool == RectTool
    ensures Initial.canvas.view == View(1.0, Point(0.0, 0.0))
    ensures !Initial.canvas.drawing && Initial.canvas.points == [] && Initial.canvas.selectionBox.None?
  {
  }

  /** setTool: always switch the tool; remember it only when it draws. */
  function SetTool(c: Context, t: Tool): (r: Context)
    ensures r.canvas == c.canvas.(tool := t)
    ensures DrawingTool(t) ==> r.lastUsedTool == t
    ensures !DrawingTool(t) ==> r.lastUsedTool == c.lastUsedTool
    ensures r.spacePressed == c.spacePressed && r.highlightedLabel == c.highlightedLabel
    ensures Valid(c) ==> Valid(r)
  {
    var last := if t != SelectTool && t != MoveTool then t else c.lastUsedTool;
    c.(canvas := c.canvas.(tool := t), lastUsedTool := last)
  }

  /** A run of tool changes, applied in order. */
  function SetTools(c: Context, ts: seq<Tool>): Context
    decreases |ts|
  {
    if |ts| == 0 then c else SetTools(SetTool(c, ts[0]), ts[1..])
  }

  /** The last drawing tool in a run, if there is one. */
  function LastDrawingTool(ts: seq<Tool>, otherwise: Tool): (r: Tool)
    ensures r == otherwise || exists i :: 0 <= i < |ts| && ts[i] == r && DrawingTool(r)
    decreases |ts|
  {
    if |ts| == 0 then otherwise
    else if DrawingTool(ts[|ts| - 1]) then ts[|ts| - 1]
    else LastDrawingTool(ts[..|ts| - 1], otherwise)
  }

  /**
   After any run of tool changes the tool is the last one chosen and
   `lastUsedTool` is the last drawing tool chosen, or the old one if none drew.
   */
  lemma {:induction false} SetToolsRemembersLastDrawingTool(c: Context, ts: seq<Tool>)
    requires |ts| > 0
    ensures SetTools(c, ts).canvas.tool == ts[|ts| - 1]
    ensures SetTools(c, ts).lastUsedTool == LastDrawingTool(ts, c.lastUsedTool)
    decreases |ts|
  {
    if |ts| > 1 {
      var c1 := SetTool(c, ts[0]);
      SetToolsRemembersLastDrawingTool(c1, ts[1..]);
      assert ts[1..][|ts| - 2] == ts[|ts| - 1];
      LastDrawingToolShift(ts, c.lastUsedTool);
    }
  }

  /** Consuming the first tool of a run moves it into the fallback. */
  lemma {:induction false} LastDrawingToolShift(ts: seq<Tool>, otherwise: Tool)
    requires |ts| > 0
    ensures LastDrawingTool(ts[1..], if DrawingTool(ts[0]) then ts[0] else otherwise)
         == LastDrawingTool(ts, otherwise)
    decreases |ts|
  {
    if |ts| > 1 {
      var init := ts[..|ts| - 1];
      assert ts[1..][..|ts| - 2] == init[1..];
      assert ts[1..][|ts| - 2] == ts[|ts| - 1];
      assert init[0] == ts[0];
      LastDrawingToolShift(init, otherwise);
    }
  }

  /** resetDrawing of the context: the hook's reset on the canvas state. */
  function ResetDrawing(c: Context): (r: Context)
    ensures r == c.(canvas := r.canvas)
    ensures !r.canvas.drawing && r.canvas.points == []
    ensures r.canvas.(drawing := c.canvas.drawing, points := c.canvas.points) == c.canvas
  {
    c.(canvas := CanvasState.ResetDrawing(c.canvas))
  }

  /** handleZoomIn of the context: only the view changes, about the stage centre. */
  function ZoomIn(c: Context): (r: Context)
    requires c.canvas.view.scale > 0.0
    ensures r == c.(canvas := c.canvas.(view := r.canvas.view)) && r.canvas.view.scale > 0.0
    ensures ToImage(r.canvas.view, StageCenter(c.canvas.stage)) == ToImage(c.canvas.view, StageCenter(c.canvas.stage))
    ensures InRange(c.canvas.view.scale) ==> InRange(r.canvas.view.scale)
    ensures Valid(c) ==> Valid(r)
    ensures r.canvas.view.scale >= c.canvas.view.scale
    ensures r.canvas.view.scale ==
      if c.canvas.view.scale * ZoomStep > MaxScale then c.canvas.view.scale else c.canvas.view.scale * ZoomStep
  {
    c.(canvas := CanvasState.ZoomIn(c.canvas))
  }

  /** handleZoomOut of the context: only the view changes, about the stage centre. */
  function ZoomOut(c: Context): (r: Context)
    requires c.canvas.view.scale > 0.0
    ensures r == c.(canvas := c.canvas.(view := r.canvas.view)) && r.canvas.view.scale > 0.0
    ensures ToImage(r.canvas.view, StageCenter(c.canvas.stage)) == ToImage(c.canvas.view, StageCenter(c.canvas.stage))
    ensures InRange(c.canvas.view.scale) ==> InRange(r.canvas.view.scale)
    ensures Valid(c) ==> Valid(r)
    ensures r.canvas.view.scale <= c.canvas.view.scale
    ensures r.canvas.view.scale ==
      if c.canvas.view.scale / ZoomStep < MinScale then c.canvas.view.scale else c.canvas.view.scale / ZoomStep
  {
    c.(canvas := CanvasState.ZoomOut(c.canvas))
  }

  /**
   handleResetZoom of the context, as evidently intended: fit and centre;
   nothing for a zero stage or an image with no size yet. The context's code
   as written divides by the image size unguarded just as the hook's does,
   and gives a non-finite view for a 0×0 image (`Viewport.ResetBeforeLoad`).
   */
  function ResetZoom(c: Context, image: Size): (r: Context)
    requires image.width >= 0.0 && image.height >= 0.0
    ensures r == c.(canvas := c.canvas.(view := r.canvas.view))
    ensures c.canvas.stage.width == 0.0 || c.canvas.stage.height == 0.0 ==> r == c
    ensures image.width == 0.0 && image.height == 0.0 ==> r == c
    ensures var st := c.canvas.stage;
      st.width != 0.0 && st.height != 0.0 && image.width > 0.0 && image.height > 0.0 ==>
        && r.canvas.view.scale == FitMargin * Min(st.width / image.width, st.height / image.height)
        && r.canvas.view.position.x + image.width * r.canvas.view.scale / 2.0 == st.width / 2.0
        && r.canvas.view.position.y + image.height * r.canvas.view.scale / 2.0 == st.height / 2.0
    ensures c.canvas.stage.width > 0.0 && c.canvas.stage.height > 0.0 && FitIsFinite(c.canvas.stage, image) ==>
      && image.width * r.canvas.view.scale <= FitMargin * c.canvas.stage.width
      && image.height * r.canvas.view.scale <= FitMargin * c.canvas.stage.height
    ensures Valid(c) ==> Valid(r)
  {
    c.(canvas := CanvasState.ResetZoom(c.canvas, image))
  }

  /**
   handleCancelDrawing(isSelectMode) of the context: stop drawing, empty the
   buffer, drop the selection box in select mode, and keep the tool.
   */
  function CancelDrawing(c: Context, selectMode: bool): (r: Context)
    ensures !r.canvas.drawing && r.canvas.points == []
    ensures r.canvas.tool == c.canvas.tool && r.lastUsedTool == c.lastUsedTool
    ensures selectMode ==> r.canvas.selectionBox.None?
    ensures !selectMode ==> r.canvas.selectionBox == c.canvas.selectionBox
    ensures r.canvas.(drawing := c.canvas.drawing, points := c.canvas.points,
                      selectionBox := c.canvas.selectionBox) == c.canvas
    ensures Valid(c) ==> Valid(r)
  {
    var s := CanvasState.ResetDrawing(c.canvas);
    c.(canvas := if selectMode then s.(selectionBox := None) else s)
  }
}

=== FILE: canvas_state.dfy ===
/**
 The canvas state record of src/hooks/useCanvasState.ts and the helpers the
 canvas components share: the drawing tool, the flat number buffer of a
 shape being drawn, the viewport, the reference-region selection box and
 the events a handler emits to its parent. Every event handler in the model
 is a pure function from a state to a `Step`: the next state together with
 the callbacks it invoked, in order.
 */
module CanvasState {
  import opened Common
  import opened Labels
  import opened Viewport

  /** The drawing tool; `MoveTool` exists only in the context-based canvas. */
  datatype Tool = SelectTool | RectTool | PolygonTool | PointTool | MoveTool

  /** A finished shape handed to the parent before it has a category. */
  datatype Shape = Shape(kind: LabelType, coordinates: seq<Point>)

  /** A callback a handler invokes. */
  datatype Emit =
    | LabelCreated(shape: Shape)                  // onLabelCreated(type, coordinates)
    | LabelAdded(category: string, shape: Shape)  // onAddLabel({ category, type, coordinates })
    | RegionSelected(region: Box)                 // onSelectRegion(box)
    | LabelDeleted(id: string)                    // onDeleteLabel(id)
    | MissingCallback                             // a call through an absent callback: the handler throws here

  /** The result of one handler: the next state and the callbacks it invoked. */
  datatype Step<S> = Step(state: S, emits: seq<Emit>)

  datatype State = State(
    tool: Tool,
    selectedLabel: Option<string>,
    drawing: bool,
    points: seq<real>,
    view: View,
    stage: Size,
    loaded: bool,
    selectionBox: Option<Box>,
    dragging: bool)

  /** The states the handlers keep: a positive scale, a non-negative stage and a buffer of whole (x, y) pairs. */
  predicate Valid(s: State) {
    && s.view.scale > 0.0
    && s.stage.width >= 0.0 && s.stage.height >= 0.0
    && |s.points| % 2 == 0
  }

  /** The initial values of the hook: select tool, scale 1 at the origin, an 800×600 stage. */
  const Initial: State :=
    State(SelectTool, None, false, [], View(1.0, Point(0.0, 0.0)), Size(800.0, 600.0), false, None, false)

  lemma InitialValid()
    ensures Valid(Initial) && InRange(Initial.view.scale)
    ensures !Initial.drawing && !Initial.dragging && Initial.points == []
  {
  }

  /** A shape whose vertex count matches its type, as a stored label must. */
  predicate ShapeOk(sh: Shape) {
    WellFormed(Label("", "", sh.kind, sh.coordinates, None, None))
  }

  // ---------------------------------------------------------------------------
  // The flat coordinate buffer

  /** `[x0, y0, x1, y1, …]` read as the points `(x0, y0), (x1, y1), …`. */
  function Pairs(b: seq<real>): (r: seq<Point>)
    requires |b| % 2 == 0
    ensures |r| == |b| / 2
    ensures forall i :: 0 <= i < |r| ==> r[i] == Point(b[2 * i], b[2 * i + 1])
    decreases |b|
  {
    if |b| == 0 then [] else [Point(b[0], b[1])] + Pairs(b[2..])
  }

  /** The inverse reading: points written out as a flat buffer. */
  function Flatten(ps: seq<Point>): (r: seq<real>)
    ensures |r| == 2 * |ps|
    ensures forall i :: 0 <= i < |ps| ==> r[2 * i] == ps[i].x && r[2 * i + 1] == ps[i].y
  {
    if |ps| == 0 then [] else [ps[0].x, ps[0].y] + Flatten(ps[1..])
  }

  /** Pairing and flattening are inverse to each other. */
  lemma PairsFlattenRoundTrip(b: seq<real>, ps: seq<Point>)
    requires |b| % 2 == 0
    ensures Flatten(Pairs(b)) == b
    ensures Pairs(Flatten(ps)) == ps
  {
    var ps' := Pairs(b);
    var f := Flatten(ps');
    forall k | 0 <= k < |b|
      ensures f[k] == b[k]
    {
      var i := k / 2;
      assert 0 <= i < |ps'|;
      assert ps'[i] == Point(b[2 * i], b[2 * i + 1]);
      if k == 2 * i {
        assert f[2 * i] == ps'[i].x;
      } else {
        assert k == 2 * i + 1;
        assert f[2 * i + 1] == ps'[i].y;
      }
    }
  }

  /** Appending one point to the buffer appends it to the pairs. */
  lemma PairsSnoc(b: seq<real>, x: real, y: real)
    requires |b| % 2 == 0
    ensures Pairs(b + [x, y]) == Pairs(b) + [Point(x, y)]
  {
  }

  /** The `for (i = 0; i < points.length; i += 2)` loop that builds the coordinate pairs. */
  method CollectPairs(points: seq<real>) returns (coordinates: seq<Point>)
    requires |points| % 2 == 0
    ensures |coordinates| == |points| / 2
    ensures forall i :: 0 <= i < |coordinates| ==>
      coordinates[i] == Point(points[2 * i], points[2 * i + 1])
  {
    coordinates := [];
    var i := 0;
    while i < |points|
      invariant 0 <= i <= |points| && i % 2 == 0
      invariant |coordinates| == i / 2
      invariant forall k :: 0 <= k < |coordinates| ==>
        coordinates[k] == Point(points[2 * k], points[2 * k + 1])
    {
      coordinates := coordinates + [Point(points[i], points[i + 1])];
      i := i + 2;
    }
  }

  // ---------------------------------------------------------------------------
  // Label selection, shared by the canvases that select labels

  /** `setSelectedLabelId(selectedLabelId === labelId ? null : labelId)`. */
  function ToggleSelection(selected: Option<string>, id: string): (r: Option<string>)
    ensures r == Some(id) <==> selected != Some(id)
    ensures r == None <==> selected == Some(id)
  {
    if selected == Some(id) then None else Some(id)
  }

  /** Clicking the same label twice clears the selection unless it started out selected. */
  lemma ToggleTwice(selected: Option<string>, id: string)
    ensures ToggleSelection(ToggleSelection(selected, id), id)
         == (if selected == Some(id) then Some(id) else None)
  {
  }

  /**
   handleDeleteSelected: `if (selectedLabelId)` is false for `null` and for
   the empty string, so only a non-empty selection is deleted and cleared.
   */
  function DeleteSelected(s: State): (r: Step<State>)
    ensures s.selectedLabel.Some? && s.selectedLabel.value != "" ==>
      r == Step(s.(selectedLabel := None), [LabelDeleted(s.selectedLabel.value)])
    ensures s.selectedLabel.None? || s.selectedLabel.value == "" ==> r == Step(s, [])
  {
    match s.selectedLabel
    case Some(id) => if id != "" then Step(s.(selectedLabel := None), [LabelDeleted(id)]) else Step(s, [])
    case None => Step(s, [])
  }

  /** Deleting twice deletes once: after a delete nothing is selected. */
  lemma DeleteSelectedOnce(s: State)
    ensures DeleteSelected(DeleteSelected(s).state) == Step(DeleteSelected(s).state, [])
  {
  }

  // ---------------------------------------------------------------------------
  // The hook's own operations

  /** resetDrawing: stop drawing and empty the buffer, nothing else. */
  function ResetDrawing(s: State): (r: State)
    ensures !r.drawing && r.points == []
    ensures r.(drawing := s.drawing, points := s.points) == s
    ensures Valid(s) ==> Valid(r)
  {
    s.(drawing := false, points := [])
  }

  /** handleZoomIn: only the view changes; the image point at the stage centre stays put. */
  function ZoomIn(s: State): (r: State)
    requires s.view.scale > 0.0
    ensures r == s.(view := r.view)
    ensures r.view.scale > 0.0
    ensures ToImage(r.view, StageCenter(s.stage)) == ToImage(s.view, StageCenter(s.stage))
    ensures InRange(s.view.scale) ==> InRange(r.view.scale)
    ensures r.view.scale == if s.view.scale * ZoomStep > MaxScale then s.view.scale else s.view.scale * ZoomStep
  {
    s.(view := Viewport.ZoomIn(s.view, s.stage))
  }

  /** handleZoomOut: only the view changes; the image point at the stage centre stays put. */
  function ZoomOut(s: State): (r: State)
    requires s.view.scale > 0.0
    ensures r == s.(view := r.view)
    ensures r.view.scale > 0.0
    ensures ToImage(r.view, StageCenter(s.stage)) == ToImage(s.view, StageCenter(s.stage))
    ensures InRange(s.view.scale) ==> InRange(r.view.scale)
    ensures r.view.scale == if s.view.scale / ZoomStep < MinScale then s.view.scale else s.view.scale / ZoomStep
  {
    s.(view := Viewport.ZoomOut(s.view, s.stage))
  }

  /**
   handleResetZoom(imageWidth, imageHeight), and the identical fit the
   canvases run when their image loads: only the view changes. An image
   with no size yet (reset before load) leaves the view as it is; the code
   as written produces a non-finite view there (`Viewport.ResetBeforeLoad`).
   */
  function ResetZoom(s: State, image: Size): (r: State)
    requires image.width >= 0.0 && image.height >= 0.0
    ensures r == s.(view := r.view)
    ensures s.stage.width == 0.0 || s.stage.height == 0.0 ==> r == s
    ensures image.width == 0.0 && image.height == 0.0 ==> r == s
    ensures s.stage.width != 0.0 && s.stage.height != 0.0 && image.width > 0.0 && image.height > 0.0 ==>
      && r.view.scale == FitMargin * Min(s.stage.width / image.width, s.stage.height / image.height)
      && r.view.position.x + image.width * r.view.scale / 2.0 == s.stage.width / 2.0
      && r.view.position.y + image.height * r.view.scale / 2.0 == s.stage.height / 2.0
    ensures s.stage.width > 0.0 && s.stage.height > 0.0 && FitIsFinite(s.stage, image) ==>
      && image.width * r.view.scale <= FitMargin * s.stage.width
      && image.height * r.view.scale <= FitMargin * s.stage.height
      && (image.width * r.view.scale == FitMargin * s.stage.width
          || image.height * r.view.scale == FitMargin * s.stage.height)
    ensures Valid(s) ==> Valid(r)
  {
    var fitted := s.(view := Fit(s.view, s.stage, image));
    if s.stage.width > 0.0 && s.stage.height > 0.0 && FitIsFinite(s.stage, image) then
      FitFillsNinetyPercent(s.view, s.stage, image);
      fitted
    else fitted
  }

  /**
   The image's `onload` handler in every canvas: mark the image loaded and
   fit it to the stage exactly as handleResetZoom does.
   */
  function ImageLoaded(s: State, image: Size): (r: State)
    requires image.width > 0.0 && image.height > 0.0
    ensures r.loaded
    ensures r == s.(loaded := true, view := r.view)
    ensures r.view == ResetZoom(s, image).view
    ensures Valid(s) ==> Valid(r)
  {
    ResetZoom(s, image).(loaded := true)
  }

  /**
   handleCancelDrawing(isSelectMode) of the hook: stop drawing and empty the
   buffer; in select mode drop the selection box, otherwise go back to the
   select tool.
   */
  function CancelDrawing(s: State, selectMode: bool): (r: State)
    ensures !r.drawing && r.points == []
    ensures selectMode ==> r.selectionBox.None? && r.tool == s.tool
    ensures !selectMode ==> r.tool == SelectTool && r.selectionBox == s.selectionBox
    ensures r.(drawing := s.drawing, points := s.points, selectionBox := s.selectionBox, tool := s.tool) == s
    ensures Valid(s) ==> Valid(r)
  {
    var t := ResetDrawing(s);
    if selectMode then t.(selectionBox := None) else t.(tool := SelectTool)
  }

  /** Resetting and cancelling are idempotent. */
  lemma ResetAndCancelIdempotent(s: State, selectMode: bool)
    ensures ResetDrawing(ResetDrawing(s)) == ResetDrawing(s)
    ensures CancelDrawing(CancelDrawing(s, selectMode), selectMode) == CancelDrawing(s, selectMode)
  {
  }
}

=== FILE: colors.dfy ===
/**
 Category colours (src/contexts/ColorContext.tsx): a 32-bit string hash of
 the category picks one of eight palette entries, and AI suggestions are
 always drawn in a fixed accent colour.
 */
module Colors {

  const Palette: seq<string> := [
    "#F97316", "#D946EF", "#0EA5E9", "#8B5CF6",
    "#10B981", "#EC4899", "#F59E0B", "#6366F1"
  ]

  const AiColor: string := "#2563EB"

  const TwoTo32: int := 0x1_0000_0000
  const TwoTo31: int := 0x8000_0000

  predicate IsInt32(v: int) {
    -TwoTo31 <= v < TwoTo31
  }

  /** ECMAScript ToInt32: reduce modulo 2^32 into the signed range. */
  function ToInt32(v: int): (r: int)
    ensures IsInt32(r)
    ensures (r - v) % TwoTo32 == 0
  {
    var m := v % TwoTo32;
    if m >= TwoTo31 then m - TwoTo32 else m
  }

  /**
   The UTF-16 code units `charCodeAt` reads: a character outside the basic
   plane becomes its surrogate pair.
   */
  function CodeUnits(s: string): (r: seq<int>)
    ensures |r| >= |s|
    ensures forall i :: 0 <= i < |r| ==> 0 <= r[i] < 0x1_0000
  {
    if |s| == 0 then []
    else
      var c := s[0] as int;
      var units :=
        if c < 0x1_0000 then [c]
        else [0xD800 + (c - 0x1_0000) / 0x400, 0xDC00 + (c - 0x1_0000) % 0x400];
      units + CodeUnits(s[1..])
  }

  /** `hash << 5` on a value already in 32-bit range. */
  function ShiftLeft5(h: int): int {
    ToInt32(h * 32)
  }

  /** One round of the loop: `hash = ((hash << 5) - hash) + code; hash |= 0`. */
  function HashStep(h: int, code: int): (r: int)
    ensures IsInt32(r)
  {
    ToInt32(ShiftLeft5(h) - h + code)
  }

  /** The hash of a sequence of code units, folded from the left starting at 0. */
  function HashOf(units: seq<int>): (r: int)
    ensures IsInt32(r)
  {
    if |units| == 0 then 0 else HashStep(HashOf(units[..|units| - 1]), units[|units| - 1])
  }

  /** Two integers with the same residue modulo 2^32 have the same ToInt32. */
  lemma ToInt32Congruent(a: int, b: int)
    requires (a - b) % TwoTo32 == 0
    ensures ToInt32(a) == ToInt32(b)
  {
    var k := (a - b) / TwoTo32;
    assert a == b + k * TwoTo32;
    ModAddMultiple(b, k);
  }

  lemma ModAddMultiple(x: int, k: int)
    ensures (x + k * TwoTo32) % TwoTo32 == x % TwoTo32
  {
    var q, r := x / TwoTo32, x % TwoTo32;
    assert x + k * TwoTo32 == (q + k) * TwoTo32 + r;
    DivModUnique(x + k * TwoTo32, q + k, r);
  }

  lemma DivModUnique(v: int, q: int, r: int)
    requires v == q * TwoTo32 + r && 0 <= r < TwoTo32
    ensures v % TwoTo32 == r
  {
  }

  /** The shift-and-subtract round is multiplication by 31 reduced to signed 32 bits. */
  lemma HashStepIsTimes31(h: int, code: int)
    ensures HashStep(h, code) == ToInt32(31 * h + code)
  {
    var s := ToInt32(h * 32);
    assert (s - h * 32) % TwoTo32 == 0;
    assert (s - h + code) - (31 * h + code) == s - h * 32;
    ToInt32Congruent(s - h + code, 31 * h + code);
  }

  /** Each further code unit multiplies the hash so far by 31, adds the unit and wraps to 32 bits. */
  lemma HashOfSnoc(units: seq<int>, code: int)
    ensures HashOf(units + [code]) == ToInt32(31 * HashOf(units) + code)
  {
    assert (units + [code])[..|units|] == units;
    HashStepIsTimes31(HashOf(units), code);
  }

  /** A hash and its negation select the same palette entry. */
  lemma PaletteIndexIgnoresSign(h: int)
    requires IsInt32(h) && IsInt32(-h)
    ensures PaletteIndex(h) == PaletteIndex(-h)
  {
  }

  /** The hashing loop of `getCategoryColor`, over the category's code units. */
  method CategoryHash(category: string) returns (hash: int)
    ensures hash == HashOf(CodeUnits(category))
    ensures IsInt32(hash)
  {
    var units := CodeUnits(category);
    hash := 0;
    var i := 0;
    while i < |units|
      invariant 0 <= i <= |units|
      invariant hash == HashOf(units[..i])
    {
      assert units[..i + 1][..i] == units[..i];
      hash := ((ShiftLeft5(hash)) - hash) + units[i];
      hash := ToInt32(hash);
      i := i + 1;
    }
    assert units[..i] == units;
  }

  /** `Math.abs(hash) % COLOR_PALETTE.length`. */
  function PaletteIndex(h: int): (r: nat)
    requires IsInt32(h)
    ensures r < |Palette|
  {
    (if h < 0 then -h else h) % |Palette|
  }

  /** getCategoryColor. */
  function CategoryColor(category: string): (r: string)
    ensures r in Palette
    ensures r != AiColor
  {
    Palette[PaletteIndex(HashOf(CodeUnits(category)))]
  }

  /** getLabelColor: the accent colour for AI suggestions, the category colour otherwise. */
  function LabelColor(category: string, isAiSuggestion: bool): (r: string)
    ensures isAiSuggestion <==> r == AiColor
    ensures !isAiSuggestion ==> r in Palette
  {
    if isAiSuggestion then AiColor else CategoryColor(category)
  }

  /** An AI suggestion's colour ignores its category; a confirmed label's is its category's. */
  lemma LabelColorProvenance(c1: string, c2: string)
    ensures LabelColor(c1, true) == LabelColor(c2, true)
    ensures LabelColor(c1, false) == CategoryColor(c1)
    ensures c1 == c2 ==> LabelColor(c1, false) == LabelColor(c2, false)
  {
  }

  /** The accent colour is not one of the palette entries. */
  lemma AiColorOutsidePalette()
    ensures forall i :: 0 <= i < |Palette| ==> Palette[i] != AiColor
  {
  }

  /** The most negative hash, whose absolute value leaves the 32-bit range, still indexes entry 0. */
  lemma MostNegativeHashIndex()
    ensures PaletteIndex(-TwoTo31) == 0
  {
  }

  /** The empty category hashes to 0 and gets the first palette entry. */
  lemma EmptyCategoryColor()
    ensures HashOf(CodeUnits("")) == 0
    ensures CategoryColor("") == "#F97316"
  {
  }

  /** "ab" is two code units, 97 and 98. */
  lemma CodeUnitsAb()
    ensures CodeUnits("ab") == [97, 98]
  {
    assert "ab"[0] == 'a' && "ab"[1..] == "b";
    assert "b"[0] == 'b' && "b"[1..] == "";
  }

  /** The fold of 97 then 98: 31 * 97 + 98 = 3105, inside the 32-bit range. */
  lemma HashOfAb()
    ensures HashOf([97, 98]) == 3105
  {
    assert [97, 98][..1] == [97] && [97][..0] == [];
    HashStepIsTimes31(0, 97);
    assert ToInt32(97) == 97;
    assert HashOf([97]) == 97;
    HashStepIsTimes31(97, 98);
    assert ToInt32(3105) == 3105;
  }

  /** A worked example: "ab" hashes to 3105, which selects entry 1. */
  lemma HashExample()
    ensures HashOf(CodeUnits("ab")) == 3105
    ensures CategoryColor("ab") == "#D946EF"
  {
    CodeUnitsAb();
    HashOfAb();
    assert PaletteIndex(3105) == 1;
  }
}

=== FILE: common.dfy ===
/**
 Shared vocabulary of the annotation core: optional values, points and boxes
 over real coordinates, the real-number helpers the handlers use
 (`Math.min`, `Math.max`, `Math.abs`), order-preserving sequence filtering,
 and the few string operations the dialogs rely on (`trim`, ASCII
 `toLowerCase`, `includes`).
 */
module Common {

  /** A value that may be missing (`null` / `undefined` / an absent key). */
  datatype Option<+T> = None | Some(value: T)

  /** A point in image space or screen space. */
  datatype Point = Point(x: real, y: real)

  /** An axis-aligned box in the `{ x, y, width, height }` shape the source reports. */
  datatype Box = Box(x: real, y: real, width: real, height: real)

  function Min(a: real, b: real): (r: real)
    ensures r <= a && r <= b
    ensures r == a || r == b
  {
    if a <= b then a else b
  }

  function Max(a: real, b: real): (r: real)
    ensures r >= a && r >= b
    ensures r == a || r == b
  {
    if a >= b then a else b
  }

  function Abs(a: real): (r: real)
    ensures r >= 0.0
    ensures r == a || r == -a
  {
    if a < 0.0 then -a else a
  }

  /** True when `p` lies in the closed box (boundary included). */
  predicate InBox(b: Box, p: Point) {
    b.x <= p.x <= b.x + b.width && b.y <= p.y <= b.y + b.height
  }

  // ---------------------------------------------------------------------------
  // Sequences

  /** `Array.prototype.filter`: the elements satisfying `keep`, in their original order. */
  function Filter<T>(s: seq<T>, keep: T -> bool): (r: seq<T>)
    ensures |r| <= |s|
    ensures forall i :: 0 <= i < |r| ==> keep(r[i]) && r[i] in s
    ensures forall i :: 0 <= i < |s| && keep(s[i]) ==> s[i] in r
  {
    if |s| == 0 then []
    else if keep(s[|s| - 1]) then Filter(s[..|s| - 1], keep) + [s[|s| - 1]]
    else Filter(s[..|s| - 1], keep)
  }

  /** Filtering distributes over concatenation: the kept elements keep their relative order. */
  lemma {:induction false} FilterAppend<T>(a: seq<T>, b: seq<T>, keep: T -> bool)
    ensures Filter(a + b, keep) == Filter(a, keep) + Filter(b, keep)
    decreases |b|
  {
    if |b| == 0 {
      assert a + b == a;
    } else {
      var b' := b[..|b| - 1];
      assert (a + b)[..|a + b| - 1] == a + b';
      assert (a + b)[|a + b| - 1] == b[|b| - 1];
      FilterAppend(a, b', keep);
    }
  }

  /** Filtering with a predicate every element satisfies is the identity. */
  lemma {:induction false} FilterAll<T>(s: seq<T>, keep: T -> bool)
    requires forall i :: 0 <= i < |s| ==> keep(s[i])
    ensures Filter(s, keep) == s
  {
    if |s| > 0 {
      FilterAll(s[..|s| - 1], keep);
      assert s[..|s| - 1] + [s[|s| - 1]] == s;
    }
  }

  /** `Array.prototype.findIndex`: the first position satisfying `p`, or -1 when none does. */
  function FindIndex<T>(s: seq<T>, p: T -> bool): (r: int)
    ensures -1 <= r < |s|
    ensures r >= 0 ==> p(s[r]) && forall j :: 0 <= j < r ==> !p(s[j])
    ensures r == -1 <==> forall j :: 0 <= j < |s| ==> !p(s[j])
  {
    if |s| == 0 then -1
    else if p(s[0]) then 0
    else
      var k := FindIndex(s[1..], p);
      if k == -1 then -1 else k + 1
  }

  /** The test `y => y !== x`. */
  function Other<T(==)>(x: T): T -> bool {
    (y: T) => y != x
  }

  /** A sequence without repeated elements. */
  predicate NoDup<T(==)>(s: seq<T>) {
    forall i, j :: 0 <= i < j < |s| ==> s[i] != s[j]
  }

  /** A filtered sequence without repeats stays without repeats. */
  lemma {:induction false} FilterNoDup<T>(s: seq<T>, keep: T -> bool)
    requires NoDup(s)
    ensures NoDup(Filter(s, keep))
  {
    if |s| > 0 {
      var init := s[..|s| - 1];
      assert NoDup(init);
      FilterNoDup(init, keep);
      if keep(s[|s| - 1]) {
        assert s[|s| - 1] !in init;
        assert s[|s| - 1] !in Filter(init, keep);
      }
    }
  }

  // ---------------------------------------------------------------------------
  // Strings

  /**
   The characters ECMAScript's `String.prototype.trim` removes: the WhiteSpace
   code points (tab, vertical tab, form feed, space, no-break space, byte-order
   mark and the space separators) and the LineTerminator code points.
   */
  predicate IsWhitespace(c: char) {
    || c == '\t' || c == '\U{000B}' || c == '\U{000C}' || c == ' '
    || c == '\U{00A0}' || c == '\U{FEFF}' || c == '\U{1680}'
    || ('\U{2000}' <= c <= '\U{200A}') || c == '\U{202F}' || c == '\U{205F}' || c == '\U{3000}'
    || c == '\n' || c == '\r' || c == '\U{2028}' || c == '\U{2029}'
  }

  function TrimStart(s: string): (r: string)
    ensures |r| <= |s| && r == s[|s| - |r|..]
    ensures |r| > 0 ==> !IsWhitespace(r[0])
    ensures forall i :: 0 <= i < |s| - |r| ==> IsWhitespace(s[i])
  {
    if |s| > 0 && IsWhitespace(s[0]) then TrimStart(s[1..]) else s
  }

  function TrimEnd(s: string): (r: string)
    ensures |r| <= |s| && r == s[..|r|]
    ensures |r| > 0 ==> !IsWhitespace(r[|r| - 1])
    ensures forall i :: |r| <= i < |s| ==> IsWhitespace(s[i])
  {
    if |s| > 0 && IsWhitespace(s[|s| - 1]) then TrimEnd(s[..|s| - 1]) else s
  }

  /** `String.prototype.trim`: drops leading and trailing whitespace. */
  function Trim(s: string): (r: string)
    ensures |r| <= |s|
    ensures |r| > 0 ==> !IsWhitespace(r[0]) && !IsWhitespace(r[|r| - 1])
  {
    TrimEnd(TrimStart(s))
  }

  /** A string is trimmed to empty exactly when every character is whitespace. */
  lemma TrimEmptyIff(s: string)
    ensures Trim(s) == "" <==> forall i :: 0 <= i < |s| ==> IsWhitespace(s[i])
  {
    var t := TrimStart(s);
    if Trim(s) == "" {
      if |t| > 0 {
        assert false;
      }
    } else {
      var r := Trim(s);
      assert r[0] == t[0];
      assert t[0] == s[|s| - |t|];
    }
  }

  /** Trimming twice is trimming once. */
  lemma TrimIdempotent(s: string)
    ensures Trim(Trim(s)) == Trim(s)
  {
    var r := Trim(s);
    if |r| > 0 {
      assert TrimStart(r) == r;
      assert TrimEnd(r) == r;
    }
  }

  /** `toLowerCase` on the ASCII range; other characters are left as they are. */
  function LowerChar(c: char): char {
    if 'A' <= c <= 'Z' then (c as int + 32) as char else c
  }

  function Lower(s: string): (r: string)
    ensures |r| == |s|
    ensures forall i :: 0 <= i < |s| ==> r[i] == LowerChar(s[i])
  {
    seq(|s|, i requires 0 <= i < |s| => LowerChar(s[i]))
  }

  /** `String.prototype.includes`: `t` occurs as a contiguous run inside `s`. */
  predicate Contains(s: string, t: string) {
    exists i :: 0 <= i <= |s| && t <= s[i..]
  }

  lemma ContainsSelf(s: string)
    ensures Contains(s, s)
  {
    assert s <= s[0..];
  }
}

=== FILE: dataset_page.dfy ===
/**
 The page logic of src/pages/DatasetDetailPage.tsx over the store: the image
 filter and its cycling button, the selected image, the category insert,
 and the handlers that add, change, delete or accept a label on the
 selected image. `Date.now()` ids are parameters (`newId`); the timers
 around detection are left out, the label detection adds is not.
 */
module DatasetPage {
  import opened Common
  import opened Labels
  import opened DummyData
  import AiPanel

  /** The image filter: all images, only those with unknown objects, only cleaned ones. */
  datatype ImageFilter = AllImages | UnknownOnly | CleanOnly

  /** The filter button: all → unknown → clean → all. */
  function NextFilter(f: ImageFilter): (r: ImageFilter)
    ensures r != f
  {
    match f
    case AllImages => UnknownOnly
    case UnknownOnly => CleanOnly
    case CleanOnly => AllImages
  }

  /** Three presses of the filter button return to the starting filter, and every filter is visited. */
  lemma FilterCycle(f: ImageFilter)
    ensures NextFilter(NextFilter(NextFilter(f))) == f
    ensures {f, NextFilter(f), NextFilter(NextFilter(f))} == {AllImages, UnknownOnly, CleanOnly}
  {
  }

  function FlagIs(flag: OsdFlag): Image -> bool {
    (img: Image) => img.osdFlag == flag
  }

  /** `filteredImages`: every image, or the images with the filter's flag, in order. */
  function FilteredImages(images: seq<Image>, f: ImageFilter): (r: seq<Image>)
    ensures f == AllImages ==> r == images
    ensures f != AllImages ==>
      var flag := if f == UnknownOnly then Unknown else Clean;
      && (forall i :: 0 <= i < |r| ==> r[i].osdFlag == flag && r[i] in images)
      && (forall i :: 0 <= i < |images| && images[i].osdFlag == flag ==> images[i] in r)
  {
    match f
    case AllImages => images
    case UnknownOnly => Filter(images, FlagIs(Unknown))
    case CleanOnly => Filter(images, FlagIs(Clean))
  }

  /**
   The image filter works image by image: on a concatenation it is the filter
   of each part, so the images shown keep their order and multiplicity.
   */
  lemma FilteredImagesAppend(a: seq<Image>, b: seq<Image>, f: ImageFilter)
    ensures FilteredImages(a + b, f) == FilteredImages(a, f) + FilteredImages(b, f)
  {
    match f
    case AllImages =>
    case UnknownOnly => FilterAppend(a, b, FlagIs(Unknown));
    case CleanOnly => FilterAppend(a, b, FlagIs(Clean));
  }

  /** Reviewed images appear only under "all". */
  lemma ReviewedOnlyUnderAll(images: seq<Image>, f: ImageFilter, img: Image)
    requires img in FilteredImages(images, f) && img.osdFlag == Reviewed
    ensures f == AllImages
  {
  }

  /** `filteredImages[selectedImageIndex] || null`. */
  function SelectedImage(filtered: seq<Image>, index: int): (r: Option<Image>)
    ensures r.Some? <==> 0 <= index < |filtered|
    ensures r.Some? ==> r.value == filtered[index]
  {
    if 0 <= index < |filtered| then Some(filtered[index]) else None
  }

  /** A selected image is an image of the dataset, so the store finds it by id. */
  lemma SelectedImageIsStored(st: Store, ds: string, f: ImageFilter, index: int)
    requires SelectedImage(FilteredImages(ImagesOf(st, ds), f), index).Some?
    ensures ImageIndex(ImagesOf(st, ds), SelectedImage(FilteredImages(ImagesOf(st, ds), f), index).value.id) != -1
  {
    var imgs := ImagesOf(st, ds);
    var img := SelectedImage(FilteredImages(imgs, f), index).value;
    assert img in imgs;
    var j :| 0 <= j < |imgs| && imgs[j] == img;
    assert imgs[j].id == img.id;
  }

  /** `labels[id] || []`: the dataset's categories. */
  function Categories(st: Store, ds: string): (r: seq<string>)
    ensures ds in st.categories ==> r == st.categories[ds]
    ensures ds !in st.categories ==> r == []
  {
    if ds in st.categories then st.categories[ds] else []
  }

  /** handleAddCategory: append a category the dataset does not have yet; a known one changes nothing. */
  function AddCategory(st: Store, ds: string, category: string): (r: Store)
    ensures category in Categories(st, ds) ==> r == st
    ensures category !in Categories(st, ds) ==> Categories(r, ds) == Categories(st, ds) + [category]
    ensures category in Categories(r, ds)
    ensures NoDup(Categories(st, ds)) ==> NoDup(Categories(r, ds))
    ensures r.datasets == st.datasets && r.images == st.images
    ensures forall k :: k != ds ==> Categories(r, k) == Categories(st, k)
  {
    if category in Categories(st, ds) then st
    else UpdateDatasetLabels(st, ds, Categories(st, ds) + [category])
  }

  /** Adding the same category twice is adding it once. */
  lemma AddCategoryIdempotent(st: Store, ds: string, category: string)
    ensures AddCategory(AddCategory(st, ds, category), ds, category) == AddCategory(st, ds, category)
  {
  }

  // ---------------------------------------------------------------------------
  // Label handlers on the selected image

  /** handleLabelChange: nothing without a selected image, else the store's update. */
  function LabelChange(st: Store, ds: string, selected: Option<Image>, labelId: string, p: Patch): (r: Store)
    requires selected.Some? ==> CanUpdate(st, ds, selected.value.id, labelId, p)
    ensures selected.None? ==> r == st
    ensures selected.Some? ==> r == UpdateImageLabel(st, ds, selected.value.id, labelId, p)
  {
    if selected.None? then st else UpdateImageLabel(st, ds, selected.value.id, labelId, p)
  }

  /** handleLabelDelete: nothing without a selected image, else the store's delete. */
  function LabelDelete(st: Store, ds: string, selected: Option<Image>, labelId: string): (r: Store)
    ensures selected.None? ==> r == st
    ensures selected.Some? ==> r == DeleteImageLabel(st, ds, selected.value.id, labelId)
  {
    if selected.None? then st else DeleteImageLabel(st, ds, selected.value.id, labelId)
  }

  /** The labels of the image with that id in the dataset, if it is there. */
  function LabelsOf(st: Store, ds: string, imageId: string): (r: seq<Label>)
    ensures ImageIndex(ImagesOf(st, ds), imageId) == -1 ==> r == []
  {
    var i := ImageIndex(ImagesOf(st, ds), imageId);
    if i == -1 then [] else ImagesOf(st, ds)[i].labels
  }

  /**
   Putting a new label under a fresh id: nothing without a selected image;
   otherwise, when the image is stored and the id is unused, the image's
   labels gain exactly `l` at the end.
   */
  function AddAs(st: Store, ds: string, selected: Option<Image>, l: Label): (r: Store)
    ensures selected.None? ==> r == st
    ensures selected.Some? ==> r == UpdateImageLabel(st, ds, selected.value.id, l.id, AsPatch(l))
    ensures selected.Some? && ImageIndex(ImagesOf(st, ds), selected.value.id) != -1
            && LabelIndex(LabelsOf(st, ds, selected.value.id), l.id) == -1 ==>
      LabelsOf(r, ds, selected.value.id) == LabelsOf(st, ds, selected.value.id) + [l]
    ensures forall k :: k != ds ==> ImagesOf(r, k) == ImagesOf(st, k)
  {
    if selected.None? then st
    else
      var r := UpdateImageLabel(st, ds, selected.value.id, l.id, AsPatch(l));
      var i := ImageIndex(ImagesOf(st, ds), selected.value.id);
      if i == -1 then r
      else
        FindIndexAgrees(ImagesOf(st, ds), ImagesOf(r, ds), ImageIs(selected.value.id), i);
        r
  }

  /**
   handleAddLabel(newLabel): the canvas's new label stored under the fresh
   id `label-<now>`; `newLabel` carries every property but the id.
   */
  function AddLabel(st: Store, ds: string, selected: Option<Image>, newId: string, newLabel: Label): (r: Store)
    ensures selected.None? ==> r == st
    ensures selected.Some? && ImageIndex(ImagesOf(st, ds), selected.value.id) != -1
            && LabelIndex(LabelsOf(st, ds, selected.value.id), newId) == -1 ==>
      LabelsOf(r, ds, selected.value.id) == LabelsOf(st, ds, selected.value.id) + [newLabel.(id := newId)]
  {
    AddAs(st, ds, selected, newLabel.(id := newId))
  }

  /**
   handleAcceptAiSuggestion(label): a copy of the suggestion under a fresh
   id with `isAiSuggestion` false, on the selected image.
   */
  function AcceptAiSuggestion(st: Store, ds: string, selected: Option<Image>, newId: string, suggestion: Label): (r: Store)
    ensures selected.None? ==> r == st
    ensures selected.Some? && ImageIndex(ImagesOf(st, ds), selected.value.id) != -1
            && LabelIndex(LabelsOf(st, ds, selected.value.id), newId) == -1 ==>
      var before, after := LabelsOf(st, ds, selected.value.id), LabelsOf(r, ds, selected.value.id);
      && |after| == |before| + 1 && after[..|before|] == before
      && after[|before|].id == newId && !IsAi(after[|before|])
      && after[|before|].(id := suggestion.id, isAiSuggestion := suggestion.isAiSuggestion) == suggestion
  {
    AddAs(st, ds, selected, suggestion.(id := newId, isAiSuggestion := Some(false)))
  }

  /**
   An accepted suggestion is added as a new, non-AI label; the suggestion
   itself stays, so the image's suggestions are the same afterwards.
   */
  lemma AcceptKeepsSuggestions(st: Store, ds: string, selected: Option<Image>, newId: string, suggestion: Label)
    requires selected.Some? && ImageIndex(ImagesOf(st, ds), selected.value.id) != -1
    requires LabelIndex(LabelsOf(st, ds, selected.value.id), newId) == -1
    ensures AiPanel.Suggestions(LabelsOf(AcceptAiSuggestion(st, ds, selected, newId, suggestion), ds, selected.value.id))
         == AiPanel.Suggestions(LabelsOf(st, ds, selected.value.id))
  {
    var before := LabelsOf(st, ds, selected.value.id);
    var added := suggestion.(id := newId, isAiSuggestion := Some(false));
    AiPanel.SuggestionsAppend(before, [added]);
    assert AiPanel.Suggestions([added]) == [];
  }

  /** The prompt mode of the detection sidebar. */
  datatype PromptMode = Free | Text | ImagePrompt

  /** The rectangle detection places, corners (50, 50) and (200, 200). */
  const DetectionBox: seq<Point> := [Point(50.0, 50.0), Point(200.0, 200.0)]

  /**
   The label handleRunDetection adds: "text detection", "image match" or
   "automatic detection" by prompt mode; the fixed rect; an AI suggestion of
   confidence 0.85.
   */
  function DetectionLabel(mode: PromptMode, newId: string): (r: Label)
    ensures r.id == newId && r.kind == Rect && r.coordinates == DetectionBox
    ensures WellFormed(r) && IsAi(r) && r.confidence == Some(0.85)
    ensures mode == Text ==> r.category == "文本检测"
    ensures mode == ImagePrompt ==> r.category == "图像匹配"
    ensures mode == Free ==> r.category == "自动检测"
  {
    var category := match mode
      case Text => "文本检测"
      case ImagePrompt => "图像匹配"
      case Free => "自动检测";
    Label(newId, category, Rect, DetectionBox, Some(true), Some(0.85))
  }

  /**
   A detection label is already categorised, so it never shows up among the
   suggestions waiting for a category.
   */
  lemma DetectionIsNoSuggestion(mode: PromptMode, newId: string)
    ensures !AiPanel.IsSuggestion(DetectionLabel(mode, newId))
  {
  }

  /** The body of handleRunDetection's timer: add the detection label to the selected image. */
  function RunDetection(st: Store, ds: string, selected: Option<Image>, mode: PromptMode, newId: string): (r: Store)
    ensures selected.None? ==> r == st
    ensures selected.Some? && ImageIndex(ImagesOf(st, ds), selected.value.id) != -1
            && LabelIndex(LabelsOf(st, ds, selected.value.id), newId) == -1 ==>
      LabelsOf(r, ds, selected.value.id) == LabelsOf(st, ds, selected.value.id) + [DetectionLabel(mode, newId)]
  {
    AddAs(st, ds, selected, DetectionLabel(mode, newId))
  }
}

=== FILE: dummy_data.dfy ===
/**
 The in-memory store of src/hooks/useDummyData.tsx: the dataset list, each
 dataset's images (each image holding its labels) and each dataset's
 category list, with the operations the pages call on it. Every operation
 is a pure function from the store to the next store, as the hook's
 functional `set…(prev => …)` updates are.
 */
module DummyData {
  import opened Common
  import opened Labels

  datatype OsdFlag = Unknown | Reviewed | Clean

  datatype Image = Image(id: string, fileName: string, thumbnail: string, osdFlag: OsdFlag, labels: seq<Label>)

  datatype OsdStatus = IdleStatus | Running | Done | Failed

  datatype Dataset = Dataset(id: string, name: string, imgCount: int, osdStatus: OsdStatus, updatedAt: string)

  /** `datasets`, `imagesData` (keyed by dataset id) and `labels` (the category lists, keyed by dataset id). */
  datatype Store = Store(
    datasets: seq<Dataset>,
    images: map<string, seq<Image>>,
    categories: map<string, seq<string>>)

  /** The categories a new dataset starts with: "object", "person", "vehicle". */
  const DefaultCategories: seq<string> := ["物体", "人物", "车辆"]

  // ---------------------------------------------------------------------------
  // Lookups

  /** The image test `img => img.id === id`. */
  function ImageIs(id: string): Image -> bool {
    (img: Image) => img.id == id
  }

  /** The dataset test `ds => ds.id !== id`. */
  function DatasetIsNot(id: string): Dataset -> bool {
    (d: Dataset) => d.id != id
  }

  /** getDatasetImages: `imagesData[datasetId] || []`; an unknown dataset has no images. */
  function ImagesOf(st: Store, ds: string): (r: seq<Image>)
    ensures ds !in st.images ==> r == []
    ensures ds in st.images ==> r == st.images[ds]
  {
    if ds in st.images then st.images[ds] else []
  }

  /** Where the label with that id sits, or -1. */
  function LabelIndex(labels: seq<Label>, id: string): (r: int)
    ensures -1 <= r < |labels|
    ensures r >= 0 ==> labels[r].id == id && forall j :: 0 <= j < r ==> labels[j].id != id
    ensures r == -1 <==> forall j :: 0 <= j < |labels| ==> labels[j].id != id
  {
    FindIndex(labels, LabelIs(id))
  }

  /** Where the image with that id sits, or -1. */
  function ImageIndex(images: seq<Image>, id: string): (r: int)
    ensures -1 <= r < |images|
    ensures r >= 0 ==> images[r].id == id
    ensures r == -1 <==> forall j :: 0 <= j < |images| ==> images[j].id != id
  {
    FindIndex(images, ImageIs(id))
  }

  // ---------------------------------------------------------------------------
  // Label lists

  /**
   A new label is `{ ...(updatedLabel as Label), id: labelId }`: the cast
   is only sound for a patch that carries a whole label.
   */
  predicate Upsertable(labels: seq<Label>, labelId: string, p: Patch) {
    LabelIndex(labels, labelId) != -1 || Complete(p)
  }

  /**
   The label part of updateImageLabel: an absent id appends the patch as a
   new label with that id; a present id merges the patch into the first
   label with that id, in place.
   */
  function Upsert(labels: seq<Label>, labelId: string, p: Patch): (r: seq<Label>)
    requires Upsertable(labels, labelId, p)
    ensures LabelIndex(labels, labelId) == -1 ==>
      && |r| == |labels| + 1 && r[..|labels|] == labels
      && r[|labels|].id == labelId && Merge(r[|labels|], p.(id := None)) == r[|labels|]
    ensures var k := LabelIndex(labels, labelId);
      k != -1 ==>
        && |r| == |labels| && r[k] == Merge(labels[k], p)
        && forall j :: 0 <= j < |labels| && j != k ==> r[j] == labels[j]
  {
    var k := LabelIndex(labels, labelId);
    if k == -1 then labels + [FromPatch(p, labelId)]
    else labels[..k] + [Merge(labels[k], p)] + labels[k + 1..]
  }

  /** The label part of deleteImageLabel: every label with that id goes, the rest keep their order. */
  function RemoveLabel(labels: seq<Label>, id: string): (r: seq<Label>)
    ensures |r| <= |labels|
    ensures forall j :: 0 <= j < |r| ==> r[j].id != id && r[j] in labels
    ensures forall j :: 0 <= j < |labels| && labels[j].id != id ==> labels[j] in r
    ensures LabelIndex(r, id) == -1
  {
    Filter(labels, LabelIsNot(id))
  }

  /**
   Removal works label by label: on a concatenation it is the removal from
   each part, so the labels kept keep their order and multiplicity.
   */
  lemma RemoveLabelAppend(a: seq<Label>, b: seq<Label>, id: string)
    ensures RemoveLabel(a + b, id) == RemoveLabel(a, id) + RemoveLabel(b, id)
  {
    FilterAppend(a, b, LabelIsNot(id));
  }

  /** Without a label with that id, removal changes nothing. */
  lemma RemoveAbsentLabel(labels: seq<Label>, id: string)
    requires LabelIndex(labels, id) == -1
    ensures RemoveLabel(labels, id) == labels
  {
    FilterAll(labels, LabelIsNot(id));
  }

  /**
   Removing the label just upserted gives the same list as removing it
   from the original: the upsert touched only labels with that id.
   */
  lemma UpsertThenRemove(labels: seq<Label>, id: string, p: Patch)
    requires Upsertable(labels, id, p)
    requires p.id.None? || p.id == Some(id)
    ensures RemoveLabel(Upsert(labels, id, p), id) == RemoveLabel(labels, id)
  {
    var keep := LabelIsNot(id);
    var k := LabelIndex(labels, id);
    if k == -1 {
      FilterAppend(labels, [FromPatch(p, id)], keep);
      assert Filter([FromPatch(p, id)], keep) == [];
    } else {
      var before, after := labels[..k], labels[k + 1..];
      assert labels == before + [labels[k]] + after;
      FilterAppend(before + [labels[k]], after, keep);
      FilterAppend(before, [labels[k]], keep);
      FilterAppend(before + [Merge(labels[k], p)], after, keep);
      FilterAppend(before, [Merge(labels[k], p)], keep);
      assert Filter([labels[k]], keep) == [];
      assert Filter([Merge(labels[k], p)], keep) == [];
    }
  }

  // ---------------------------------------------------------------------------
  // Store operations

  /** The precondition of updateImageLabel: a label it would create carries all its properties. */
  predicate CanUpdate(st: Store, ds: string, imageId: string, labelId: string, p: Patch) {
    var imgs := ImagesOf(st, ds);
    var i := ImageIndex(imgs, imageId);
    i == -1 || Upsertable(imgs[i].labels, labelId, p)
  }

  /** The one image of one dataset replaced; `i` indexes that dataset's images. */
  function WithImage(st: Store, ds: string, i: nat, img: Image): (r: Store)
    requires i < |ImagesOf(st, ds)|
    ensures r.datasets == st.datasets && r.categories == st.categories
    ensures r.images.Keys == st.images.Keys
    ensures forall d :: d in st.images && d != ds ==> r.images[d] == st.images[d]
    ensures |ImagesOf(r, ds)| == |ImagesOf(st, ds)| && ImagesOf(r, ds)[i] == img
    ensures forall j :: 0 <= j < |ImagesOf(st, ds)| && j != i ==> ImagesOf(r, ds)[j] == ImagesOf(st, ds)[j]
  {
    st.(images := st.images[ds := ImagesOf(st, ds)[i := img]])
  }

  /**
   updateImageLabel(datasetId, imageId, labelId, patch): an unknown image
   leaves the store as it is; otherwise only that image's labels change,
   by `Upsert`.
   */
  function UpdateImageLabel(st: Store, ds: string, imageId: string, labelId: string, p: Patch): (r: Store)
    requires CanUpdate(st, ds, imageId, labelId, p)
    ensures ImageIndex(ImagesOf(st, ds), imageId) == -1 ==> r == st
    ensures var imgs := ImagesOf(st, ds);
      var i := ImageIndex(imgs, imageId);
      i != -1 ==>
        && r == WithImage(st, ds, i, imgs[i].(labels := Upsert(imgs[i].labels, labelId, p)))
        && |ImagesOf(r, ds)[i].labels|
           == |imgs[i].labels| + (if LabelIndex(imgs[i].labels, labelId) == -1 then 1 else 0)
  {
    var imgs := ImagesOf(st, ds);
    var i := ImageIndex(imgs, imageId);
    if i == -1 then st
    else WithImage(st, ds, i, imgs[i].(labels := Upsert(imgs[i].labels, labelId, p)))
  }

  /**
   deleteImageLabel(datasetId, imageId, labelId): an unknown image leaves the
   store as it is; otherwise only that image's labels change, by `RemoveLabel`.
   */
  function DeleteImageLabel(st: Store, ds: string, imageId: string, labelId: string): (r: Store)
    ensures ImageIndex(ImagesOf(st, ds), imageId) == -1 ==> r == st
    ensures var imgs := ImagesOf(st, ds);
      var i := ImageIndex(imgs, imageId);
      i != -1 ==> r == WithImage(st, ds, i, imgs[i].(labels := RemoveLabel(imgs[i].labels, labelId)))
  {
    var imgs := ImagesOf(st, ds);
    var i := ImageIndex(imgs, imageId);
    if i == -1 then st
    else WithImage(st, ds, i, imgs[i].(labels := RemoveLabel(imgs[i].labels, labelId)))
  }

  /** Replacing the same image twice keeps only the second replacement. */
  lemma WithImageTwice(st: Store, ds: string, i: nat, a: Image, b: Image)
    requires i < |ImagesOf(st, ds)|
    ensures WithImage(WithImage(st, ds, i, a), ds, i, b) == WithImage(st, ds, i, b)
  {
    assert ImagesOf(st, ds)[i := a][i := b] == ImagesOf(st, ds)[i := b];
  }

  /** Adding or updating a label and then deleting it is the same as deleting it outright. */
  lemma UpdateThenDelete(st: Store, ds: string, imageId: string, labelId: string, p: Patch)
    requires CanUpdate(st, ds, imageId, labelId, p)
    requires p.id.None? || p.id == Some(labelId)
    ensures DeleteImageLabel(UpdateImageLabel(st, ds, imageId, labelId, p), ds, imageId, labelId)
         == DeleteImageLabel(st, ds, imageId, labelId)
  {
    var imgs := ImagesOf(st, ds);
    var i := ImageIndex(imgs, imageId);
    if i != -1 {
      var updated := imgs[i].(labels := Upsert(imgs[i].labels, labelId, p));
      var u := WithImage(st, ds, i, updated);
      var imgs' := ImagesOf(u, ds);
      FindIndexAgrees(imgs, imgs', ImageIs(imageId), i);
      UpsertThenRemove(imgs[i].labels, labelId, p);
      assert imgs'[i].(labels := RemoveLabel(imgs'[i].labels, labelId))
          == imgs[i].(labels := RemoveLabel(imgs[i].labels, labelId));
      WithImageTwice(st, ds, i, updated, imgs[i].(labels := RemoveLabel(imgs[i].labels, labelId)));
    }
  }

  /** Two sequences that agree before position `i` and both satisfy `p` there have the same first match. */
  lemma {:induction false} FindIndexAgrees<T>(a: seq<T>, b: seq<T>, p: T -> bool, i: nat)
    requires i < |a| && i < |b| && FindIndex(a, p) == i && p(b[i])
    requires forall j :: 0 <= j < i ==> a[j] == b[j]
    ensures FindIndex(b, p) == i
  {
    if i > 0 {
      FindIndexAgrees(a[1..], b[1..], p, i - 1);
    }
  }

  /** Deleting a label twice is deleting it once. */
  lemma DeleteImageLabelIdempotent(st: Store, ds: string, imageId: string, labelId: string)
    ensures var once := DeleteImageLabel(st, ds, imageId, labelId);
      DeleteImageLabel(once, ds, imageId, labelId) == once
  {
    var imgs := ImagesOf(st, ds);
    var i := ImageIndex(imgs, imageId);
    if i != -1 {
      var once := DeleteImageLabel(st, ds, imageId, labelId);
      var imgs' := ImagesOf(once, ds);
      FindIndexAgrees(imgs, imgs', ImageIs(imageId), i);
      RemoveAbsentLabel(imgs'[i].labels, labelId);
      assert imgs'[i := imgs'[i].(labels := RemoveLabel(imgs'[i].labels, labelId))] == imgs';
    }
  }

  /**
   addDataset(dataset), with the generated images a parameter: the dataset
   is appended, its images stored and its category list set to the defaults.
   */
  function AddDataset(st: Store, d: Dataset, generated: seq<Image>): (r: Store)
    ensures r.datasets == st.datasets + [d]
    ensures ImagesOf(r, d.id) == generated
    ensures d.id in r.categories && r.categories[d.id] == DefaultCategories
    ensures forall k :: k != d.id ==> ImagesOf(r, k) == ImagesOf(st, k)
  {
    Store(st.datasets + [d], st.images[d.id := generated], st.categories[d.id := DefaultCategories])
  }

  /**
   removeDataset(id): the dataset leaves the list, and its images and its
   categories leave their maps; everything else stays.
   */
  function RemoveDataset(st: Store, id: string): (r: Store)
    ensures forall k :: 0 <= k < |r.datasets| ==> r.datasets[k].id != id && r.datasets[k] in st.datasets
    ensures forall k :: 0 <= k < |st.datasets| && st.datasets[k].id != id ==> st.datasets[k] in r.datasets
    ensures id !in r.images && id !in r.categories && ImagesOf(r, id) == []
    ensures r.images.Keys == st.images.Keys - {id} && r.categories.Keys == st.categories.Keys - {id}
    ensures forall k :: k in r.images ==> r.images[k] == st.images[k]
    ensures forall k :: k in r.categories ==> r.categories[k] == st.categories[k]
  {
    Store(Filter(st.datasets, DatasetIsNot(id)), st.images - {id}, st.categories - {id})
  }

  /** Adding a dataset and removing it again is removing it outright. */
  lemma AddThenRemove(st: Store, d: Dataset, generated: seq<Image>)
    ensures RemoveDataset(AddDataset(st, d, generated), d.id) == RemoveDataset(st, d.id)
  {
    FilterAppend(st.datasets, [d], DatasetIsNot(d.id));
    assert Filter([d], DatasetIsNot(d.id)) == [];
  }

  /** updateDatasetLabels(datasetId, labels): only that dataset's category list is replaced. */
  function UpdateDatasetLabels(st: Store, ds: string, cats: seq<string>): (r: Store)
    ensures r.datasets == st.datasets && r.images == st.images
    ensures ds in r.categories && r.categories[ds] == cats
    ensures r.categories.Keys == st.categories.Keys + {ds}
    ensures forall k :: k in st.categories && k != ds ==> r.categories[k] == st.categories[k]
  {
    st.(categories := st.categories[ds := cats])
  }
}

=== FILE: geometry.dfy ===
/**
 Bounding boxes and hit-testing of labels (src/utils/labelUtils.ts): rect
 corners are normalised with min/max, a point label is a disc of radius 10,
 and a polygon is tested with the even-odd ray-casting rule.
 */
module Geometry {
  import opened Common
  import opened Labels

  /** Radius of the disc around a point label that counts as a hit. */
  const PointRadius: real := 10.0

  /** Side of the square box reported as the bounds of a point label. */
  const PointBoxSide: real := 10.0

  const ZeroBox: Box := Box(0.0, 0.0, 0.0, 0.0)

  // ---------------------------------------------------------------------------
  // Extremes of a coordinate list (`Math.min(...xs)` / `Math.max(...xs)`)

  function Xs(c: seq<Point>): (r: seq<real>)
    ensures |r| == |c| && forall i :: 0 <= i < |c| ==> r[i] == c[i].x
  {
    seq(|c|, i requires 0 <= i < |c| => c[i].x)
  }

  function Ys(c: seq<Point>): (r: seq<real>)
    ensures |r| == |c| && forall i :: 0 <= i < |c| ==> r[i] == c[i].y
  {
    seq(|c|, i requires 0 <= i < |c| => c[i].y)
  }

  function MinOf(xs: seq<real>): (r: real)
    requires |xs| > 0
    ensures forall i :: 0 <= i < |xs| ==> r <= xs[i]
    ensures exists i :: 0 <= i < |xs| && xs[i] == r
  {
    if |xs| == 1 then xs[0]
    else
      var m := MinOf(xs[..|xs| - 1]);
      assert forall i :: 0 <= i < |xs| - 1 ==> xs[..|xs| - 1][i] == xs[i];
      Min(m, xs[|xs| - 1])
  }

  function MaxOf(xs: seq<real>): (r: real)
    requires |xs| > 0
    ensures forall i :: 0 <= i < |xs| ==> xs[i] <= r
    ensures exists i :: 0 <= i < |xs| && xs[i] == r
  {
    if |xs| == 1 then xs[0]
    else
      var m := MaxOf(xs[..|xs| - 1]);
      assert forall i :: 0 <= i < |xs| - 1 ==> xs[..|xs| - 1][i] == xs[i];
      Max(m, xs[|xs| - 1])
  }

  // ---------------------------------------------------------------------------
  // getLabelBounds

  /** The box spanned by two opposite corners given in either order. */
  function CornerBox(a: Point, b: Point): (r: Box)
    ensures r.width >= 0.0 && r.height >= 0.0
    ensures InBox(r, a) && InBox(r, b)
    ensures (r.x == a.x || r.x == b.x) && (r.y == a.y || r.y == b.y)
    ensures (r.x + r.width == a.x || r.x + r.width == b.x)
    ensures (r.y + r.height == a.y || r.y + r.height == b.y)
  {
    Box(Min(a.x, b.x), Min(a.y, b.y), Abs(b.x - a.x), Abs(b.y - a.y))
  }

  /** The min/max box of a non-empty vertex list. */
  function VertexBox(c: seq<Point>): (r: Box)
    requires |c| > 0
    ensures r.width >= 0.0 && r.height >= 0.0
    ensures forall i :: 0 <= i < |c| ==> InBox(r, c[i])
    ensures exists i :: 0 <= i < |c| && c[i].x == r.x
    ensures exists i :: 0 <= i < |c| && c[i].y == r.y
    ensures exists i :: 0 <= i < |c| && c[i].x == r.x + r.width
    ensures exists i :: 0 <= i < |c| && c[i].y == r.y + r.height
  {
    var minX := MinOf(Xs(c));
    var maxX := MaxOf(Xs(c));
    var minY := MinOf(Ys(c));
    var maxY := MaxOf(Ys(c));
    Box(minX, minY, maxX - minX, maxY - minY)
  }

  /** The shapes `getLabelBounds` recognises; everything else gets the zero box. */
  predicate HasBounds(l: Label) {
    match l.kind
    case Rect => |l.coordinates| == 2
    case PointLabel => |l.coordinates| == 1
    case Polygon => |l.coordinates| > 0
  }

  /** getLabelBounds. */
  function Bounds(l: Label): (r: Box)
    ensures r.width >= 0.0 && r.height >= 0.0
    ensures !HasBounds(l) ==> r == ZeroBox
    ensures HasBounds(l) ==> forall i :: 0 <= i < |l.coordinates| ==> InBox(r, l.coordinates[i])
    ensures HasBounds(l) && l.kind.PointLabel? ==>
      r.width == PointBoxSide && r.height == PointBoxSide
      && r.x + r.width / 2.0 == l.coordinates[0].x && r.y + r.height / 2.0 == l.coordinates[0].y
    ensures HasBounds(l) && !l.kind.PointLabel? ==>
      && (exists i :: 0 <= i < |l.coordinates| && l.coordinates[i].x == r.x)
      && (exists i :: 0 <= i < |l.coordinates| && l.coordinates[i].y == r.y)
      && (exists i :: 0 <= i < |l.coordinates| && l.coordinates[i].x == r.x + r.width)
      && (exists i :: 0 <= i < |l.coordinates| && l.coordinates[i].y == r.y + r.height)
  {
    var c := l.coordinates;
    if l.kind.Rect? && |c| == 2 then
      var r := CornerBox(c[0], c[1]);
      assert c[0].x == r.x || c[1].x == r.x;
      assert c[0].y == r.y || c[1].y == r.y;
      assert c[0].x == r.x + r.width || c[1].x == r.x + r.width;
      assert c[0].y == r.y + r.height || c[1].y == r.y + r.height;
      r
    else if l.kind.PointLabel? && |c| == 1 then
      Box(c[0].x - PointBoxSide / 2.0, c[0].y - PointBoxSide / 2.0, PointBoxSide, PointBoxSide)
    else if l.kind.Polygon? && |c| > 0 then
      VertexBox(c)
    else
      ZeroBox
  }

  // ---------------------------------------------------------------------------
  // isPointInLabel

  /** The inclusive min/max containment test of a rect with corners `a` and `b`. */
  predicate InRect(a: Point, b: Point, p: Point) {
    Min(a.x, b.x) <= p.x <= Max(a.x, b.x) && Min(a.y, b.y) <= p.y <= Max(a.y, b.y)
  }

  /** `Math.sqrt(dx*dx + dy*dy) <= 10`, stated without the square root. */
  predicate InDisc(center: Point, p: Point) {
    var dx := p.x - center.x;
    var dy := p.y - center.y;
    dx * dx + dy * dy <= PointRadius * PointRadius
  }

  /** Is `q` strictly above the horizontal line through `p` (`yi > y`)? */
  predicate Above(q: Point, p: Point) {
    q.y > p.y
  }

  /**
   The x coordinate where the edge from `a` to `b` meets the horizontal line
   at height `y`. The guard is the first conjunct of the source's test, and it
   rules out a zero denominator.
   */
  function CrossingX(a: Point, b: Point, y: real): (r: real)
    requires (a.y > y) != (b.y > y)
    ensures a.y != b.y
    ensures Min(a.x, b.x) <= r <= Max(a.x, b.x)
  {
    var n, d := y - a.y, b.y - a.y;
    UnitFraction(n, d);
    ScaleThenDivide(b.x - a.x, n, d);
    TowardsIsBetween(a.x, b.x, n / d);
    (b.x - a.x) * (y - a.y) / (b.y - a.y) + a.x
  }

  lemma UnitFraction(n: real, d: real)
    requires (d < 0.0 && d <= n < 0.0) || (d > 0.0 && 0.0 <= n < d)
    ensures 0.0 <= n / d <= 1.0
  {
  }

  lemma ScaleThenDivide(u: real, n: real, d: real)
    requires d != 0.0
    ensures u * n / d == u * (n / d)
  {
  }

  lemma TowardsIsBetween(u: real, v: real, t: real)
    requires 0.0 <= t <= 1.0
    ensures Min(u, v) <= (v - u) * t + u <= Max(u, v)
  {
    if u <= v {
      ShrinkByFraction(v - u, t);
      var s := (v - u) * t;
      assert Min(u, v) == u && Max(u, v) == v;
      assert u <= s + u <= v;
    } else {
      ShrinkByFraction(u - v, t);
      var s := (u - v) * t;
      assert (v - u) * t == -s;
      assert Min(u, v) == v && Max(u, v) == u;
      assert v <= u - s <= u;
    }
  }

  lemma ShrinkByFraction(w: real, t: real)
    requires w >= 0.0 && 0.0 <= t <= 1.0
    ensures 0.0 <= w * t <= w
  {
  }

  /** The source's `intersect` for the edge from `c[i]` (here `a`) to `c[j]` (here `b`). */
  predicate Crosses(a: Point, b: Point, p: Point) {
    (a.y > p.y) != (b.y > p.y) && p.x < CrossingX(a, b, p.y)
  }

  /** The partner `j` of edge `i`: the previous vertex, cyclically. */
  function Prev(n: nat, i: nat): (j: nat)
    requires i < n
    ensures j < n
  {
    if i == 0 then n - 1 else i - 1
  }

  /** How many of the edges `0 .. k-1` the rightward ray from `p` crosses. */
  function Crossings(c: seq<Point>, p: Point, k: nat): (r: nat)
    requires k <= |c|
    ensures r <= k
  {
    if k == 0 then 0
    else Crossings(c, p, k - 1) + (if Crosses(c[k - 1], c[Prev(|c|, k - 1)], p) then 1 else 0)
  }

  /** The even-odd rule: inside when the ray crosses the boundary an odd number of times. */
  predicate InsidePolygon(c: seq<Point>, p: Point) {
    Crossings(c, p, |c|) % 2 == 1
  }

  /**
   The ray-casting loop as the source writes it: `j` trails `i` by one
   vertex, starting at the last, and `inside` flips at every crossing.
   */
  method RayCast(c: seq<Point>, p: Point) returns (inside: bool)
    requires |c| > 0
    ensures inside <==> InsidePolygon(c, p)
  {
    inside := false;
    var i := 0;
    var j := |c| - 1;
    while i < |c|
      invariant 0 <= i <= |c|
      invariant j == if i == 0 then |c| - 1 else i - 1
      invariant inside <==> Crossings(c, p, i) % 2 == 1
    {
      if Crosses(c[i], c[j], p) {
        inside := !inside;
      }
      j := i;
      i := i + 1;
    }
  }

  /**
   isPointInLabel: only the three well-shaped cases can hit. A rect is hit
   exactly inside its bounds, a polygon hit lies inside its bounds, and a
   point hit lies within 10 of the point along each axis.
   */
  function IsPointInLabel(l: Label, p: Point): (r: bool)
    ensures r ==> WellFormed(l)
    ensures WellFormed(l) && l.kind.Rect? ==> (r <==> InBox(Bounds(l), p))
    ensures WellFormed(l) && l.kind.PointLabel? ==> (r <==> InDisc(l.coordinates[0], p))
    ensures WellFormed(l) && l.kind.Polygon? ==> (r <==> InsidePolygon(l.coordinates, p))
    ensures r && l.kind.Polygon? ==> InBox(Bounds(l), p)
    ensures r && l.kind.PointLabel? ==>
      Abs(p.x - l.coordinates[0].x) <= PointRadius && Abs(p.y - l.coordinates[0].y) <= PointRadius
  {
    var c := l.coordinates;
    if l.kind.Rect? && |c| == 2 then InRect(c[0], c[1], p)
    else if l.kind.PointLabel? && |c| == 1 then
      var dx, dy := p.x - c[0].x, p.y - c[0].y;
      SquareAtMost100(dx);
      SquareAtMost100(dy);
      assert dx * dx >= 0.0 && dy * dy >= 0.0;
      InDisc(c[0], p)
    else if l.kind.Polygon? && |c| > 2 then
      if InsidePolygon(c, p) then PolygonInsideVertexBox(c, p); true else false
    else false
  }

  /** getLabelTypeIconName. */
  function TypeIconName(t: string): (r: string)
    ensures r == "Tag" <==> t != "rect" && t != "polygon" && t != "point"
    ensures t == "rect" ==> r == "RectangleHorizontal"
    ensures t == "polygon" ==> r == "Hexagon"
    ensures t == "point" ==> r == "CircleDot"
  {
    if t == "rect" then "RectangleHorizontal"
    else if t == "polygon" then "Hexagon"
    else if t == "point" then "CircleDot"
    else "Tag"
  }

  /** Every label type has its own icon; only unrecognised tags fall back to "Tag". */
  lemma IconPerType(t: LabelType, u: LabelType)
    ensures TypeIconName(TypeName(t)) != "Tag"
    ensures t != u ==> TypeIconName(TypeName(t)) != TypeIconName(TypeName(u))
  {
  }

  // ---------------------------------------------------------------------------
  // Properties

  /** Rect hit-testing does not depend on the order in which the corners are stored. */
  lemma RectHitCornerOrder(id: string, cat: string, a: Point, b: Point, ai: Option<bool>,
                           conf: Option<real>, p: Point)
    ensures IsPointInLabel(Label(id, cat, Rect, [a, b], ai, conf), p)
        <==> IsPointInLabel(Label(id, cat, Rect, [b, a], ai, conf), p)
    ensures Bounds(Label(id, cat, Rect, [a, b], ai, conf))
         == Bounds(Label(id, cat, Rect, [b, a], ai, conf))
  {
  }

  /** For a well-formed rect, a hit is exactly membership of the reported bounds. */
  lemma RectHitIffInBounds(l: Label, p: Point)
    requires l.kind.Rect? && WellFormed(l)
    ensures IsPointInLabel(l, p) <==> InBox(Bounds(l), p)
  {
  }

  /**
   A point label is hit along an axis exactly within distance 10 of it: the
   point itself and anything 10 away hit, 11 away misses.
   */
  lemma PointHitAlongAxis(l: Label, d: real)
    requires l.kind.PointLabel? && WellFormed(l)
    ensures IsPointInLabel(l, Point(l.coordinates[0].x + d, l.coordinates[0].y)) <==> -10.0 <= d <= 10.0
    ensures IsPointInLabel(l, Point(l.coordinates[0].x, l.coordinates[0].y + d)) <==> -10.0 <= d <= 10.0
  {
    SquareAtMost100(d);
  }

  lemma SquareAtMost100(d: real)
    ensures d * d <= 100.0 <==> -10.0 <= d <= 10.0
  {
    if d > 10.0 {
      assert d * d > 10.0 * d;
    } else if d < -10.0 {
      assert d * d > -10.0 * d;
    } else if d >= 0.0 {
      assert d * d <= 10.0 * d;
    } else {
      assert d * d <= -10.0 * d;
    }
  }

  /**
   The hit disc of a point label (radius 10) is wider than its reported
   bounds (a 10x10 square): a click 8 units to the right selects the label
   but lies outside `getLabelBounds`.
   */
  lemma PointHitReachesPastBounds(l: Label)
    requires l.kind.PointLabel? && WellFormed(l)
    ensures var q := Point(l.coordinates[0].x + 8.0, l.coordinates[0].y);
            IsPointInLabel(l, q) && !InBox(Bounds(l), q)
  {
    PointHitAlongAxis(l, 8.0);
  }

  /** Labels whose coordinate count does not fit their type are never hit. */
  lemma MalformedNeverHit(l: Label, p: Point)
    requires !WellFormed(l)
    ensures !IsPointInLabel(l, p)
  {
  }

  // Even-odd facts used to place polygon hits inside their bounds.

  /** The number of edges `0 .. k-1` whose endpoints lie on opposite sides of the line. */
  function SideChanges(c: seq<Point>, p: Point, k: nat): nat
    requires k <= |c|
  {
    if k == 0 then 0
    else SideChanges(c, p, k - 1)
         + (if Above(c[k - 1], p) != Above(c[Prev(|c|, k - 1)], p) then 1 else 0)
  }

  /** Going round a closed polygon, the line through `p` is crossed an even number of times. */
  lemma {:induction false} SideChangesParity(c: seq<Point>, p: Point, k: nat)
    requires 1 <= k <= |c|
    ensures SideChanges(c, p, k) % 2 == (if Above(c[k - 1], p) != Above(c[|c| - 1], p) then 1 else 0)
  {
    if k > 1 {
      SideChangesParity(c, p, k - 1);
    }
  }

  /** Left of every vertex, each side change is a crossing of the ray. */
  lemma {:induction false} CrossingsLeftOfPolygon(c: seq<Point>, p: Point, k: nat)
    requires k <= |c|
    requires forall i :: 0 <= i < |c| ==> p.x < c[i].x
    ensures Crossings(c, p, k) == SideChanges(c, p, k)
  {
    if k > 0 {
      CrossingsLeftOfPolygon(c, p, k - 1);
      var a, b := c[k - 1], c[Prev(|c|, k - 1)];
      if (a.y > p.y) != (b.y > p.y) {
        var x := CrossingX(a, b, p.y);
        assert p.x < a.x && p.x < b.x;
      }
    }
  }

  /** No edge is crossed when every edge is known to miss the ray. */
  lemma {:induction false} NoCrossings(c: seq<Point>, p: Point, k: nat)
    requires k <= |c|
    requires forall i :: 0 <= i < |c| ==> !Crosses(c[i], c[Prev(|c|, i)], p)
    ensures Crossings(c, p, k) == 0
  {
    if k > 0 {
      NoCrossings(c, p, k - 1);
    }
  }

  /** A point the even-odd rule places inside a polygon lies in the box of its vertices. */
  lemma PolygonInsideVertexBox(c: seq<Point>, p: Point)
    requires |c| > 2 && InsidePolygon(c, p)
    ensures InBox(VertexBox(c), p)
  {
    var b := VertexBox(c);
    var ix :| 0 <= ix < |c| && c[ix].x == b.x;
    var iy :| 0 <= iy < |c| && c[iy].y == b.y;
    var jx :| 0 <= jx < |c| && c[jx].x == b.x + b.width;
    var jy :| 0 <= jy < |c| && c[jy].y == b.y + b.height;
    if p.x < b.x {
      CrossingsLeftOfPolygon(c, p, |c|);
      SideChangesParity(c, p, |c|);
      assert false;
    }
    if p.y < b.y {
      forall i | 0 <= i < |c|
        ensures !Crosses(c[i], c[Prev(|c|, i)], p)
      {
        assert Above(c[i], p) && Above(c[Prev(|c|, i)], p);
      }
      NoCrossings(c, p, |c|);
      assert false;
    }
    if p.x > b.x + b.width || p.y > b.y + b.height {
      forall i | 0 <= i < |c|
        ensures !Crosses(c[i], c[Prev(|c|, i)], p)
      {
        var a, e := c[i], c[Prev(|c|, i)];
        if (a.y > p.y) != (e.y > p.y) {
          var x := CrossingX(a, e, p.y);
          assert x <= b.x + b.width;
        }
      }
      NoCrossings(c, p, |c|);
      assert false;
    }
  }
}

=== FILE: interactions.dfy ===
/**
 The mouse handlers of src/hooks/useCanvasInteractions.ts over the state of
 src/hooks/useCanvasState.ts. A rectangle is dragged out corner to corner and
 reported normalised; a polygon collects one vertex per click and is reported
 on double-click; a point is reported on the click itself; in select mode the
 drag outlines a reference region instead; the middle button pans and the
 wheel zooms about the pointer. Finished shapes go to `onLabelCreated`, whose
 presence the host decides (`Wiring`).
 */
module Interactions {
  import opened Common
  import opened Labels
  import opened Viewport
  import opened CanvasState
  import Geometry

  /** Which callbacks the host component passes to the hook: `onLabelCreated`, `onSelectRegion`, `setScale`. */
  datatype Wiring = Wiring(labelCreated: bool, selectRegion: bool, scale: bool)

  /** A rectangle must be wider and taller than this to be reported. */
  const MinRectSide: real := 5.0

  /** A reference region must be wider and taller than this to be kept. */
  const MinRegionSide: real := 10.0

  /** `onLabelCreated(type, coordinates)`: the call, or the throw when the host passed no callback. */
  function Created(w: Wiring, shape: Shape): (r: seq<Emit>)
    ensures |r| == 1
    ensures w.labelCreated <==> r == [LabelCreated(shape)]
  {
    if w.labelCreated then [LabelCreated(shape)] else [MissingCallback]
  }

  /** The two stored corners of a rect: the minimum corner first, the maximum corner second. */
  function NormalizedCorners(x1: real, y1: real, x2: real, y2: real): (r: seq<Point>)
    ensures |r| == 2 && r[0].x <= r[1].x && r[0].y <= r[1].y
    ensures r[1].x - r[0].x == Abs(x2 - x1) && r[1].y - r[0].y == Abs(y2 - y1)
    ensures {r[0].x, r[1].x} == {x1, x2} && {r[0].y, r[1].y} == {y1, y2}
  {
    [Point(Min(x1, x2), Min(y1, y2)), Point(Max(x1, x2), Max(y1, y2))]
  }

  /** A drag box with a possibly negative size, rewritten with its minimum corner and absolute size. */
  function NormalizedRegion(b: Box): (r: Box)
    ensures r.width == Abs(b.width) && r.height == Abs(b.height)
    ensures InBox(r, Point(b.x, b.y)) && InBox(r, Point(b.x + b.width, b.y + b.height))
    ensures r.x == b.x || r.x == b.x + b.width
    ensures r.y == b.y || r.y == b.y + b.height
  {
    Box(Min(b.x, b.x + b.width), Min(b.y, b.y + b.height), Abs(b.width), Abs(b.height))
  }

  /** What a mouse-up may report: a normalised rect bigger than 5 each way, or a region bigger than 10. */
  predicate ReleaseReport(e: Emit) {
    match e
    case LabelCreated(sh) =>
      && sh.kind == Rect && ShapeOk(sh)
      && sh.coordinates[0].x + MinRectSide < sh.coordinates[1].x
      && sh.coordinates[0].y + MinRectSide < sh.coordinates[1].y
    case RegionSelected(b) => b.width > MinRegionSide && b.height > MinRegionSide
    case MissingCallback => true
    case _ => false
  }

  // ---------------------------------------------------------------------------
  // Handlers

  /** handleMouseDown, with the pointer in screen space and `middle` for `button === 1`. */
  function MouseDown(s: State, w: Wiring, selectMode: bool, pointer: Point, middle: bool): (r: Step<State>)
    requires s.view.scale != 0.0
    ensures !s.loaded ==> r == Step(s, [])
    ensures s.loaded && middle ==> r == Step(s.(dragging := true), [])
    ensures var p := ToImage(s.view, pointer);
      s.loaded && !middle && selectMode ==>
        r == Step(s.(selectionBox := Some(Box(p.x, p.y, 0.0, 0.0)), drawing := true), [])
    ensures var p := ToImage(s.view, pointer);
      s.loaded && !middle && !selectMode && s.tool == RectTool && !s.drawing ==>
        r == Step(s.(drawing := true, points := [p.x, p.y, p.x, p.y]), [])
    ensures var p := ToImage(s.view, pointer);
      s.loaded && !middle && !selectMode && s.tool == PolygonTool && !s.drawing ==>
        r == Step(s.(drawing := true, points := [p.x, p.y]), [])
    ensures var p := ToImage(s.view, pointer);
      s.loaded && !middle && !selectMode && s.tool == PolygonTool && s.drawing ==>
        r == Step(s.(points := s.points + [p.x, p.y]), [])
    ensures s.loaded && !middle && !selectMode && s.tool == PointTool && !s.drawing ==>
      r == Step(s, Created(w, Shape(PointLabel, [ToImage(s.view, pointer)])))
    ensures s.loaded && !middle && !selectMode && (s.tool in {SelectTool, MoveTool} || (s.drawing && s.tool != PolygonTool)) ==>
      r == Step(s, [])
    ensures r.state.tool == s.tool && r.state.view == s.view && r.state.loaded == s.loaded
    ensures r.state.selectedLabel == s.selectedLabel && r.state.stage == s.stage
    ensures Valid(s) ==> Valid(r.state)
    ensures |r.emits| <= 1
    ensures r.emits != [] ==> r.state == s && s.tool == PointTool && !s.drawing
    ensures forall i :: 0 <= i < |r.emits| ==>
      r.emits[i] == MissingCallback || r.emits[i] == LabelCreated(Shape(PointLabel, [ToImage(s.view, pointer)]))
  {
    if !s.loaded then Step(s, [])
    else if middle then Step(s.(dragging := true), [])
    else
      var p := ToImage(s.view, pointer);
      if selectMode then Step(s.(selectionBox := Some(Box(p.x, p.y, 0.0, 0.0)), drawing := true), [])
      else
        match s.tool
        case RectTool =>
          if !s.drawing then Step(s.(drawing := true, points := [p.x, p.y, p.x, p.y]), [])
          else Step(s, [])
        case PointTool =>
          if !s.drawing then Step(s, Created(w, Shape(PointLabel, [p]))) else Step(s, [])
        case PolygonTool =>
          if !s.drawing then Step(s.(drawing := true, points := [p.x, p.y]), [])
          else Step(s.(points := s.points + [p.x, p.y]), [])
        case _ => Step(s, [])
  }

  /** The mouse-move case that reads `points[0]` and `points[1]` to keep the first rect corner. */
  predicate MoveKeepsCorner(s: State, selectMode: bool) {
    s.loaded && !s.dragging && s.drawing && !(selectMode && s.selectionBox.Some?) && s.tool == RectTool
  }

  /** handleMouseMove, with `movement` for the event's `movementX` / `movementY`. */
  function MouseMove(s: State, selectMode: bool, pointer: Point, movement: Point): (r: State)
    requires s.view.scale != 0.0
    requires MoveKeepsCorner(s, selectMode) ==> |s.points| >= 2
    ensures !s.loaded ==> r == s
    ensures s.loaded && s.dragging ==> r == s.(view := Pan(s.view, movement))
    ensures s.loaded && !s.dragging ==> r.view == s.view
    ensures r.tool == s.tool && r.drawing == s.drawing && r.dragging == s.dragging
    ensures r.loaded == s.loaded && r.selectedLabel == s.selectedLabel && r.stage == s.stage
    ensures s.tool != RectTool || !s.drawing || s.dragging ==> r.points == s.points
    ensures MoveKeepsCorner(s, selectMode) ==>
      r.points == s.points[..2] + [ToImage(s.view, pointer).x, ToImage(s.view, pointer).y]
    ensures s.loaded && !s.dragging && s.drawing && selectMode && s.selectionBox.Some? ==>
      var b, p := s.selectionBox.value, ToImage(s.view, pointer);
      && r.selectionBox.Some?
      && r.selectionBox.value.x == b.x && r.selectionBox.value.y == b.y
      && r.selectionBox.value.x + r.selectionBox.value.width == p.x
      && r.selectionBox.value.y + r.selectionBox.value.height == p.y
    ensures Valid(s) ==> Valid(r)
  {
    if !s.loaded then s
    else if s.dragging then s.(view := Pan(s.view, movement))
    else if !s.drawing then s
    else
      var p := ToImage(s.view, pointer);
      if selectMode && s.selectionBox.Some? then
        var b := s.selectionBox.value;
        s.(selectionBox := Some(Box(b.x, b.y, p.x - b.x, p.y - b.y)))
      else
        match s.tool
        case RectTool => s.(points := [s.points[0], s.points[1], p.x, p.y])
        case _ => s
  }

  /**
   handleMouseUp. A buffer shorter than four numbers reads `undefined`, and
   the resulting NaN fails the size test, so such a rect reports nothing.
   */
  function MouseUp(s: State, w: Wiring, selectMode: bool): (r: Step<State>)
    ensures s.dragging ==> r == Step(s.(dragging := false), [])
    ensures !s.dragging && (!s.loaded || !s.drawing) ==> r == Step(s, [])
    ensures r.state.tool == s.tool && r.state.view == s.view && r.state.selectedLabel == s.selectedLabel
    ensures Valid(s) ==> Valid(r.state)
    ensures |r.emits| <= 1
    ensures forall i :: 0 <= i < |r.emits| ==> ReleaseReport(r.emits[i])
    ensures forall i :: 0 <= i < |r.emits| ==> r.emits[i].RegionSelected? ==> w.selectRegion
    ensures MissingCallback in r.emits ==> r.state == s
    ensures (&& !s.dragging && s.loaded && s.drawing && MissingCallback !in r.emits
             && ((selectMode && s.selectionBox.Some?) || s.tool == RectTool)) ==> !r.state.drawing
  {
    if s.dragging then Step(s.(dragging := false), [])
    else if !s.loaded || !s.drawing then Step(s, [])
    else if selectMode && s.selectionBox.Some? then
      var fb := NormalizedRegion(s.selectionBox.value);
      if fb.width > MinRegionSide && fb.height > MinRegionSide then
        Step(s.(selectionBox := Some(fb), drawing := false), if w.selectRegion then [RegionSelected(fb)] else [])
      else
        Step(s.(selectionBox := None, drawing := false), [])
    else if s.tool != RectTool then Step(s, [])
    else if |s.points| >= 4
         && Abs(s.points[2] - s.points[0]) > MinRectSide && Abs(s.points[3] - s.points[1]) > MinRectSide then
      var corners := NormalizedCorners(s.points[0], s.points[1], s.points[2], s.points[3]);
      if w.labelCreated then Step(ResetDrawing(s), [LabelCreated(Shape(Rect, corners))])
      else Step(s, [MissingCallback])
    else Step(ResetDrawing(s), [])
  }

  /** handleDblClick: finish a polygon of at least three vertices. */
  function DblClick(s: State, w: Wiring): (r: Step<State>)
    requires |s.points| % 2 == 0
    ensures !(s.tool == PolygonTool && s.drawing && |s.points| >= 6) ==> r == Step(s, [])
    ensures |r.emits| <= 1
    ensures forall i :: 0 <= i < |r.emits| ==> r.emits[i].LabelCreated? || r.emits[i] == MissingCallback
    ensures forall i :: 0 <= i < |r.emits| ==> r.emits[i].LabelCreated? ==>
      var sh := r.emits[i].shape;
      sh.kind == Polygon && ShapeOk(sh) && Flatten(sh.coordinates) == s.points
    ensures r.emits != [] && r.emits != [MissingCallback] ==>
      !r.state.drawing && r.state.points == [] && r.state == s.(drawing := false, points := [])
    ensures r.emits == [MissingCallback] ==> r.state == s
    ensures Valid(s) ==> Valid(r.state)
  {
    if s.tool != PolygonTool || !s.drawing || |s.points| < 6 then Step(s, [])
    else
      PairsFlattenRoundTrip(s.points, []);
      var coordinates := Pairs(s.points);
      if w.labelCreated then Step(ResetDrawing(s), [LabelCreated(Shape(Polygon, coordinates))])
      else Step(s, [MissingCallback])
  }

  /**
   handleWheel: a step that leaves [0.1, 10] returns early; an accepted one
   calls `setScale`, which throws before `setPosition` when the host passed
   none, and otherwise zooms about the pointer. Only the view changes.
   */
  function Wheel(s: State, w: Wiring, pointer: Point, deltaY: real): (r: Step<State>)
    requires s.view.scale > 0.0
    ensures r.state == s.(view := r.state.view)
    ensures r.state.view.scale > 0.0
    ensures ToImage(r.state.view, pointer) == ToImage(s.view, pointer)
    ensures r.state.view.scale == s.view.scale || r.state.view.scale == WheelScale(s.view.scale, deltaY)
    ensures InRange(s.view.scale) ==> InRange(r.state.view.scale)
    ensures r.emits == [] || r.emits == [MissingCallback]
    ensures r.emits == [MissingCallback] <==> !w.scale && InRange(WheelScale(s.view.scale, deltaY))
    ensures r.emits == [MissingCallback] ==> r.state == s
    ensures w.scale && InRange(WheelScale(s.view.scale, deltaY)) ==> r.state.view.scale == WheelScale(s.view.scale, deltaY)
  {
    if w.scale || !InRange(WheelScale(s.view.scale, deltaY)) then
      Step(s.(view := Viewport.Wheel(s.view, pointer, deltaY)), [])
    else Step(s, [MissingCallback])
  }

  // ---------------------------------------------------------------------------
  // Whole gestures

  /** Preconditions of a fresh gesture: loaded, idle, not panning, buffer empty. */
  predicate Idle(s: State) {
    Valid(s) && s.loaded && !s.drawing && !s.dragging && s.points == []
  }

  /**
   Press at `a`, move to `b`, release, with the rect tool: a rect with the
   normalised image-space corners is reported exactly when both sides
   exceed 5, and the canvas is idle again with the tool unchanged.
   */
  lemma DragRectangle(s: State, a: Point, b: Point, m: Point)
    requires Idle(s) && s.tool == RectTool
    ensures var w := Wiring(true, true, true);
      var s1 := MouseDown(s, w, false, a, false).state;
      var s2 := MouseMove(s1, false, b, m);
      var r := MouseUp(s2, w, false);
      var pa, pb := ToImage(s.view, a), ToImage(s.view, b);
      && r.state == s
      && r.emits == (if Abs(pb.x - pa.x) > MinRectSide && Abs(pb.y - pa.y) > MinRectSide
                     then [LabelCreated(Shape(Rect, NormalizedCorners(pa.x, pa.y, pb.x, pb.y)))]
                     else [])
  {
  }

  /** The rect a drag reports contains both the press and the release point. */
  lemma DraggedRectCoversEnds(a: Point, b: Point, id: string, category: string)
    ensures var l := Label(id, category, Rect, NormalizedCorners(a.x, a.y, b.x, b.y), None, None);
      WellFormed(l) && InBox(Geometry.Bounds(l), a) && InBox(Geometry.Bounds(l), b)
  {
    var l := Label(id, category, Rect, NormalizedCorners(a.x, a.y, b.x, b.y), None, None);
    assert InBox(Geometry.Bounds(l), l.coordinates[0]) && InBox(Geometry.Bounds(l), l.coordinates[1]);
  }

  /**
   Three clicks and a double-click with the polygon tool report the triangle
   of the three image-space points and leave the canvas idle.
   */
  lemma ClickTriangle(s: State, a: Point, b: Point, c: Point)
    requires Idle(s) && s.tool == PolygonTool
    ensures var w := Wiring(true, true, true);
      var s1 := MouseDown(s, w, false, a, false).state;
      var s2 := MouseDown(s1, w, false, b, false).state;
      var s3 := MouseDown(s2, w, false, c, false).state;
      var r := DblClick(s3, w);
      && r.state == s
      && r.emits == [LabelCreated(Shape(Polygon,
           [ToImage(s.view, a), ToImage(s.view, b), ToImage(s.view, c)]))]
  {
    var w := Wiring(true, true, true);
    var s3 := MouseDown(MouseDown(MouseDown(s, w, false, a, false).state, w, false, b, false).state,
                        w, false, c, false).state;
    var pa, pb, pc := ToImage(s.view, a), ToImage(s.view, b), ToImage(s.view, c);
    assert s3.points == [pa.x, pa.y, pb.x, pb.y, pc.x, pc.y];
    assert Pairs(s3.points) == [pa, pb, pc];
  }

  /** Double-clicking a polygon with fewer than three vertices changes nothing: drawing continues. */
  lemma ShortPolygonKeepsDrawing(s: State, w: Wiring)
    requires Valid(s) && s.tool == PolygonTool && s.drawing && |s.points| < 6
    ensures DblClick(s, w) == Step(s, [])
  {
  }

  /** A click with the point tool reports one single-vertex point and never starts drawing. */
  lemma ClickPoint(s: State, a: Point)
    requires Idle(s) && s.tool == PointTool
    ensures var r := MouseDown(s, Wiring(true, true, true), false, a, false);
      && r.state == s && !r.state.drawing
      && r.emits == [LabelCreated(Shape(PointLabel, [ToImage(s.view, a)]))]
      && ShapeOk(r.emits[0].shape)
  {
  }

  /**
   In select mode, press at `a`, move to `b`, release: the normalised region is
   kept and reported exactly when both sides exceed 10, it then contains both
   ends, and otherwise the box is cleared; drawing ends either way.
   */
  lemma DragRegion(s: State, a: Point, b: Point, m: Point)
    requires Idle(s)
    ensures var w := Wiring(true, true, true);
      var s1 := MouseDown(s, w, true, a, false).state;
      var s2 := MouseMove(s1, true, b, m);
      var r := MouseUp(s2, w, true);
      var pa, pb := ToImage(s.view, a), ToImage(s.view, b);
      var big := Abs(pb.x - pa.x) > MinRegionSide && Abs(pb.y - pa.y) > MinRegionSide;
      && !r.state.drawing
      && (big ==> r.state.selectionBox.Some? && r.emits == [RegionSelected(r.state.selectionBox.value)]
                  && InBox(r.state.selectionBox.value, pa) && InBox(r.state.selectionBox.value, pb))
      && (!big ==> r.state.selectionBox.None? && r.emits == [])
  {
    var w := Wiring(true, true, true);
    var s1 := MouseDown(s, w, true, a, false).state;
    var s2 := MouseMove(s1, true, b, m);
    var pa, pb := ToImage(s.view, a), ToImage(s.view, b);
    var box := s2.selectionBox.value;
    assert box == Box(pa.x, pa.y, pb.x - pa.x, pb.y - pa.y);
    assert Point(box.x, box.y) == pa;
    assert Point(box.x + box.width, box.y + box.height) == pb;
  }

  /** A middle-button drag pans by the movement and touches nothing else. */
  lemma MiddleButtonPan(s: State, w: Wiring, selectMode: bool, a: Point, b: Point, m: Point)
    requires Valid(s) && s.loaded && !s.dragging
    ensures var s1 := MouseDown(s, w, selectMode, a, true).state;
      var s2 := MouseMove(s1, selectMode, b, m);
      MouseUp(s2, w, selectMode) == Step(s.(view := Pan(s.view, m)), [])
  {
  }
}

=== FILE: label_dialog.dfy ===
/**
 The category picker of src/components/LabelSelectionDialog.tsx: a query
 box that narrows the existing categories (case-insensitively, ASCII only)
 and offers to create the trimmed query as a new category. A handler's
 `Outcome` records the dialog afterwards and the calls it made:
 `onSelectLabel(category)` and `onClose()`.
 */
module LabelDialog {
  import opened Common

  /** The typed query (`newLabel`) and the categories on show (`filteredLabels`). */
  datatype Dialog = Dialog(query: string, filtered: seq<string>)

  datatype Outcome = Outcome(dialog: Dialog, selected: Option<string>, closed: bool)

  /** The dialog's first render: an empty query over all categories. */
  function Initial(existing: seq<string>): (r: Dialog)
    ensures r.query == "" && r.filtered == existing
  {
    Dialog("", existing)
  }

  function MatchTest(q: string): string -> bool {
    (l: string) => Contains(Lower(l), Lower(q))
  }

  /**
   What the list shows for a query: all categories for the empty query,
   otherwise those whose lower-case form contains the lower-case query.
   */
  function Matching(existing: seq<string>, q: string): (r: seq<string>)
    ensures q == "" ==> r == existing
    ensures q != "" ==>
      && (forall i :: 0 <= i < |r| ==> r[i] in existing && Contains(Lower(r[i]), Lower(q)))
      && (forall i :: 0 <= i < |existing| && Contains(Lower(existing[i]), Lower(q)) ==> existing[i] in r)
  {
    if q == "" then existing else Filter(existing, MatchTest(q))
  }

  /** The list keeps the categories' order: matching distributes over concatenation. */
  lemma MatchingAppend(a: seq<string>, b: seq<string>, q: string)
    ensures Matching(a + b, q) == Matching(a, q) + Matching(b, q)
  {
    if q != "" {
      FilterAppend(a, b, MatchTest(q));
    }
  }

  /** Typing a category's full name always keeps that category on show. */
  lemma FullNameMatches(existing: seq<string>, i: nat)
    requires i < |existing|
    ensures existing[i] in Matching(existing, existing[i])
  {
    ContainsSelf(Lower(existing[i]));
  }

  /** The effect on `[isOpen, existingLabels]`: the list shows every category again; the query stays. */
  function Reset(d: Dialog, existing: seq<string>): (r: Dialog)
    ensures r.query == d.query && r.filtered == existing
  {
    d.(filtered := existing)
  }

  /** handleInputChange: the new query and the categories it matches. */
  function InputChange(d: Dialog, existing: seq<string>, value: string): (r: Dialog)
    ensures r.query == value
    ensures r.filtered == Matching(existing, value)
    ensures |r.filtered| <= |existing|
    ensures value == "" ==> r.filtered == existing
  {
    Dialog(value, Matching(existing, value))
  }

  /** The clear button: empties the query and leaves the list as it was. */
  function Clear(d: Dialog): (r: Dialog)
    ensures r.query == "" && r.filtered == d.filtered
  {
    d.(query := "")
  }

  /** Typing a query and clearing it keeps the narrowed list; only typing or reopening shows all again. */
  lemma ClearKeepsNarrowedList(existing: seq<string>, q: string)
    ensures Clear(InputChange(Initial(existing), existing, q)).filtered == Matching(existing, q)
    ensures Reset(Clear(InputChange(Initial(existing), existing, q)), existing).filtered == existing
  {
  }

  /** handleSelectExisting: pick that category and close. */
  function SelectExisting(d: Dialog, category: string): (r: Outcome)
    ensures r.selected == Some(category) && r.closed && r.dialog == d
  {
    Outcome(d, Some(category), true)
  }

  /** handleAddNew: a query that trims to something is picked, trimmed, and the dialog closes; otherwise nothing. */
  function AddNew(d: Dialog): (r: Outcome)
    ensures r.dialog == d
    ensures Trim(d.query) == "" ==> r.selected.None? && !r.closed
    ensures Trim(d.query) != "" ==> r.selected == Some(Trim(d.query)) && r.closed
    ensures r.selected.Some? ==> r.selected.value != "" && Trim(r.selected.value) == r.selected.value
  {
    if Trim(d.query) != "" then
      TrimIdempotent(d.query);
      Outcome(d, Some(Trim(d.query)), true)
    else Outcome(d, None, false)
  }

  /** A query of whitespace alone creates nothing. */
  lemma BlankQueryAddsNothing(d: Dialog)
    requires forall i :: 0 <= i < |d.query| ==> IsWhitespace(d.query[i])
    ensures AddNew(d) == Outcome(d, None, false)
  {
    TrimEmptyIff(d.query);
  }

  /** handleKeyDown: Enter is add-new; every other key does nothing here. */
  function KeyDown(d: Dialog, key: string): (r: Outcome)
    ensures key == "Enter" ==> r == AddNew(d)
    ensures key != "Enter" ==> r == Outcome(d, None, false)
  {
    if key == "Enter" then AddNew(d) else Outcome(d, None, false)
  }

  /** The create button is shown for a query that trims to a category not yet there. */
  predicate OffersCreate(d: Dialog, existing: seq<string>) {
    Trim(d.query) != "" && Trim(d.query) !in existing
  }

  /**
   When the create button is shown, pressing it or Enter picks a new,
   trimmed category; when the trimmed query is already a category, Enter
   picks that existing category.
   */
  lemma CreatePicksNewCategory(d: Dialog, existing: seq<string>)
    ensures OffersCreate(d, existing) ==>
      && AddNew(d).selected.Some? && AddNew(d).selected.value !in existing
      && KeyDown(d, "Enter") == AddNew(d)
    ensures Trim(d.query) != "" && !OffersCreate(d, existing) ==>
      KeyDown(d, "Enter").selected.Some? && KeyDown(d, "Enter").selected.value in existing
  {
  }
}

=== FILE: labels.dfy ===
/**
 The label record shared by every component (the `Label` interface of
 src/hooks/useDummyData.tsx), the `Partial<Label>` patches the update
 callbacks carry, and the object-spread merge `{ ...label, ...patch }`.
 */
module Labels {
  import opened Common

  /** The `type` tag of a label. */
  datatype LabelType = Rect | Polygon | PointLabel

  /** The string the source stores in `type`. */
  function TypeName(t: LabelType): string {
    match t
    case Rect => "rect"
    case Polygon => "polygon"
    case PointLabel => "point"
  }

  /**
   One annotation. `isAiSuggestion` and `confidence` are optional properties
   in the source, so an absent property is kept apart from an explicit value.
   */
  datatype Label = Label(
    id: string,
    category: string,
    kind: LabelType,
    coordinates: seq<Point>,
    isAiSuggestion: Option<bool>,
    confidence: Option<real>)

  /** `label.isAiSuggestion` used as a condition: only an explicit `true` is truthy. */
  predicate IsAi(l: Label) {
    l.isAiSuggestion == Some(true)
  }

  /** The label test `label => label.id === id`. */
  function LabelIs(id: string): Label -> bool {
    (l: Label) => l.id == id
  }

  /** The label test `label => label.id !== id`. */
  function LabelIsNot(id: string): Label -> bool {
    (l: Label) => l.id != id
  }

  /** The vertex count each type implies: 2 corners, 3 or more vertices, 1 point. */
  predicate WellFormed(l: Label) {
    match l.kind
    case Rect => |l.coordinates| == 2
    case Polygon => |l.coordinates| >= 3
    case PointLabel => |l.coordinates| == 1
  }

  /** A `Partial<Label>`: `None` marks a property the patch object does not have. */
  datatype Patch = Patch(
    id: Option<string>,
    category: Option<string>,
    kind: Option<LabelType>,
    coordinates: Option<seq<Point>>,
    isAiSuggestion: Option<bool>,
    confidence: Option<real>)

  function Pick<T>(patched: Option<T>, current: T): T {
    if patched.Some? then patched.value else current
  }

  function PickOpt<T>(patched: Option<T>, current: Option<T>): Option<T> {
    if patched.Some? then patched else current
  }

  /** `{ ...l, ...p }`: every property the patch has overrides, every other one is kept. */
  function Merge(l: Label, p: Patch): (r: Label)
    ensures p.id.Some? ==> r.id == p.id.value
    ensures p.id.None? ==> r.id == l.id
    ensures p.category.Some? ==> r.category == p.category.value
    ensures p.category.None? ==> r.category == l.category
    ensures p.kind.Some? ==> r.kind == p.kind.value
    ensures p.kind.None? ==> r.kind == l.kind
    ensures p.coordinates.Some? ==> r.coordinates == p.coordinates.value
    ensures p.coordinates.None? ==> r.coordinates == l.coordinates
    ensures p.isAiSuggestion.Some? ==> r.isAiSuggestion == p.isAiSuggestion
    ensures p.isAiSuggestion.None? ==> r.isAiSuggestion == l.isAiSuggestion
    ensures p.confidence.Some? ==> r.confidence == p.confidence
    ensures p.confidence.None? ==> r.confidence == l.confidence
  {
    Label(Pick(p.id, l.id), Pick(p.category, l.category), Pick(p.kind, l.kind),
          Pick(p.coordinates, l.coordinates), PickOpt(p.isAiSuggestion, l.isAiSuggestion),
          PickOpt(p.confidence, l.confidence))
  }

  /** The patch with no properties. */
  const EmptyPatch: Patch := Patch(None, None, None, None, None, None)

  /** A whole label spread into a patch object: `{ ...l }`. */
  function AsPatch(l: Label): Patch {
    Patch(Some(l.id), Some(l.category), Some(l.kind), Some(l.coordinates),
          l.isAiSuggestion, l.confidence)
  }

  /** A patch carrying every property a stored `Label` must have. */
  predicate Complete(p: Patch) {
    p.category.Some? && p.kind.Some? && p.coordinates.Some?
  }

  /**
   `{ ...(patch as Label), id }`: a complete patch read as a new label whose id
   is forced to `id`.
   */
  function FromPatch(p: Patch, id: string): (r: Label)
    requires Complete(p)
    ensures r.id == id
    ensures Merge(r, p.(id := Some(id))) == r
  {
    Label(id, p.category.value, p.kind.value, p.coordinates.value, p.isAiSuggestion, p.confidence)
  }

  /**
   Merging the empty patch changes nothing; merging a whole label that has both
   optional properties yields that label.
   */
  lemma MergeIdentities(l: Label, m: Label)
    ensures Merge(l, EmptyPatch) == l
    ensures m.isAiSuggestion.Some? && m.confidence.Some? ==> Merge(l, AsPatch(m)) == m
  {
  }

  /** Applying a patch twice is applying it once. */
  lemma MergeIdempotent(l: Label, p: Patch)
    ensures Merge(Merge(l, p), p) == Merge(l, p)
  {
  }
}

=== FILE: new_dataset.dfy ===
/**
 The three-step wizard of src/components/NewDatasetDialog.tsx: basic
 information, file upload, confirmation. The step counter, the file list
 and the simulated upload, whose 300 ms interval is modelled as its ten
 ticks run to completion. Toasts become a `Notice`.
 */
module NewDataset {
  import opened Common

  /** A picked or dropped file, as far as the wizard uses it. */
  datatype UploadFile = UploadFile(name: string, size: nat)

  datatype Wizard = Wizard(
    step: int,
    name: string,
    description: string,
    files: seq<UploadFile>,
    uploading: bool,
    progress: int)

  /** The destructive toasts: a missing name on step 1, no files at upload. */
  datatype Notice = NoNotice | NameRequired | FileRequired

  /** The wizard after a button press, and the toast it raised. */
  datatype Press = Press(wizard: Wizard, notice: Notice)

  /** One `onSubmit(name, description)` call. */
  datatype Submission = Submission(name: string, description: string)

  /** The interval's increment and the progress at which it submits. */
  const ProgressStep: int := 10
  const ProgressDone: int := 100

  /** The step is one of the three tabs and the progress bar stays within 0..100. */
  predicate Valid(w: Wizard) {
    1 <= w.step <= 3 && 0 <= w.progress <= ProgressDone
  }

  /** The first render: step 1, nothing typed, no files, not uploading. */
  function Initial(): (r: Wizard)
    ensures Valid(r) && r.step == 1 && r.name == "" && r.files == [] && !r.uploading
  {
    Wizard(1, "", "", [], false, 0)
  }

  /** handleDrop and handleFileChange: the new files go after the existing ones. */
  function AddFiles(w: Wizard, newFiles: seq<UploadFile>): (r: Wizard)
    ensures |r.files| == |w.files| + |newFiles|
    ensures r.files[..|w.files|] == w.files && r.files[|w.files|..] == newFiles
    ensures r == w.(files := r.files)
    ensures Valid(w) ==> Valid(r)
  {
    w.(files := w.files + newFiles)
  }

  /**
   The start position of `splice(index, 1)`: a negative index counts from
   the end (clamped at 0), a large one is clamped to the length.
   */
  function SpliceStart(len: nat, index: int): (r: nat)
    ensures r <= len
    ensures 0 <= index ==> r == if index < len then index else len
    ensures index < 0 ==> r == if len + index < 0 then 0 else len + index
  {
    if index < 0 then (if len + index < 0 then 0 else len + index)
    else if index < len then index else len
  }

  /** removeFile: `splice(index, 1)` on a copy of the list. */
  function RemoveFile(w: Wizard, index: int): (r: Wizard)
    ensures 0 <= index < |w.files| ==> r.files == w.files[..index] + w.files[index + 1..]
    ensures index >= |w.files| ==> r.files == w.files
    ensures |r.files| == if 0 < |w.files| && index < |w.files| then |w.files| - 1 else |w.files|
    ensures r == w.(files := r.files)
    ensures Valid(w) ==> Valid(r)
  {
    var k := SpliceStart(|w.files|, index);
    if k < |w.files| then w.(files := w.files[..k] + w.files[k + 1..]) else w
  }

  /** Removing a file keeps the others, with the removed one the only loss. */
  lemma RemoveFileLosesOne(w: Wizard, index: nat)
    requires index < |w.files|
    ensures multiset(RemoveFile(w, index).files) + multiset{w.files[index]} == multiset(w.files)
  {
    assert w.files == w.files[..index] + [w.files[index]] + w.files[index + 1..];
  }

  /** Adding a file and removing it by its index restores the list. */
  lemma AddThenRemove(w: Wizard, f: UploadFile)
    ensures RemoveFile(AddFiles(w, [f]), |w.files|) == w
    ensures RemoveFile(AddFiles(w, [f]), -1) == w
  {
    assert (w.files + [f])[..|w.files|] == w.files;
  }

  /** simulateUpload's guard: no files raises a notice and changes nothing; otherwise uploading starts. */
  function StartUpload(w: Wizard): (r: Press)
    ensures |w.files| == 0 ==> r == Press(w, FileRequired)
    ensures |w.files| > 0 ==> r.notice == NoNotice && r.wizard == w.(uploading := true)
  {
    if |w.files| == 0 then Press(w, FileRequired) else Press(w.(uploading := true), NoNotice)
  }

  /**
   handleNext: step 1 moves on only with a name that trims to something;
   step 2 moves on unconditionally; from step 3 it starts the upload.
   */
  function Next(w: Wizard): (r: Press)
    ensures w.step == 1 && Trim(w.name) == "" ==> r == Press(w, NameRequired)
    ensures w.step == 1 && Trim(w.name) != "" ==> r == Press(w.(step := 2), NoNotice)
    ensures w.step == 2 ==> r == Press(w.(step := 3), NoNotice)
    ensures r.wizard.step != w.step ==> r.wizard.step == w.step + 1 && r.wizard.step <= 3
    ensures Valid(w) ==> Valid(r.wizard)
  {
    if w.step == 1 then
      if Trim(w.name) == "" then Press(w, NameRequired) else Press(w.(step := 2), NoNotice)
    else if w.step == 2 then Press(w.(step := 3), NoNotice)
    else StartUpload(w)
  }

  /**
   The footer's main button: disabled while uploading; before step 3 it is
   handleNext, on step 3 it is simulateUpload directly.
   */
  function Primary(w: Wizard): (r: Press)
    ensures w.uploading ==> r == Press(w, NoNotice)
    ensures !w.uploading && w.step < 3 ==> r == Next(w)
    ensures !w.uploading && w.step >= 3 ==> r == StartUpload(w)
    ensures Valid(w) ==> Valid(r.wizard)
  {
    if w.uploading then Press(w, NoNotice)
    else if w.step < 3 then Next(w)
    else StartUpload(w)
  }

  /** While not uploading the main button is handleNext on every step, step 3 included. */
  lemma PrimaryIsNextOnLastStep(w: Wizard)
    requires Valid(w) && !w.uploading
    ensures Primary(w) == Next(w)
  {
  }

  /**
   The back button: shown only after step 1 and disabled while uploading;
   when pressed it goes back exactly one step.
   */
  function Back(w: Wizard): (r: Wizard)
    ensures w.step > 1 && !w.uploading ==> r == w.(step := w.step - 1)
    ensures !(w.step > 1 && !w.uploading) ==> r == w
    ensures Valid(w) ==> Valid(r)
  {
    if w.step > 1 && !w.uploading then w.(step := w.step - 1) else w
  }

  /** Moving on from step 1 or 2 and going back returns to the same wizard. */
  lemma NextThenBack(w: Wizard)
    requires Valid(w) && !w.uploading && w.step < 3
    ensures Next(w).notice == NoNotice ==> Back(Next(w).wizard) == w
    ensures Next(w).notice != NoNotice ==> Next(w).wizard == w
  {
  }

  /**
   From the first render, typing a name and adding files, three presses of
   the main button start the upload on step 3.
   */
  lemma ThreePressesStartUpload(n: string, fs: seq<UploadFile>)
    requires Trim(n) != "" && |fs| > 0
    ensures var w := AddFiles(Initial().(name := n), fs);
      && Primary(Primary(w).wizard).wizard.step == 3
      && Primary(Primary(Primary(w).wizard).wizard).wizard.uploading
  {
  }

  /**
   simulateUpload run to completion: refused with no files; otherwise ten
   ticks of +10, one submission of the name and description when progress
   reaches 100, and uploading off again.
   */
  method SimulateUpload(w: Wizard) returns (r: Wizard, notice: Notice, submitted: seq<Submission>, ticks: nat)
    ensures |w.files| == 0 ==> r == w && notice == FileRequired && submitted == [] && ticks == 0
    ensures |w.files| > 0 ==>
      && notice == NoNotice && ticks == ProgressDone / ProgressStep
      && submitted == [Submission(w.name, w.description)]
      && r == w.(uploading := false, progress := ProgressDone)
    ensures Valid(w) ==> Valid(r)
  {
    var started := StartUpload(w);
    r, notice := started.wizard, started.notice;
    submitted, ticks := [], 0;
    if notice != NoNotice {
      return;
    }
    var progress := 0;
    var running := true;
    while running
      invariant 0 <= ticks <= 10 && progress == ProgressStep * ticks
      invariant running <==> ticks < 10
      invariant running ==> r == w.(uploading := true, progress := if ticks == 0 then r.progress else progress)
      invariant running && ticks > 0 ==> r.progress == progress
      invariant running ==> submitted == []
      invariant !running ==> submitted == [Submission(w.name, w.description)]
      invariant !running ==> r == w.(uploading := false, progress := ProgressDone)
      decreases 10 - ticks
    {
      progress := progress + ProgressStep;
      ticks := ticks + 1;
      r := r.(progress := progress);
      if progress >= ProgressDone {
        running := false;
        submitted := submitted + [Submission(r.name, r.description)];
        r := r.(uploading := false);
      }
    }
  }
}

=== FILE: optimized_canvas.dfy ===
/**
 The memoised canvas of src/components/OptimizedCanvas.tsx: the hook's state
 and mouse handlers, a label click that is ignored in select mode, the
 shared delete and fit, and the reset of the selection box on leaving
 select mode. The hook is invoked there with `onSelectRegion` but without
 `onLabelCreated` or `setScale`, so every finished shape and every accepted
 wheel step calls an absent callback; the model keeps that wiring
 (`AsWritten`) next to the evidently intended one (`Wired`), and its
 handlers use the latter.
 */
module OptimizedCanvas {
  import opened Common
  import opened Labels
  import opened Viewport
  import opened CanvasState
  import Interactions

  /** The hook's callbacks as passed here: no `onLabelCreated` and no `setScale`. */
  function AsWritten(selectRegion: bool): (w: Interactions.Wiring)
    ensures !w.labelCreated && !w.scale && w.selectRegion == selectRegion
  {
    Interactions.Wiring(false, selectRegion, false)
  }

  /** The hook's callbacks with the shape callback and the scale setter supplied. */
  function Wired(selectRegion: bool): (w: Interactions.Wiring)
    ensures w.labelCreated && w.scale && w.selectRegion == selectRegion
  {
    Interactions.Wiring(true, selectRegion, true)
  }

  /** handleLabelSelect: ignored in select mode, otherwise a toggle of the single selection. */
  function LabelSelect(s: State, selectMode: bool, id: string): (r: State)
    ensures r == s.(selectedLabel := r.selectedLabel)
    ensures selectMode ==> r == s
    ensures !selectMode ==> (r.selectedLabel == None <==> s.selectedLabel == Some(id))
    ensures !selectMode ==> (r.selectedLabel == Some(id) <==> s.selectedLabel != Some(id))
  {
    if selectMode then s else s.(selectedLabel := ToggleSelection(s.selectedLabel, id))
  }

  /** The effect on `isSelectMode`: leaving select mode drops the selection box. */
  function SelectModeChanged(s: State, selectMode: bool): (r: State)
    ensures selectMode ==> r == s
    ensures !selectMode ==> r == s.(selectionBox := None)
  {
    if selectMode then s else s.(selectionBox := None)
  }

  /**
   The image's `onload` here: the image is marked loaded and, on a non-empty
   stage, fitted to fill at most 90% of each side and exactly 90% of one.
   */
  function ImageLoaded(s: State, image: Size): (r: State)
    requires image.width > 0.0 && image.height > 0.0
    ensures r == s.(loaded := true, view := r.view)
    ensures s.stage.width == 0.0 || s.stage.height == 0.0 ==> r.view == s.view
    ensures s.stage.width > 0.0 && s.stage.height > 0.0 ==>
      && image.width * r.view.scale <= FitMargin * s.stage.width
      && image.height * r.view.scale <= FitMargin * s.stage.height
      && (image.width * r.view.scale == FitMargin * s.stage.width
          || image.height * r.view.scale == FitMargin * s.stage.height)
    ensures r.view == CanvasState.ResetZoom(s, image).view
    ensures s.stage.width != 0.0 && s.stage.height != 0.0 ==>
      && r.view.scale == FitMargin * Min(s.stage.width / image.width, s.stage.height / image.height)
      && r.view.position.x + image.width * r.view.scale / 2.0 == s.stage.width / 2.0
      && r.view.position.y + image.height * r.view.scale / 2.0 == s.stage.height / 2.0
    ensures Valid(s) ==> Valid(r)
  {
    CanvasState.ImageLoaded(s, image)
  }

  /**
   Selecting a label with a non-empty id that was not selected, then
   deleting, deletes exactly that label and leaves nothing selected; in
   select mode the click does nothing, so only a previous selection is deleted.
   */
  lemma SelectThenDelete(s: State, id: string)
    requires id != "" && s.selectedLabel != Some(id)
    ensures DeleteSelected(LabelSelect(s, false, id)) == Step(s.(selectedLabel := None), [LabelDeleted(id)])
    ensures DeleteSelected(LabelSelect(s, true, id)) == DeleteSelected(s)
  {
  }

  // ---------------------------------------------------------------------------
  // The mouse handlers, with the intended wiring

  /** handleMouseDown with every button forwarded; `middle` is `button === 1`, which starts a pan. */
  function MouseDown(s: State, selectMode: bool, selectRegion: bool, pointer: Point, middle: bool): (r: Step<State>)
    requires s.view.scale != 0.0
    ensures s.loaded && middle ==> r == Step(s.(dragging := true), [])
    ensures MissingCallback !in r.emits
    ensures r.emits != [] ==>
      && s.loaded && !middle && !selectMode && s.tool == PointTool && !s.drawing
      && r.emits == [LabelCreated(Shape(PointLabel, [ToImage(s.view, pointer)]))]
    ensures Valid(s) ==> Valid(r.state)
  {
    Interactions.MouseDown(s, Wired(selectRegion), selectMode, pointer, middle)
  }

  function MouseUp(s: State, selectMode: bool, selectRegion: bool): (r: Step<State>)
    ensures MissingCallback !in r.emits
    ensures forall i :: 0 <= i < |r.emits| ==> Interactions.ReleaseReport(r.emits[i])
    ensures !s.dragging && s.loaded && s.drawing && !selectMode && s.tool == RectTool ==>
      !r.state.drawing && r.state.points == []
    ensures Valid(s) ==> Valid(r.state)
  {
    Interactions.MouseUp(s, Wired(selectRegion), selectMode)
  }

  function DblClick(s: State, selectRegion: bool): (r: Step<State>)
    requires |s.points| % 2 == 0
    ensures MissingCallback !in r.emits
    ensures s.tool == PolygonTool && s.drawing && |s.points| >= 6 ==>
      && r.state == ResetDrawing(s)
      && |r.emits| == 1 && r.emits[0].LabelCreated?
      && Flatten(r.emits[0].shape.coordinates) == s.points
    ensures Valid(s) ==> Valid(r.state)
  {
    Interactions.DblClick(s, Wired(selectRegion))
  }

  /**
   The stage's wheel listener, wired as intended: an accepted step zooms
   about the pointer, a refused one changes nothing, and nothing throws.
   */
  function Wheel(s: State, selectRegion: bool, pointer: Point, deltaY: real): (r: Step<State>)
    requires s.view.scale > 0.0
    ensures r.emits == []
    ensures r.state == s.(view := r.state.view)
    ensures InRange(WheelScale(s.view.scale, deltaY)) ==>
      && r.state.view.scale == WheelScale(s.view.scale, deltaY)
      && ToImage(r.state.view, pointer) == ToImage(s.view, pointer)
    ensures !InRange(WheelScale(s.view.scale, deltaY)) ==> r.state == s
  {
    Interactions.Wheel(s, Wired(selectRegion), pointer, deltaY)
  }

  // ---------------------------------------------------------------------------
  // The wiring as written, and as intended

  /**
   As written: every wheel step that would be accepted reaches the missing
   `setScale` and throws before `setPosition`, so the wheel never changes the view.
   */
  lemma WheelNeverZooms(s: State, selectRegion: bool, pointer: Point, deltaY: real)
    requires s.view.scale > 0.0
    ensures Interactions.Wheel(s, AsWritten(selectRegion), pointer, deltaY).state == s
    ensures InRange(WheelScale(s.view.scale, deltaY)) ==>
      && Interactions.Wheel(s, AsWritten(selectRegion), pointer, deltaY).emits == [MissingCallback]
      && Wheel(s, selectRegion, pointer, deltaY).state.view.scale != s.view.scale
  {
  }

  /** As written: a click with the point tool reaches the missing callback and reports nothing. */
  lemma PointClickReportsNothing(s: State, selectRegion: bool, a: Point)
    requires s.loaded && s.view.scale != 0.0 && s.tool == PointTool && !s.drawing
    ensures Interactions.MouseDown(s, AsWritten(selectRegion), false, a, false) == Step(s, [MissingCallback])
    ensures MouseDown(s, false, selectRegion, a, false).emits == [LabelCreated(Shape(PointLabel, [ToImage(s.view, a)]))]
  {
  }

  /**
   As written: a rect dragged more than 5 each way reaches the missing
   callback, which throws before `setDrawing(false)`; no label is reported
   and the canvas stays in the drawing state with the whole rect buffered.
   */
  lemma RectDragLeavesDrawing(s: State, selectRegion: bool, a: Point, b: Point, m: Point)
    requires Interactions.Idle(s) && s.tool == RectTool
    requires Abs(ToImage(s.view, b).x - ToImage(s.view, a).x) > Interactions.MinRectSide
    requires Abs(ToImage(s.view, b).y - ToImage(s.view, a).y) > Interactions.MinRectSide
    ensures var w := AsWritten(selectRegion);
      var s1 := Interactions.MouseDown(s, w, false, a, false).state;
      var r := Interactions.MouseUp(Interactions.MouseMove(s1, false, b, m), w, false);
      && r.emits == [MissingCallback]
      && r.state.drawing
      && r.state.points == [ToImage(s.view, a).x, ToImage(s.view, a).y, ToImage(s.view, b).x, ToImage(s.view, b).y]
  {
  }

  /** The concrete case: at scale 1 and the origin, a drag from (0, 0) to (20, 20). */
  lemma RectDragExample(s: State)
    requires Interactions.Idle(s) && s.tool == RectTool && s.view == View(1.0, Point(0.0, 0.0))
    ensures var w := AsWritten(false);
      var s1 := Interactions.MouseDown(s, w, false, Point(0.0, 0.0), false).state;
      var r := Interactions.MouseUp(Interactions.MouseMove(s1, false, Point(20.0, 20.0), Point(0.0, 0.0)), w, false);
      r.emits == [MissingCallback] && r.state.drawing
  {
    RectDragLeavesDrawing(s, false, Point(0.0, 0.0), Point(20.0, 20.0), Point(0.0, 0.0));
  }

  /** As written: double-clicking a finished polygon throws and drawing never ends. */
  lemma PolygonStaysOpen(s: State, selectRegion: bool)
    requires Valid(s) && s.tool == PolygonTool && s.drawing && |s.points| >= 6
    ensures Interactions.DblClick(s, AsWritten(selectRegion)) == Step(s, [MissingCallback])
  {
  }

  /**
   As intended: the same drag reports the rect with normalised corners when
   both sides exceed 5, and the canvas is idle again either way.
   */
  lemma DragRectangle(s: State, selectRegion: bool, a: Point, b: Point, m: Point)
    requires Interactions.Idle(s) && s.tool == RectTool
    ensures var s1 := MouseDown(s, false, selectRegion, a, false).state;
      var r := MouseUp(Interactions.MouseMove(s1, false, b, m), false, selectRegion);
      var pa, pb := ToImage(s.view, a), ToImage(s.view, b);
      && r.state == s
      && r.emits == (if Abs(pb.x - pa.x) > Interactions.MinRectSide && Abs(pb.y - pa.y) > Interactions.MinRectSide
                     then [LabelCreated(Shape(Rect, Interactions.NormalizedCorners(pa.x, pa.y, pb.x, pb.y)))]
                     else [])
  {
  }
}

=== FILE: prompt_dialog.dfy ===
/**
 The local label list of src/components/ImagePromptDialog.tsx: the labels
 drawn on a reference image, kept only while the dialog is open. `Date.now()`
 ids are a parameter.
 */
module PromptDialog {
  import opened Common
  import opened Labels
  import DummyData

  /** The effect on `isOpen`: opening starts from no labels; closing keeps them. */
  function OpenChanged(labels: seq<Label>, isOpen: bool): (r: seq<Label>)
    ensures isOpen ==> r == []
    ensures !isOpen ==> r == labels
  {
    if isOpen then [] else labels
  }

  /** handleAddLabel: append the new label under the id `prompt-label-<now>`. */
  function AddLabel(labels: seq<Label>, newLabel: Label, newId: string): (r: seq<Label>)
    ensures |r| == |labels| + 1 && r[..|labels|] == labels
    ensures r[|labels|].id == newId && r[|labels|].(id := newLabel.id) == newLabel
  {
    labels + [newLabel.(id := newId)]
  }

  /** handleUpdateLabel: merge the patch into every label with that id; length and the other labels are unchanged. */
  function UpdateLabel(labels: seq<Label>, labelId: string, p: Patch): (r: seq<Label>)
    ensures |r| == |labels|
    ensures forall i :: 0 <= i < |labels| && labels[i].id == labelId ==> r[i] == Merge(labels[i], p)
    ensures forall i :: 0 <= i < |labels| && labels[i].id != labelId ==> r[i] == labels[i]
  {
    seq(|labels|, i requires 0 <= i < |labels| => if labels[i].id == labelId then Merge(labels[i], p) else labels[i])
  }

  /** handleDeleteLabel: every label with that id goes, the rest keep their order. */
  function DeleteLabel(labels: seq<Label>, labelId: string): (r: seq<Label>)
    ensures |r| <= |labels|
    ensures forall i :: 0 <= i < |r| ==> r[i].id != labelId && r[i] in labels
    ensures forall i :: 0 <= i < |labels| && labels[i].id != labelId ==> labels[i] in r
  {
    Filter(labels, LabelIsNot(labelId))
  }

  /**
   Deletion works label by label: on a concatenation it is the deletion from
   each part, so the rest keep their order and multiplicity.
   */
  lemma DeleteLabelAppend(a: seq<Label>, b: seq<Label>, labelId: string)
    ensures DeleteLabel(a + b, labelId) == DeleteLabel(a, labelId) + DeleteLabel(b, labelId)
  {
    FilterAppend(a, b, LabelIsNot(labelId));
  }

  /** Deleting here is the store's label removal. */
  lemma DeleteIsStoreRemoval(labels: seq<Label>, labelId: string)
    ensures DeleteLabel(labels, labelId) == DummyData.RemoveLabel(labels, labelId)
  {
  }

  /**
   With ids unique, updating a label is the store's upsert of a present
   label: only the first (and only) label with that id is merged.
   */
  lemma UpdateAgreesWithUpsert(labels: seq<Label>, labelId: string, p: Patch)
    requires DummyData.LabelIndex(labels, labelId) != -1
    requires forall i, j :: 0 <= i < j < |labels| ==> labels[i].id != labels[j].id
    ensures UpdateLabel(labels, labelId, p) == DummyData.Upsert(labels, labelId, p)
  {
    var k := DummyData.LabelIndex(labels, labelId);
    var u := UpdateLabel(labels, labelId, p);
    var v := DummyData.Upsert(labels, labelId, p);
    forall i | 0 <= i < |labels|
      ensures u[i] == v[i]
    {
      if i != k {
        assert labels[i].id != labelId;
      }
    }
  }

  /**
   Adding a label under a new id and deleting that id restores the list;
   so does deleting after reopening, which empties it.
   */
  lemma AddThenDelete(labels: seq<Label>, newLabel: Label, newId: string)
    requires forall i :: 0 <= i < |labels| ==> labels[i].id != newId
    ensures DeleteLabel(AddLabel(labels, newLabel, newId), newId) == labels
  {
    FilterAppend(labels, [newLabel.(id := newId)], LabelIsNot(newId));
    FilterAll(labels, LabelIsNot(newId));
    assert Filter([newLabel.(id := newId)], LabelIsNot(newId)) == [];
  }

  /** Updating with a patch that keeps ids, twice, is updating once. */
  lemma UpdateIdempotent(labels: seq<Label>, labelId: string, p: Patch)
    requires p.id.None? || p.id == Some(labelId)
    ensures UpdateLabel(UpdateLabel(labels, labelId, p), labelId, p) == UpdateLabel(labels, labelId, p)
  {
    var once := UpdateLabel(labels, labelId, p);
    forall i | 0 <= i < |labels|
      ensures UpdateLabel(once, labelId, p)[i] == once[i]
    {
      if labels[i].id == labelId {
        MergeIdempotent(labels[i], p);
      }
    }
  }
}

=== FILE: variants.dfy ===
/**
 Where the canvases disagree. The hook (src/hooks/useCanvasInteractions.ts),
 the self-contained canvas (src/components/AnnotationCanvas.tsx) and the
 context-based canvas (src/components/canvas/Canvas.tsx) build the same
 shapes but differ in how a rect's corners are stored, how big a reference
 region must be, what a too-short polygon does on double-click, and which
 tool is left after a shape or a cancel. Each difference is stated here
 over the handlers themselves, together with what still agrees.
 */
module Variants {
  import opened Common
  import opened Labels
  import opened Viewport
  import opened CanvasState
  import Geometry
  import Interactions
  import AnnotationCanvas
  import CanvasContext
  import Canvas

  // ---------------------------------------------------------------------------
  // Rect corners: normalised by the hook, in drag order by Canvas.tsx

  /** The two corner lists coincide exactly when the drag went right and down. */
  lemma RectCornersCoincide(a: Point, b: Point)
    ensures Interactions.NormalizedCorners(a.x, a.y, b.x, b.y) == [a, b] <==> a.x <= b.x && a.y <= b.y
  {
    if Interactions.NormalizedCorners(a.x, a.y, b.x, b.y) == [a, b] {
      assert Min(a.x, b.x) == a.x && Min(a.y, b.y) == a.y;
    }
  }

  /**
   Stored either way, the rect has the same bounds and is hit at the same
   points: the difference is invisible to hit-testing and bounds.
   */
  lemma RectCornersSameRegion(id: string, category: string, a: Point, b: Point, p: Point)
    ensures var raw := Label(id, category, Rect, [a, b], None, None);
      var norm := Label(id, category, Rect, Interactions.NormalizedCorners(a.x, a.y, b.x, b.y), None, None);
      && Geometry.Bounds(raw) == Geometry.Bounds(norm)
      && (Geometry.IsPointInLabel(raw, p) <==> Geometry.IsPointInLabel(norm, p))
  {
    var raw := Label(id, category, Rect, [a, b], None, None);
    var norm := Label(id, category, Rect, Interactions.NormalizedCorners(a.x, a.y, b.x, b.y), None, None);
    Geometry.RectHitIffInBounds(raw, p);
    Geometry.RectHitIffInBounds(norm, p);
  }

  // ---------------------------------------------------------------------------
  // Reference regions: more than 10 each way in the hook, more than 5 in Canvas.tsx

  /** A select-mode drag with the box already outlined, ready for the mouse-up. */
  predicate OutlinedRegion(s: State, b: Box) {
    s.loaded && s.drawing && !s.dragging && s.selectionBox == Some(b)
  }

  /**
   An 8 by 8 region: the hook clears it and reports nothing, Canvas.tsx
   reports it. Both normalise it the same way.
   */
  lemma EightByEightRegion(c: Canvas.Component, x: real, y: real)
    requires OutlinedRegion(c.ctx.canvas, Box(x, y, 8.0, 8.0)) && !Canvas.Panning(c)
    ensures var r := Interactions.MouseUp(c.ctx.canvas, Interactions.Wiring(true, true, true), true);
      r.emits == [] && r.state.selectionBox.None? && !r.state.drawing
    ensures Canvas.MouseUp(c, true, true).emits == [RegionSelected(Box(x, y, 8.0, 8.0))]
  {
  }

  /** Beyond both thresholds the two report the same normalised region. */
  lemma LargeRegionAgrees(c: Canvas.Component, b: Box)
    requires OutlinedRegion(c.ctx.canvas, b) && !Canvas.Panning(c)
    requires Abs(b.width) > Interactions.MinRegionSide && Abs(b.height) > Interactions.MinRegionSide
    ensures Interactions.MouseUp(c.ctx.canvas, Interactions.Wiring(true, true, true), true).emits
         == Canvas.MouseUp(c, true, true).emits
         == [RegionSelected(Interactions.NormalizedRegion(b))]
  {
  }

  // ---------------------------------------------------------------------------
  // Double-click on a polygon of fewer than three vertices

  /** The hook keeps drawing; Canvas.tsx abandons the polygon. Neither reports it. */
  lemma ShortPolygon(c: Canvas.Component)
    requires c.ctx.canvas.tool == PolygonTool && c.ctx.canvas.drawing
    requires |c.ctx.canvas.points| % 2 == 0 && |c.ctx.canvas.points| < 6
    ensures Interactions.DblClick(c.ctx.canvas, Interactions.Wiring(true, true, true)) == Step(c.ctx.canvas, [])
    ensures var r := Canvas.DblClick(c);
      !r.ctx.canvas.drawing && r.ctx.canvas.points == [] && r.pending == c.pending
  {
  }

  // ---------------------------------------------------------------------------
  // The tool after a cancel or a finished shape

  /**
   Cancelling outside select mode: the context keeps the tool, the hook's
   state returns to select, and AnnotationCanvas.tsx returns to select. All
   three stop drawing with an empty buffer.
   */
  lemma CancelTool(ctx: CanvasContext.Context)
    requires ctx.canvas.tool == RectTool
    ensures CanvasContext.CancelDrawing(ctx, false).canvas.tool == RectTool
    ensures CanvasState.CancelDrawing(ctx.canvas, false).tool == SelectTool
    ensures AnnotationCanvas.CancelDrawing(ctx.canvas).tool == SelectTool
    ensures CanvasContext.CancelDrawing(ctx, false).canvas.(tool := SelectTool)
         == CanvasState.CancelDrawing(ctx.canvas, false)
         == AnnotationCanvas.CancelDrawing(ctx.canvas)
  {
  }

  /**
   A point click: the hook reports the point and keeps the point tool;
   AnnotationCanvas.tsx adds it as "未标注" and switches to select.
   */
  lemma PointClickTool(s: State, a: Point)
    requires Interactions.Idle(s) && s.tool == PointTool
    ensures var h := Interactions.MouseDown(s, Interactions.Wiring(true, true, true), false, a, false);
      h.state.tool == PointTool && h.emits == [LabelCreated(Shape(PointLabel, [ToImage(s.view, a)]))]
    ensures var r := AnnotationCanvas.MouseDown(s, a);
      r.state.tool == SelectTool && r.emits == [LabelAdded(AnnotationCanvas.Unlabelled, Shape(PointLabel, [ToImage(s.view, a)]))]
  {
  }
}

=== FILE: viewport.dfy ===
/**
 The viewport transform shared by every canvas variant: screen point
 `p` shows image point `(p - position) / scale`. Zoom buttons step the scale
 by 1.2 about the stage centre, the wheel steps it by 1.1 about the pointer,
 loading or resetting fits the image at 90% and centres it, and dragging pans.
 */
module Viewport {
  import opened Common

  datatype View = View(scale: real, position: Point)

  /** A width and height in screen pixels (stage) or image pixels (image). */
  datatype Size = Size(width: real, height: real)

  const ZoomStep: real := 1.2
  const WheelStep: real := 1.1
  const MinScale: real := 0.1
  const MaxScale: real := 10.0
  const FitMargin: real := 0.9

  predicate InRange(scale: real) {
    MinScale <= scale <= MaxScale
  }

  /** Screen space to image space: the image point that the view puts at `p`. */
  function ToImage(v: View, p: Point): (r: Point)
    requires v.scale != 0.0
    ensures r.x * v.scale + v.position.x == p.x && r.y * v.scale + v.position.y == p.y
  {
    Point((p.x - v.position.x) / v.scale, (p.y - v.position.y) / v.scale)
  }

  /** Image space to screen space: the screen point at which the view shows `q`. */
  function ToScreen(v: View, q: Point): (r: Point)
    ensures v.scale != 0.0 ==>
      (r.x - v.position.x) / v.scale == q.x && (r.y - v.position.y) / v.scale == q.y
  {
    Point(q.x * v.scale + v.position.x, q.y * v.scale + v.position.y)
  }

  /** The two transforms are inverse to each other. */
  lemma TransformRoundTrip(v: View, p: Point, q: Point)
    requires v.scale != 0.0
    ensures ToScreen(v, ToImage(v, p)) == p
    ensures ToImage(v, ToScreen(v, q)) == q
  {
  }

  /**
   The view at `newScale` that keeps the image point under screen point
   `anchor` where it is: `anchor - imagePoint * newScale`.
   */
  function ZoomAbout(v: View, anchor: Point, newScale: real): (r: View)
    requires v.scale != 0.0 && newScale != 0.0
    ensures r.scale == newScale
    ensures ToImage(r, anchor) == ToImage(v, anchor)
  {
    var m := ToImage(v, anchor);
    View(newScale, Point(anchor.x - m.x * newScale, anchor.y - m.y * newScale))
  }

  /** Zooming away and back to the original scale about the same anchor restores the view. */
  lemma ZoomAboutRoundTrip(v: View, anchor: Point, s: real)
    requires v.scale != 0.0 && s != 0.0
    ensures ZoomAbout(ZoomAbout(v, anchor, s), anchor, v.scale) == v
  {
    var w := ZoomAbout(v, anchor, s);
    var m := ToImage(v, anchor);
    assert ToImage(w, anchor) == m;
    DivThenMul(anchor.x - v.position.x, v.scale);
    DivThenMul(anchor.y - v.position.y, v.scale);
    assert ZoomAbout(w, anchor, v.scale)
        == View(v.scale, Point(anchor.x - m.x * v.scale, anchor.y - m.y * v.scale));
  }

  lemma DivThenMul(a: real, s: real)
    requires s != 0.0
    ensures a / s * s == a
  {
  }

  function StageCenter(stage: Size): Point {
    Point(stage.width / 2.0, stage.height / 2.0)
  }

  /** handleZoomIn: ×1.2 about the stage centre, refused when the result exceeds 10. */
  function ZoomIn(v: View, stage: Size): (r: View)
    requires v.scale != 0.0
    ensures v.scale * ZoomStep > MaxScale ==> r == v
    ensures v.scale * ZoomStep <= MaxScale ==>
      r.scale == v.scale * ZoomStep && ToImage(r, StageCenter(stage)) == ToImage(v, StageCenter(stage))
  {
    var newScale := v.scale * ZoomStep;
    if newScale > MaxScale then v else ZoomAbout(v, StageCenter(stage), newScale)
  }

  /** handleZoomOut: ÷1.2 about the stage centre, refused when the result drops below 0.1. */
  function ZoomOut(v: View, stage: Size): (r: View)
    requires v.scale != 0.0
    ensures v.scale / ZoomStep < MinScale ==> r == v
    ensures v.scale / ZoomStep >= MinScale ==>
      r.scale == v.scale / ZoomStep && ToImage(r, StageCenter(stage)) == ToImage(v, StageCenter(stage))
  {
    var newScale := v.scale / ZoomStep;
    if newScale < MinScale then v else ZoomAbout(v, StageCenter(stage), newScale)
  }

  /** The scale one wheel step asks for: ×1.1 when scrolling up (`deltaY < 0`), ÷1.1 otherwise. */
  function WheelScale(scale: real, deltaY: real): real {
    if deltaY < 0.0 then scale * WheelStep else scale / WheelStep
  }

  /** handleWheel: the wheel's scale about the pointer, refused when it leaves [0.1, 10]. */
  function Wheel(v: View, pointer: Point, deltaY: real): (r: View)
    requires v.scale != 0.0
    ensures InRange(WheelScale(v.scale, deltaY)) ==>
      r.scale == WheelScale(v.scale, deltaY) && ToImage(r, pointer) == ToImage(v, pointer)
    ensures !InRange(WheelScale(v.scale, deltaY)) ==> r == v
  {
    var newScale := WheelScale(v.scale, deltaY);
    if newScale < MinScale || newScale > MaxScale then v
    else ZoomAbout(v, pointer, newScale)
  }

  /** A scale inside [0.1, 10] stays inside under both buttons and the wheel. */
  lemma ZoomKeepsRange(v: View, stage: Size, pointer: Point, deltaY: real)
    requires InRange(v.scale)
    ensures InRange(ZoomIn(v, stage).scale)
    ensures InRange(ZoomOut(v, stage).scale)
    ensures InRange(Wheel(v, pointer, deltaY).scale)
  {
  }

  /**
   From any positive scale, zooming in never goes above 10 unless the scale
   already was, and zooming out never goes below 0.1 unless it already was.
   */
  lemma ZoomBounded(v: View, stage: Size)
    requires v.scale > 0.0
    ensures ZoomIn(v, stage).scale <= Max(v.scale, MaxScale)
    ensures ZoomOut(v, stage).scale >= Min(v.scale, MinScale)
  {
  }

  /**
   From a scale in [0.1, 10], zooming in and then out (or out and then in)
   returns to the same view whenever the first step is accepted.
   */
  lemma ZoomInOutRoundTrip(v: View, stage: Size)
    requires InRange(v.scale)
    ensures v.scale * ZoomStep <= MaxScale ==> ZoomOut(ZoomIn(v, stage), stage) == v
    ensures v.scale / ZoomStep >= MinScale ==> ZoomIn(ZoomOut(v, stage), stage) == v
  {
    var c := StageCenter(stage);
    if v.scale * ZoomStep <= MaxScale {
      var w := ZoomIn(v, stage);
      assert w == ZoomAbout(v, c, v.scale * ZoomStep);
      assert w.scale / ZoomStep == v.scale;
      ZoomAboutRoundTrip(v, c, v.scale * ZoomStep);
    }
    if v.scale / ZoomStep >= MinScale {
      var w := ZoomOut(v, stage);
      assert w == ZoomAbout(v, c, v.scale / ZoomStep);
      assert w.scale * ZoomStep == v.scale;
      ZoomAboutRoundTrip(v, c, v.scale / ZoomStep);
    }
  }

  /**
   Whether the fit stays finite in JavaScript on a non-zero stage. A zero
   image side makes its ratio an infinity of the stage side's sign, which
   `Math.min` absorbs only when it is positive and the other ratio is finite;
   a 0×0 image (an image not yet loaded, or one that failed) gives an
   infinite scale and, through `0 * Infinity`, a NaN position.
   */
  predicate FitIsFinite(stage: Size, image: Size) {
    || (image.width > 0.0 && image.height > 0.0)
    || (image.width == 0.0 && image.height > 0.0 && stage.width > 0.0)
    || (image.height == 0.0 && image.width > 0.0 && stage.height > 0.0)
  }

  /** `Math.min(stageW / imageW, stageH / imageH)` where it is finite: an infinite ratio drops out. */
  function FitRatio(stage: Size, image: Size): real
    requires FitIsFinite(stage, image)
  {
    if image.width == 0.0 then stage.height / image.height
    else if image.height == 0.0 then stage.width / image.width
    else Min(stage.width / image.width, stage.height / image.height)
  }

  /** The fitted view: 90% of the ratio, the image centred on the stage. */
  function FitView(stage: Size, image: Size): (r: View)
    requires FitIsFinite(stage, image)
    ensures r.scale == FitRatio(stage, image) * FitMargin
    ensures r.position.x + image.width * r.scale / 2.0 == stage.width / 2.0
    ensures r.position.y + image.height * r.scale / 2.0 == stage.height / 2.0
  {
    var newScale := FitRatio(stage, image) * FitMargin;
    View(newScale, Point((stage.width - image.width * newScale) / 2.0,
                         (stage.height - image.height * newScale) / 2.0))
  }

  /**
   handleResetZoom and the fit-on-load code as written: nothing on a zero
   stage, otherwise the fitted view. `None` stands for the view whose scale
   is infinite or whose position is NaN, which reals cannot hold.
   */
  function FitAsWritten(v: View, stage: Size, image: Size): (r: Option<View>)
    requires image.width >= 0.0 && image.height >= 0.0
    ensures stage.width == 0.0 || stage.height == 0.0 ==> r == Some(v)
    ensures stage.width != 0.0 && stage.height != 0.0 ==>
      (r.None? <==> !FitIsFinite(stage, image))
    ensures r.Some? && stage.width != 0.0 && stage.height != 0.0 ==>
      && r.value.position.x + image.width * r.value.scale / 2.0 == stage.width / 2.0
      && r.value.position.y + image.height * r.value.scale / 2.0 == stage.height / 2.0
  {
    if stage.width == 0.0 || stage.height == 0.0 then Some(v)
    else if FitIsFinite(stage, image) then Some(FitView(stage, image))
    else None
  }

  /**
   handleResetZoom and the fit-on-load code as evidently intended: the same
   fit wherever it is finite, and no change while the image has no size.
   */
  function Fit(v: View, stage: Size, image: Size): (r: View)
    requires image.width >= 0.0 && image.height >= 0.0
    ensures stage.width == 0.0 || stage.height == 0.0 || !FitIsFinite(stage, image) ==> r == v
    ensures stage.width != 0.0 && stage.height != 0.0 && image.width > 0.0 && image.height > 0.0 ==>
      && r.scale == FitMargin * Min(stage.width / image.width, stage.height / image.height)
      && r.position.x + image.width * r.scale / 2.0 == stage.width / 2.0
      && r.position.y + image.height * r.scale / 2.0 == stage.height / 2.0
  {
    if stage.width != 0.0 && stage.height != 0.0 && FitIsFinite(stage, image) then FitView(stage, image)
    else v
  }

  /** Wherever the code as written yields a finite view, the intended fit is that view. */
  lemma FitAgreesWhereFinite(v: View, stage: Size, image: Size)
    requires image.width >= 0.0 && image.height >= 0.0
    ensures FitAsWritten(v, stage, image).Some? ==> Fit(v, stage, image) == FitAsWritten(v, stage, image).value
    ensures FitAsWritten(v, stage, image).None? ==> Fit(v, stage, image) == v
  {
  }

  /**
   Resetting before the image has loaded, on a non-empty stage: the code as
   written leaves a non-finite view; the intended fit keeps the view.
   */
  lemma ResetBeforeLoad(v: View, stage: Size)
    requires stage.width > 0.0 && stage.height > 0.0
    ensures FitAsWritten(v, stage, Size(0.0, 0.0)).None?
    ensures Fit(v, stage, Size(0.0, 0.0)) == v
  {
  }

  /**
   On a positive stage, a fit that moves the view at all leaves the image
   filling at most 90% of each stage side and exactly 90% of the tighter
   one, at a positive scale.
   */
  lemma FitFillsNinetyPercent(v: View, stage: Size, image: Size)
    requires image.width >= 0.0 && image.height >= 0.0 && FitIsFinite(stage, image)
    requires stage.width > 0.0 && stage.height > 0.0
    ensures var r := Fit(v, stage, image);
      && r.scale > 0.0
      && image.width * r.scale <= FitMargin * stage.width
      && image.height * r.scale <= FitMargin * stage.height
      && (image.width * r.scale == FitMargin * stage.width
          || image.height * r.scale == FitMargin * stage.height)
  {
    var s := Fit(v, stage, image).scale;
    if image.width == 0.0 {
      assert s == stage.height / image.height * FitMargin;
      assert image.height * s == FitMargin * stage.height;
    } else if image.height == 0.0 {
      assert s == stage.width / image.width * FitMargin;
      assert image.width * s == FitMargin * stage.width;
    } else {
      var rx, ry := stage.width / image.width, stage.height / image.height;
      var m := Min(rx, ry);
      assert image.width * rx == stage.width;
      assert image.height * ry == stage.height;
      ScaleMonotone(image.width, m, rx);
      ScaleMonotone(image.height, m, ry);
      assert image.width * (FitMargin * m) == FitMargin * (image.width * m);
      assert image.height * (FitMargin * m) == FitMargin * (image.height * m);
    }
  }

  lemma ScaleMonotone(w: real, a: real, b: real)
    requires w > 0.0 && a <= b
    ensures w * a <= w * b
  {
  }

  /** Dragging by a screen-space delta adds it to the position and leaves the scale. */
  function Pan(v: View, delta: Point): (r: View)
    ensures r.scale == v.scale
    ensures r.position.x - v.position.x == delta.x && r.position.y - v.position.y == delta.y
  {
    View(v.scale, Point(v.position.x + delta.x, v.position.y + delta.y))
  }

  /** Panning keeps the image point under the moving pointer the same. */
  lemma PanFollowsPointer(v: View, p: Point, delta: Point)
    requires v.scale != 0.0
    ensures ToImage(Pan(v, delta), Point(p.x + delta.x, p.y + delta.y)) == ToImage(v, p)
  {
  }
}
